=== FILE: README.md ===
# kLAME batch conversion engine in Dafny

kLAME is a Qt desktop front end to the LAME mp3 encoder. It converts a table
of WAV files (rows) under several encoder settings (columns). Each checked
cell becomes one conversion thread. This project models the engine behind
that table:

- **WavReader.** Validates the 44-byte WAV header (`isValidWavHeader`) and
  splits an interleaved PCM block into a left and a right lane
  (`getWavBuffer`).
- **BlockPartition.** The arithmetic in `Converter::run` that turns the
  data chunk size into a frame count, a block count and per-block sizes.
- **ConversionJob.** `Converter::run` itself. It opens the files, checks the
  header, announces the block count, then runs the block loop: read, encode,
  write, a progress signal every 100 blocks, and a cancel check. It ends with
  the flush.
- **ProgressDisplay.** The progress dialogue's two `uint` counters and the
  values it shows.
- **OptionParser.** `parseOptions`, which returns the n-th option of an
  option string, and `stripBadOptions`.
- **Keywords.** The table of valid LAME keywords.
- **LameSettings.** `setLameSetting`, which applies one option to a LAME
  context or refuses it.
- **OptionsDialogue.** The options dialogue's string round trip:
  `wipeSettings`, `setDefaultOptions` (option string to widgets) and
  `buildOptions` (widgets to option string).
- **Scheduler.** `on_actionConvertFiles_triggered`. It configures one LAME
  context per cell, starts the checked cells, waits for them, closes the
  contexts and reports the result.
- **Base and Text.** Shared vocabulary:
  - C integer conventions;
  - the parts of QString the code relies on (`simplified`, `section`,
    `number`, `toInt`), stated over `seq<char>`.

External effects become values:

- A file is a byte sequence.
- The LAME encoder is an `Encoder` record, with one reply per block and one
  for the flush.
- The cancel button is a predicate over block indices.
- `lame_init` and `lame_init_params` are predicates over cells and settings.
- `QString::toFloat`'s verdict is a predicate on the parameter text.
- The combo boxes' item texts are functions from index to text.

Events the job emits (progress signals, encoder calls, the flush) are
recorded in order in the job's result.

Behaviour of the code worth knowing before reading the model:

- **Block count.** The frame count is `dataSize / (channels*bits) * 8`, and
  the block count is `frames / 1152 + 1`. It is not a ceiling. 176400 data
  bytes of 16-bit stereo give 44096 frames, 39 blocks and a last block of
  320 frames (`BlockPartition.OneSecondScenario`).
- **Premature EOF.** `getWavBuffer` never reports a premature end of file;
  it always returns success. The model therefore never produces the
  "Premature EOF" code.
- **Flush after cancel.** A cancelled job still flushes the encoder.
- **`--vbr-old`.** It selects `vbr_mtrh`, the same mode as `--vbr-new`.
- **Configuration errors.** A configuration error does not abort only its
  column. The per-column loop keeps one return code across all rows:
  - A refused option or a failed `lame_init_params` in an earlier row is
    overwritten by the next row.
  - When the column's last row ends with an error, the batch leaves the
    column loop. The later columns are neither configured nor started
    (`Scheduler.ScheduleOk`, `Scheduler.ScheduleFails`).
- **Job errors.** A job's own return code (`getReturnCode`) is never read by
  the scheduler. The final message reflects only configuration and
  initialisation failures.

The model follows the code except for the defects listed under
"## Findings". Each is modelled twice, as written and corrected, and the
rest of the model uses the corrected half. "## Left out" names the one
that changes what `setLameSetting` returns.

## Model

| member | source | states |
|---|---|---|
| WavReader.IsValidWavHeader | klamemainform.cpp:656-719 | The header is accepted exactly when all checks pass: the RIFF, WAVE, "fmt " and "data" tags, a format size of 16, PCM code 1, 1 or 2 channels, and 8 or 16 bits. It then yields the little-endian fields, and all 44 bytes are consumed only on acceptance. A rejection stops at one of the check points (4, 12, 16, 20, 36 or 40 bytes). |
| WavReader.HeaderRoundTrip | klamemainform.cpp:656-719 | For any representable field set, the canonical header is accepted exactly when it has 1 or 2 channels and 8 or 16 bits. When accepted, it reads back exactly the fields it was written from. |
| WavReader.GetWavBuffer | klamemainform.cpp:740-791 | Reading a block always reports success. It consumes blockSize times the frame width and keeps both lanes 1152 samples long. |
| WavReader.GetWavBufferContents | klamemainform.cpp:747-789 | Sample j of the block is decoded as follows: 8-bit samples are the unsigned byte, and 16-bit samples are the little-endian word reinterpreted as a signed short. The right lane is written only for stereo. Lane slots past the block keep their previous values. |
| WavReader.GetWavBufferRoundTrip | klamemainform.cpp:740-791 | Reading back interleaved frames returns the left and right samples they were built from, and consumes exactly their bytes. |
| WavReader.ReadWidthIsFrameSize | klamemainform.cpp:747-789 | The bytes read per frame equal channels × bits / 8 for every accepted format. |
| BlockPartition.FrameCountBounds | klamemainform.cpp:832 | The computed frame count never reaches past the data chunk. It falls short of the true frame count by fewer than 8 frames. |
| BlockPartition.FrameCountFitsUint | klamemainform.cpp:832 | For a 32-bit chunk size, the frame count fits in a `uint`. |
| BlockPartition.NumBlocksBounds | klamemainform.cpp:834 | The block count n satisfies (n−1)·1152 ≤ frames < n·1152. An exact multiple of 1152 gets a final empty block. |
| BlockPartition.BlockSizes | klamemainform.cpp:838-842 | Every block but the last has 1152 frames. The last has frames mod 1152. |
| BlockPartition.BlockWithinFrames | klamemainform.cpp:838-842 | No block reaches past the frame count. |
| BlockPartition.BlocksCover | klamemainform.cpp:838-842 | The block sizes add up to the frame count. |
| BlockPartition.OneSecondScenario | klamemainform.cpp:832-842 | 176400 bytes of 16-bit stereo give 44096 frames and 39 blocks. The last block has 320 frames and the one before it is full. |
| ConversionJob.MessageInjective | klamemainform.cpp:813-874 | The return-code texts of the job are pairwise distinct, and "OK" is the text of success alone. |
| ConversionJob.Run | klamemainform.cpp:805-884 | Open failures give their codes, in the order the files are opened. A rejected header gives "OK" with no output and no events. An accepted header yields events that start with the block total and end with the flush. |
| ConversionJob.ConvertAnnounces | klamemainform.cpp:837-871 | The first event is the total-block signal with the block count, and the last is the flush. |
| ConversionJob.LoopReference | klamemainform.cpp:838-870 | The block loop equals its reference run. It encodes blocks up to the first one that fails or is cancelled, writes the positive-size outputs of the blocks that did not fail, and its code is the encoder error exactly when the last encoded block failed. |
| ConversionJob.ConvertReference | klamemainform.cpp:830-880 | The whole conversion equals the loop's reference run followed by the flush. The code is an encode error exactly when the last encoded block or the flush failed. |
| ConversionJob.CallsFromStops | klamemainform.cpp:855-869 | Every block before the last one encoded neither failed nor was cancelled. When the loop ends early, the last encoded block failed or was cancelled. |
| ConversionJob.CancelStops | klamemainform.cpp:869 | A cancel seen after block c, with no earlier halt, means exactly c+1 blocks were encoded. |
| ConversionJob.AllBlocksEncoded | klamemainform.cpp:838-870 | Without failure or cancel, every block is encoded. |
| ConversionJob.OnlyLastFails | klamemainform.cpp:855-858 | Only the last encoded block can have failed. |
| ConversionJob.EncodeErrorIff | klamemainform.cpp:855-875 | The job ends with an encode error exactly when some encoded block or the flush failed. |
| ConversionJob.OutputLength | klamemainform.cpp:860-863 | The bytes written by the loop are the sum of the positive reply sizes. |
| ConversionJob.ProgressWithinTotal | klamemainform.cpp:837-868 | The job signals a total equal to its block count. Its count signals add up to 100 × ⌊blocks completed / 100⌋, which never exceeds that total. |
| ConversionJob.EncodeCallsInOrder | klamemainform.cpp:838-864 | The encoder receives blocks 0, 1, … in order, each with its size and the lanes read for it. |
| ConversionJob.BlockSamples | klamemainform.cpp:843-854 | Lane sample m of block i is the file's sample at byte 44 + (i·1152 + m) × frame width. |
| ProgressDisplay.AddUint | klamemainform.cpp:953-963 | `uint` addition is exact below 2^32 and wraps modulo 2^32. |
| ProgressDisplay.BumpTotal | klamemainform.cpp:951-956 | The total grows, and the maximum follows it only once it is positive. The count and the value are untouched. |
| ProgressDisplay.BumpCount | klamemainform.cpp:961-966 | The count grows, and the value follows it only while the total is positive. The total and the maximum are untouched. |
| ProgressDisplay.FeedSums | klamemainform.cpp:941-966 | After any sequence of signals, the counters are the running sums of the increments modulo 2^32. |
| ProgressDisplay.FeedConsistent | klamemainform.cpp:951-966 | Once the total is positive, the maximum is the total. No value is shown before a maximum. |
| ProgressDisplay.NothingShownBeforeTotal | klamemainform.cpp:951-966 | Without wrap-around, a maximum is shown exactly when the totals add up to a positive number, and no value appears before that. |
| ProgressDisplay.JobDisplay | klamemainform.cpp:837-966 | One job's signals leave the maximum at its block count and the count within it, and the shown value equals the count. |
| ProgressDisplay.InterleavingFree | klamemainform.cpp:484-497 | The final counters are the same for every interleaving of the jobs' signals. |
| Text.SimplifiedKeepsWords | klameoptionsdialog.cpp:1005 | Simplifying keeps the words of the string and is idempotent. |
| Text.SplitOfJoin | klamemainform.cpp:998-999 | The space-separated sections of words joined by single spaces are those words. |
| Text.IntStringRoundTrip | klameoptionsdialog.cpp:604 | `toInt` reads back every `int` that `QString::number` wrote. |
| OptionParser.ParseOptions | klameoptionsdialog.cpp:1000-1029 | The string is simplified in place, and the result is the n-th option of its words ("" past the last). |
| OptionParser.OptionsAreGroups | klameoptionsdialog.cpp:1000-1029 | There is one option per dash token. Each option is a group: the dash token and the non-dash tokens after it, joined by single spaces, with a trailing space on the last. |
| OptionParser.ParseEmptyIff | klameoptionsdialog.cpp:1000-1029 | The n-th option is empty exactly when the string has at most n dash tokens. |
| OptionParser.ParseMonotone | klameoptionsdialog.cpp:1000-1029 | Once an option index yields "", every later index does too, so a loop until "" visits each option once. |
| OptionParser.ParseIsGroup | klameoptionsdialog.cpp:1012-1022 | The n-th option is the n-th group's text, and that group starts with a dash token. |
| OptionParser.GroupsPartition | klameoptionsdialog.cpp:1008-1027 | The groups, laid end to end, are the tokens from the first dash token on. Tokens before it belong to no option. |
| OptionParser.GroupsOfFlatten | klameoptionsdialog.cpp:1008-1027 | Regrouping concatenated groups recovers the same groups. |
| OptionParser.StripSpec | klameoptionsdialog.cpp:860-881 | Stripping yields, in order, each option whose keyword is in the table, each followed by one space. |
| OptionParser.StripGroups | klameoptionsdialog.cpp:860-881 | The stripped string's options are exactly the input's groups with a listed keyword, and stripping twice changes nothing more. |
| OptionParser.KeptGroupsAreGroups | klameoptionsdialog.cpp:867-875 | Every kept group is a well-formed group with a listed keyword, and filtering is idempotent. |
| Keywords.KeywordsListed | klameoptionsdialog.cpp:886-984 | The table holds 95 keywords, including -m, -V, --preset and --silent. |
| Keywords.DashDUnlisted | klameoptionsdialog.cpp:906 | "-d" is not in the table. |
| LameSettings.SetLameSetting | klamemainform.cpp:992-1176 | The reply is not "OK" exactly when the option is refused: a non-numeric integer parameter, a -m, --preset or --resample value outside its table, or a float that does not parse. A refused option returns its own text and changes nothing. |
| LameSettings.RefusedText | klamemainform.cpp:1021-1172 | A refused option's reply is never "OK", so the caller can tell it from success. |
| LameSettings.UnknownAccepted | klamemainform.cpp:1175 | A keyword the function does not know is accepted with nothing changed. |
| LameSettings.EmptyAccepted | klamemainform.cpp:998-1175 | The empty option, which ends the caller's loop, is accepted with nothing changed. |
| LameSettings.ModeTable | klamemainform.cpp:1006-1022 | -m is accepted exactly for m, s, j, a, f and d. m gives mono, s stereo, j and a joint stereo, and d dual channel, each leaving the mid/side flag as it was. f gives joint stereo with mid/side forced on. |
| LameSettings.VbrQualityClamped | klamemainform.cpp:1023-1032 | -V is accepted exactly for an integer. A negative value gives 0, a value above 9 gives 9, and 0..9 is kept exactly. VBR off becomes vbr_default, and a VBR mode already chosen is kept. |
| LameSettings.BitrateSetsMinimum | klamemainform.cpp:1050-1055 | -b is accepted exactly for an integer and sets both the bitrate and the VBR minimum to it. |
| LameSettings.AbrMapped | klamemainform.cpp:1056-1068 | --abr is accepted exactly for an integer and selects ABR. Below 8 the mean is 8, 8..320 is kept exactly, and 321..7999 gives 320. From 8000 up, the value is bps rounded to the nearest kbps and then clamped to 8..320. Wherever `parmI + 500` does not overflow, the mean equals the as-written mapping. |
| LameSettings.QualityClamped | klamemainform.cpp:1073-1081 | -q is accepted exactly for an integer, clamped to 0..9, and exact within it. |
| LameSettings.ResampleRates | klamemainform.cpp:1146-1169 | --resample is accepted exactly for the eleven table texts. 8, 12, 16, 24, 32, 44.1 and 48 give that many kHz in Hz. 11 and 11.025 give 11025, and 22 and 22.05 give 22050. "44" is refused, with nothing changed. |
| LameSettings.MaxAndCompSet | klamemainform.cpp:1045-1049 | -B is accepted exactly for an integer, and the VBR maximum becomes that integer unchanged. The same holds for -X and the quantisation comparison at lines 1170-1174. |
| LameSettings.SwitchValues | klamemainform.cpp:1033-1044 | --vbr-new and --vbr-old both select vbr_mtrh, and -v selects vbr_default. --cbr (lines 1069-1072) turns VBR off, and -k (lines 1082-1086) sets both filter frequencies to −1. All five are always accepted. |
| LameSettings.PresetValues | klamemainform.cpp:1087-1098 | --preset is accepted exactly for standard, medium, extreme and insane. The first three set the VBR quality to 2, 4 and 0. insane selects the INSANE preset and leaves the VBR quality as it was. |
| LameSettings.FloatChecked | klamemainform.cpp:1100-1145 | A float keyword with a parameter is accepted exactly when toFloat reads that parameter. |
| LameSettings.OnlyTouched | klamemainform.cpp:1006-1174 | Nothing else changes: an option leaves every setting its keyword's LAME calls do not reach as it was. `--highpass` and `--lowpass` count as reaching the highpass and lowpass frequencies. |
| LameSettings.AbrKbps | klamemainform.cpp:1056-1068 | The corrected --abr mapping always lies in 8..320, keeps 8..320 as is, and maps every bps value from 319500 up to 320. |
| LameSettings.AbrKbpsAsWritten | klamemainform.cpp:1061-1066 | The as-written mapping, with the 32-bit `parmI + 500`, still lands in 8..320. |
| LameSettings.AbrAgreesBelowOverflow | klamemainform.cpp:1061-1062 | The two mappings agree whenever `parmI + 500` does not overflow. |
| LameSettings.AbrOverflowExample | klamemainform.cpp:1061-1062 | With the largest `int`, the as-written mapping gives 8 kbps where 320 is meant. |
| LameSettings.AbrMonotone | klamemainform.cpp:1061-1066 | The corrected mapping of bps values never decreases. |
| OptionsDialogue.ReadLoopIsFold | klameoptionsdialog.cpp:593-728 | setDefaultOptions reads every option of the string once, in order. |
| OptionsDialogue.ModeRoundTrip | klameoptionsdialog.cpp:605-617 | Reading -m with m, s, j, f or d selects the mode that buildOptions writes back as the same option. Any other value changes no widget. |
| OptionsDialogue.ModeReadBack | klameoptionsdialog.cpp:799-806 | Each of the five mode letters buildOptions writes reads back to the same mode index. |
| OptionsDialogue.QualityRoundTrip | klameoptionsdialog.cpp:618-622 | Reading -V p for p in 0..10 selects VBR with quality 100 − 10p, and buildOptions writes -V p back. |
| OptionsDialogue.QualityReadBack | klameoptionsdialog.cpp:756-758 | Every quality that is a multiple of 10 survives writing as -V and reading back. |
| OptionsDialogue.ParameterCarried | klameoptionsdialog.cpp:604 | An option without a parameter reuses the last integer parameter read (shown for -q). |
| OptionsDialogue.UnrecognisedKept | klameoptionsdialog.cpp:724-725 | An option the dialogue has no widget for changes no widget and is kept, with a space, for the additional-options box. |
| OptionsDialogue.RatePart | klameoptionsdialog.cpp:753-796 | The rate options always start with a space. |
| OptionsDialogue.WidgetPart | klameoptionsdialog.cpp:753-850 | The widget options always start with a space. |
| OptionsDialogue.Before | klameoptionsdialog.cpp:841-845 | The resample text up to " kHz" is a prefix of the combo text. |
| OptionsDialogue.BeforeUnit | klameoptionsdialog.cpp:841-845 | For a combo text "r kHz…", the resample parameter is r. |
| OptionsDialogue.NoAdditional | klameoptionsdialog.cpp:747-750 | With an empty additional-options box, reading it adds nothing and changes no widget. |
| OptionsDialogue.DefaultRate | klameoptionsdialog.cpp:544-579 | After wiping, the rate options are " -V 4 --vbr-old". |
| OptionsDialogue.DefaultTail | klameoptionsdialog.cpp:797-850 | After wiping, the advanced options are " -q 5". |
| OptionsDialogue.DefaultOptionString | klameoptionsdialog.cpp:742-851 | The option string of a wiped dialogue is " --silent -V 4 --vbr-old -q 5". This holds for buildOptions as written and for the corrected glue. |
| OptionsDialogue.BuildWithoutAdditional | klameoptionsdialog.cpp:745-751 | With no additional options, the string is " --silent" followed by the widget options. This holds as written and corrected. |
| OptionsDialogue.GluedSilent | klameoptionsdialog.cpp:745-751 | As written, non-empty additional options are glued onto "--silent". The first token is then neither "--silent" nor any keyword setLameSetting acts on, so setLameSetting accepts and ignores it. |
| OptionsDialogue.SeparateSilent | klameoptionsdialog.cpp:745-751 | Corrected, the tokens are "--silent", then the additional options' tokens, then the widget options' tokens. |
| Scheduler.ApplyLoopIsFold | klamemainform.cpp:452-460 | The do-while applies the column's options one after another, in order. |
| Scheduler.ApplyAllOutcome | klamemainform.cpp:452-460 | Applying succeeds exactly when no option is refused. Otherwise the code is the first refused option's text. |
| Scheduler.ColumnCodeSpec | klamemainform.cpp:443-460 | A column's options succeed exactly when none is refused. Otherwise the code names the first refused option, whose text is not "OK". |
| Scheduler.CellCodeSpec | klamemainform.cpp:452-466 | A cell is configured exactly when no option is refused and `lame_init_params` accepts the settings. A refusal names the first refused option. |
| Scheduler.Stub | klamemainform.cpp:471-473 | The file-name stub holds no dot and is no longer than the name. |
| Scheduler.StubOfName | klamemainform.cpp:471-473 | Leading dots are skipped, and the stub is the text up to the next dot. |
| Scheduler.OutputPathOfName | klamemainform.cpp:469-478 | For a file "a.b", the output is the column's directory, "/", a, the column's tag and ".mp3". |
| Scheduler.ScheduleOk | klamemainform.cpp:422-508 | The batch ends "OK" exactly when no column stops it. A column stops the batch when `lame_init` fails on a row, or its last row ends with a configuration error. |
| Scheduler.ScheduleFails | klamemainform.cpp:422-508 | A failing batch names a processed column that stops. Its code is the `lame_init` failure, or else that column's configuration error. |
| Scheduler.ScheduleInits | klamemainform.cpp:429-435 | A context is initialised exactly for the cells of processed columns whose row and all rows above it got one from `lame_init`. No cell is initialised twice. |
| Scheduler.ScheduleStarts | klamemainform.cpp:467-504 | A cell's job is started exactly when its column is processed, the cell is reached, the column's configuration succeeds and the cell is checked. |
| Scheduler.LaunchContents | klamemainform.cpp:469-503 | A started job gets the row's input path, the column's output path for the file, and the column's applied settings. |
| Scheduler.WaitHangs | klamemainform.cpp:512-524 | As written, a checked cell whose column's configuration fails is waited on although its job never started. |
| Scheduler.StartedAreLaunches | klamemainform.cpp:467-504 | Every started job is the launch of a checked cell of the table, with that cell's input path, output path and column settings. |
| Scheduler.WaitCovers | klamemainform.cpp:512-524 | Corrected, the wait covers every started job. Every cell it waits on is a checked cell of the table whose job was started. |
| Scheduler.GridMember | klamemainform.cpp:527-531 | The teardown visits exactly the cells of the table. |
| Scheduler.ClosesUninitialised | klamemainform.cpp:527-531 | As written, when a column before the last stops the batch, a context of the last column is closed although `lame_init` never ran for it. |
| Scheduler.ClosesInitialised | klamemainform.cpp:527-531 | Corrected, exactly the contexts `lame_init` returned are closed, and each is a cell of the table. |
| Scheduler.ReportsSuccess | klamemainform.cpp:532-536 | "Conversions Complete" is shown exactly when no column stops the batch. |

## Left out

- **User interface.** Widgets, dialogues, menus, project files, settings
  persistence and message boxes are left out. Message texts are kept only
  as return-code strings.
- **Threads.** Threads, signal/slot delivery and `processEvents` are not
  modelled. Jobs are independent functions. The progress dialogue sees the
  jobs' signals in some order, and `ProgressDisplay.InterleavingFree`
  covers every order.
- **LAME internals.** LAME itself (`lame_init`, `lame_init_params`,
  `lame_encode_buffer`, `lame_encode_flush`, `lame_close`) is given as
  oracles. Encoding results are values of the `Encoder` record.
- **Float keywords.** Their arithmetic (`--highpass`, `--highpass-width`,
  `--lowpass`, `--lowpass-width`, `--cwlimit`: the kHz scaling, clamping
  and the float-to-int conversion) is not modelled. Only toFloat's accept
  or refuse verdict is, because floating point is outside the model.
- **Missing parameter.** An integer or float keyword without a parameter
  makes `setLameSetting` read an uninitialised flag. Such options are
  excluded by the `Defined` requirement.
- **Reads past the end of the file.** They are excluded: the model requires
  the header and every block the loop reads to be present.
- **Output path normalisation.** `QDir::filePath`'s normalisation of
  absolute names and separators is not modelled; the path is
  directory + "/" + file name.
- **Widget constraints.** Radio-button exclusivity, widget ranges and
  clamping, and the display-slot side effects of `setupDisplay` and the
  `on_…_changed` handlers are not modelled. The form definition is not part
  of this model, so widget values are taken as given.
- **Combo-box item texts.** The preset and resample combo texts are
  parameters for the same reason.
- **`100-parm*10` overflow.** The 32-bit overflow in `setDefaultOptions`
  for extreme `-V` values is not modelled; integers there are unbounded.
- **Text.** Unicode, QString case rules and non-ASCII whitespace beyond
  the C whitespace characters are not modelled.
- **Option index width.** The `short` option index in `parseOptions`,
  `stripBadOptions` and `setDefaultOptions` is unbounded in the model, so
  a string with more than 32767 options behaves differently.
- **Table size arithmetic.** The `uint` wrap of `columnCount()-2` on a
  table without setting columns, and the stack arrays sized by the table,
  are not modelled. The table is given as its columns and rows.
- **Wait loop.** The busy-wait is modelled as the set of cells it waits
  on, not as a loop over thread states.
- **Premature EOF.** The "Premature EOF" message is never produced by the
  code, since `getWavBuffer` always succeeds. It is kept in the job's code
  type for completeness.
- LameSettings.SetLameSetting: `--abr` uses the corrected rounding
  (`AbrKbps`), not the 32-bit `parmI + 500` of the code. For a parameter
  above 2147483147 the model gives 320 kbps where the code as written gives
  8 (first row of "## Findings"). `LameSettings.AbrMapped` states that the
  two agree on every smaller parameter.
- LameSettings.SetLameSetting: the float keywords store no value. Their
  effect on the LAME context is abstracted to "accepted", because floating
  point is outside the model. `--highpass` and `--lowpass` do write the
  highpass and lowpass frequencies, so `LameSettings.OnlyTouched` counts
  those fields as reached and promises nothing about their new value. The
  widths and `--cwlimit` write settings the model does not hold.
- ConversionJob.Run: the output file's bytes are the concatenation of what
  the loop and the flush write. Closing files and partial writes are not
  modelled.
- OptionsDialogue.ParameterCarried: stated for `-q` only. The same carried
  parameter feeds `-V`, `-B`, `-b`, `--abr` and `-X` through the shared
  `parm` branch, but those are not stated separately.

## Findings

| source | as written | input that shows it | evidently intended | confidence | as-written member | corrected member |
|---|---|---|---|---|---|---|
| klamemainform.cpp:1061-1062 | `(parmI + 500) / 1000` in 32-bit `int` overflows for parameters above 2147483147 | `--abr 2147483647` gives 8 kbps | a huge bps value clamps to 320 kbps | not executed | LameSettings.AbrOverflowExample (LameSettings.AbrKbpsAsWritten) | LameSettings.AbrMonotone (LameSettings.AbrKbps) |
| klameoptionsdialog.cpp:745-751 | the additional options are appended to " --silent" with no separating space | additional options "-m a" give " --silent-m a …": "--silent-m" is accepted and ignored, and no widget writes "-m a" back, so the joint-stereo request is lost ("-V x" would be accepted instead of refused) | " --silent" followed by a space and the additional options | not executed | OptionsDialogue.GluedSilent (OptionsDialogue.BuildOptionsAsWritten) | OptionsDialogue.SeparateSilent (OptionsDialogue.BuildOptions) |
| klamemainform.cpp:512-524 | the wait loop waits on every checked cell, started or not | a checked cell in a column whose option is refused: its thread never starts | wait only for the jobs that were started | not executed | Scheduler.WaitHangs (Scheduler.WaitEndsAsWritten) | Scheduler.WaitCovers (Scheduler.Waited) |
| klamemainform.cpp:527-531 | `lame_close` is called on every cell's context, including cells never initialised | two columns, the first with a refused option: the column loop breaks and the second column's contexts were never set | close only the contexts `lame_init` returned | not executed | Scheduler.ClosesUninitialised (Scheduler.ClosedAsWritten) | Scheduler.ClosesInitialised (Scheduler.Closed) |

=== FILE: base.dfy ===
/** Shared vocabulary: optional values, bytes, 16-bit samples and the
    C integer conventions the program relies on. */
module Base {

  /** The conventional Some/None datatype. */
  datatype Option<+T> = None | Some(value: T)

  /** An unsigned 8-bit value, as read from a file. */
  type Byte = b: int | 0 <= b < 256

  /** A value of the C type `short` (signed 16-bit). */
  type Sample = x: int | -32768 <= x < 32768

  const INT32_MIN: int := -0x8000_0000
  const INT32_MAX: int := 0x7FFF_FFFF

  /** Multiplying by the same natural keeps an order. */
  lemma MulLe(a: nat, b: nat, c: nat)
    requires a <= b
    ensures a * c <= b * c
  {
  }

  /** Concatenation is associative; stated once so that proofs can name
      the regrouping they need. */
  lemma AppendAssoc<T>(a: seq<T>, b: seq<T>, c: seq<T>)
    ensures a + (b + c) == a + b + c
  {
  }

  /** Frames per lane in one PCM block handed to the encoder. */
  const INPUT_BLOCK_SIZE: nat := 1152

  /** Capacity of the mp3 output buffer: 5/4 of a block plus 7200 bytes,
      in C integer arithmetic. */
  const OUTPUT_BLOCK_SIZE: nat := 5 * INPUT_BLOCK_SIZE / 4 + 7200

  /** Modulus of the C type `uint` (unsigned 32-bit). */
  const UINT_MODULUS: nat := 0x1_0000_0000

  /** The value a `short` receives when assigned an `unsigned int` in
      0..65535: two's complement reinterpretation of the low 16 bits. */
  function ToShort(u: nat): (s: Sample)
    requires u < 65536
    ensures 0 <= s ==> s == u
    ensures s < 0 ==> s == u - 65536
    ensures (s + 65536) % 65536 == u
  {
    if u < 32768 then u else u - 65536
  }

  /** C's `/` on `int`, which truncates toward zero (Dafny's `/` is
      Euclidean). */
  function TruncDiv(a: int, b: int): (q: int)
    requires b > 0
    ensures a >= 0 ==> q == a / b
    ensures a < 0 ==> q == -((-a) / b)
  {
    if a >= 0 then a / b else -((-a) / b)
  }

  /** Clamp `x` into `lo..hi` the way the program's paired `if`s do. */
  function Clamp(x: int, lo: int, hi: int): (r: int)
    requires lo <= hi
    ensures lo <= r <= hi
    ensures lo <= x <= hi ==> r == x
    ensures x < lo ==> r == lo
    ensures x > hi ==> r == hi
  {
    if x < lo then lo else if x > hi then hi else x
  }
}

=== FILE: blocks.dfy ===
/** How Converter::run cuts the samples of a WAV file into blocks for the
    encoder: the frame count derived from the data chunk size, the number
    of blocks and the size of each block. */
module BlockPartition {
  import opened Base

  /** Frames in the data chunk, as the program computes them: the chunk size
      divided by channels * bits and multiplied by 8, in integer arithmetic,
      so the count is rounded down to a multiple of 8. */
  function FrameCount(dataSize: nat, channels: nat, bits: nat): (frames: nat)
    requires channels * bits > 0
    ensures frames % 8 == 0
  {
    dataSize / (channels * bits) * 8
  }

  /** Bytes per frame for the formats the header admits. */
  function BytesPerFrame(channels: nat, bits: nat): nat {
    channels * bits / 8
  }

  /** The computed count is at most the true number of whole frames in the
      chunk and falls short of it by fewer than 8 frames: the frames handed
      to the encoder never reach past the data chunk, and up to 7 frames at
      its end are dropped. */
  lemma FrameCountBounds(dataSize: nat, channels: nat, bits: nat)
    requires channels in {1, 2} && bits in {8, 16}
    ensures var f := FrameCount(dataSize, channels, bits);
      && f * BytesPerFrame(channels, bits) <= dataSize
      && dataSize < (f + 8) * BytesPerFrame(channels, bits)
  {
    var cb := channels * bits;
    var q := dataSize / cb;
    assert dataSize == q * cb + dataSize % cb;
    assert cb == 8 * BytesPerFrame(channels, bits) by {
      assert cb in {8, 16, 32};
    }
    assert FrameCount(dataSize, channels, bits) * BytesPerFrame(channels, bits) == q * cb;
  }

  /** With a 32-bit chunk size the `unsigned int` expression
      size / (channels * bits) * 8 does not wrap around. */
  lemma FrameCountFitsUint(dataSize: nat, channels: nat, bits: nat)
    requires channels in {1, 2} && bits in {8, 16} && dataSize < UINT_MODULUS
    ensures FrameCount(dataSize, channels, bits) < UINT_MODULUS
  {
    assert dataSize / (channels * bits) <= dataSize / 8;
  }

  /** Blocks the loop runs: one more than the number of whole blocks, so
      there is always at least one and the last may be partial or empty. */
  function NumBlocks(frames: nat): (n: nat)
    ensures n >= 1
  {
    frames / INPUT_BLOCK_SIZE + 1
  }

  /** The blocks before the last are all full and the frames do not fill
      the last one. */
  lemma NumBlocksBounds(frames: nat)
    ensures var n := NumBlocks(frames);
      (n - 1) * INPUT_BLOCK_SIZE <= frames < n * INPUT_BLOCK_SIZE
  {
  }

  /** Frames in block `call`: a full block, except that the last block
      takes what the others leave. */
  function BlockSize(frames: nat, call: nat): (size: nat)
    requires call < NumBlocks(frames)
    ensures size <= INPUT_BLOCK_SIZE
  {
    NumBlocksBounds(frames);
    if call == NumBlocks(frames) - 1 then frames - INPUT_BLOCK_SIZE * (NumBlocks(frames) - 1)
    else INPUT_BLOCK_SIZE
  }

  /** Block `call` ends within the frames. */
  lemma BlockWithinFrames(frames: nat, call: nat)
    requires call < NumBlocks(frames)
    ensures call * INPUT_BLOCK_SIZE + BlockSize(frames, call) <= frames
  {
    NumBlocksBounds(frames);
    MulLe(call, NumBlocks(frames) - 1, INPUT_BLOCK_SIZE);
  }

  /** Every block but the last is full and the last holds the remainder
      frames % INPUT_BLOCK_SIZE, which is 0 when the frames fill whole
      blocks. */
  lemma BlockSizes(frames: nat, call: nat)
    requires call < NumBlocks(frames)
    ensures call < NumBlocks(frames) - 1 ==> BlockSize(frames, call) == INPUT_BLOCK_SIZE
    ensures call == NumBlocks(frames) - 1 ==> BlockSize(frames, call) == frames % INPUT_BLOCK_SIZE
  {
  }

  /** Frames in the first k blocks. */
  function BlocksTotal(frames: nat, k: nat): nat
    requires k <= NumBlocks(frames)
  {
    if k == 0 then 0 else BlocksTotal(frames, k - 1) + BlockSize(frames, k - 1)
  }

  /** The first k blocks hold k full blocks, and all of them together hold
      exactly the frame count: every frame is encoded once. */
  lemma {:induction false} BlocksCover(frames: nat, k: nat)
    requires k <= NumBlocks(frames)
    ensures k < NumBlocks(frames) ==> BlocksTotal(frames, k) == k * INPUT_BLOCK_SIZE
    ensures k == NumBlocks(frames) ==> BlocksTotal(frames, k) == frames
  {
    if k > 0 {
      BlocksCover(frames, k - 1);
    }
  }

  /** One second of 44.1 kHz 16-bit stereo (176400 bytes of data) gives
      44096 frames, four short of the true 44100, in 39 blocks, the last of
      which holds 320 frames. */
  lemma OneSecondScenario()
    ensures FrameCount(176400, 2, 16) == 44096
    ensures 176400 / BytesPerFrame(2, 16) == 44100
    ensures NumBlocks(44096) == 39
    ensures BlockSize(44096, 38) == 320
    ensures BlockSize(44096, 37) == INPUT_BLOCK_SIZE
  {
  }
}

=== FILE: converter.dfy ===
/** Converter::run: one conversion job, from opening the files to the
    return code. The LAME library, the cancel flag and the files are
    parameters: the encoder is an oracle giving its reply to each block
    (by block index) and to the final flush, `cancel(call)` is the flag as
    the loop reads it after block `call`, and the input file is the byte
    sequence read from it. */
module ConversionJob {
  import opened Base
  import opened WavReader
  import opened BlockPartition

  /** The outcomes run can report in returnCode_. */
  datatype Code = OK | OPEN_INPUT_ERROR | OPEN_OUTPUT_ERROR | PREMATURE_EOF | ENCODE_ERROR

  /** The text run leaves in returnCode_ for each outcome. */
  function Message(c: Code): (m: string)
    ensures m == "OK" <==> c == OK
  {
    match c
    case OK => "OK"
    case OPEN_INPUT_ERROR => "Could not open an input file."
    case OPEN_OUTPUT_ERROR => "Could not open an output file."
    case PREMATURE_EOF => "Corrupted WAV File. Premature EOF"
    case ENCODE_ERROR => "mp3 Conversion Error Occurred"
  }

  /** Distinct outcomes are reported by distinct texts. */
  lemma MessageInjective(c: Code, d: Code)
    ensures Message(c) == Message(d) <==> c == d
  {
  }

  /** What lame_encode_buffer or lame_encode_flush leaves behind: its
      result and the output buffer of OUTPUT_BLOCK_SIZE bytes. A negative
      result is an error; the encoder never reports more bytes than the
      buffer it was given holds. */
  datatype RawReply = RawReply(size: int, buffer: seq<Byte>)

  type Reply = r: RawReply | |r.buffer| == OUTPUT_BLOCK_SIZE && r.size <= OUTPUT_BLOCK_SIZE
    witness RawReply(0, seq(OUTPUT_BLOCK_SIZE, i => 0))

  /** The bytes written to the output file for a reply: exactly `size`
      bytes of the buffer when the size is positive, nothing otherwise. */
  function Written(r: Reply): (b: seq<Byte>)
    ensures |b| == (if r.size > 0 then r.size else 0)
  {
    if r.size > 0 then Prefix(r.buffer, r.size) else []
  }

  /** The first n bytes of s (written out by recursion rather than as a
      slice). */
  function Prefix(s: seq<Byte>, n: nat): (p: seq<Byte>)
    requires n <= |s|
    ensures |p| == n
  {
    if n == 0 then [] else Prefix(s, n - 1) + [s[n - 1]]
  }

  /** Prefix keeps each byte in place. */
  lemma {:induction false} PrefixAt(s: seq<Byte>, n: nat, i: nat)
    requires i < n <= |s|
    ensures Prefix(s, n)[i] == s[i]
  {
    if i < n - 1 {
      PrefixAt(s, n - 1, i);
    }
  }

  /** fwrite(mp3Buffer, 1, size): the written bytes are the buffer's
      first bytes, in order. */
  lemma WrittenBytes(r: Reply, i: nat)
    requires i < |Written(r)|
    ensures Written(r)[i] == r.buffer[i]
  {
    PrefixAt(r.buffer, r.size, i);
  }

  /** The LAME library as one job sees it: the reply to block `call`, and
      the reply to the flush. */
  datatype Encoder = Encoder(encode: nat -> Reply, flush: Reply)

  /** The job's interactions, in order: the progress signals it emits and
      the calls into the encoder. */
  datatype Event =
    | Total(blocks: nat)                               // progressTotalIncrement
    | Encoded(call: nat, blockSize: nat, lanes: Lanes)  // lame_encode_buffer
    | Count(n: nat)                                    // progressCountIncrement
    | Flushed                                          // lame_encode_flush

  /** returnCode_, the output file's contents and the events so far. */
  datatype State = State(code: Code, output: seq<Byte>, events: seq<Event>)

  /** What the loop works on once the header is accepted. */
  datatype Job = Job(file: seq<Byte>, channels: nat, bits: nat, frames: nat,
                     encoder: Encoder, cancel: nat -> bool)

  function Width(j: Job): nat {
    ReadWidth(j.channels, j.bits)
  }

  /** The file holds every byte the loop reads. */
  predicate Readable(j: Job) {
    HEADER_SIZE + j.frames * Width(j) <= |j.file|
  }

  /** Where block `call` starts: all blocks before it are full. */
  function BlockStart(j: Job, call: nat): nat {
    HEADER_SIZE + call * INPUT_BLOCK_SIZE * Width(j)
  }

  lemma BlockInFile(j: Job, call: nat)
    requires Readable(j) && call < NumBlocks(j.frames)
    ensures BlockStart(j, call) + BlockSize(j.frames, call) * Width(j) <= |j.file|
  {
    var w := Width(j);
    var bs := BlockSize(j.frames, call);
    assert call * INPUT_BLOCK_SIZE * w + bs * w == (call * INPUT_BLOCK_SIZE + bs) * w;
    MulLe(call * INPUT_BLOCK_SIZE + bs, j.frames, w);
  }

  lemma NextBlockStart(j: Job, call: nat)
    requires call < NumBlocks(j.frames)
    ensures call + 1 < NumBlocks(j.frames) ==>
      BlockStart(j, call) + BlockSize(j.frames, call) * Width(j) == BlockStart(j, call + 1)
  {
    var w := Width(j);
    assert (call + 1) * INPUT_BLOCK_SIZE * w == call * INPUT_BLOCK_SIZE * w + INPUT_BLOCK_SIZE * w;
  }

  /** getWavBuffer on block `call`, with the stream at byte pos. */
  function ReadAt(j: Job, call: nat, pos: nat, lanes: Lanes): BufferRead
    requires Readable(j) && ValidLanes(lanes) && call < NumBlocks(j.frames)
    requires pos == BlockStart(j, call)
  {
    BlockInFile(j, call);
    GetWavBuffer(j.file, pos, lanes, j.channels, j.bits, BlockSize(j.frames, call))
  }

  /** The state after one iteration, and whether the loop breaks. */
  datatype StepResult = StepResult(state: State, stop: bool)

  /** One iteration of the loop in run, after the read: a failed read
      breaks with the premature-EOF message, otherwise the block goes to
      the encoder. */
  function Outcome(j: Job, call: nat, read: BufferRead, st: State): StepResult
    requires call < NumBlocks(j.frames)
  {
    if !read.ok then StepResult(State(PREMATURE_EOF, st.output, st.events), true)
    else AfterEncode(j, call, read.lanes, st)
  }

  /** The rest of the iteration once the encoder has replied: an error
      breaks at once; otherwise the bytes are written, every hundredth
      block is counted and then the cancel flag is read. */
  function AfterEncode(j: Job, call: nat, lanes: Lanes, st: State): StepResult
    requires call < NumBlocks(j.frames)
  {
    var reply := j.encoder.encode(call);
    var sent := st.events + [Encoded(call, BlockSize(j.frames, call), lanes)];
    if reply.size < 0 then StepResult(State(ENCODE_ERROR, st.output, sent), true)
    else StepResult(State(st.code, st.output + Written(reply), sent + Progress(call)), j.cancel(call))
  }

  /** The count signal after block `call`: 100 after every hundredth block. */
  function Progress(call: nat): seq<Event> {
    if call % 100 == 99 then [Count(100)] else []
  }

  /** The block loop of run from block `call` on, with the stream at pos
      and the sample buffer holding `lanes`. */
  function Loop(j: Job, call: nat, pos: nat, lanes: Lanes, st: State): State
    requires Readable(j) && ValidLanes(lanes) && call <= NumBlocks(j.frames)
    requires call < NumBlocks(j.frames) ==> pos == BlockStart(j, call)
    decreases NumBlocks(j.frames) - call
  {
    if call == NumBlocks(j.frames) then st
    else
      var read := ReadAt(j, call, pos, lanes);
      var s := Outcome(j, call, read, st);
      if s.stop then s.state
      else
        NextBlockStart(j, call);
        Loop(j, call + 1, pos + read.consumed, read.lanes, s.state)
  }

  /** The flush after the loop, which runs however the loop ended. */
  function Flush(j: Job, st: State): State {
    State(if j.encoder.flush.size < 0 then ENCODE_ERROR else st.code,
          st.output + Written(j.encoder.flush), st.events + [Flushed])
  }

  /** The header fields run uses, for an accepted header. */
  predicate Supported(h: WavHeader) {
    h.channels in {1, 2} && h.bits in {8, 16}
  }

  function JobOf(file: seq<Byte>, h: WavHeader, encoder: Encoder, cancel: nat -> bool): Job
    requires Supported(h)
  {
    Job(file, h.channels, h.bits, FrameCount(h.dataSize, h.channels, h.bits), encoder, cancel)
  }

  /** The file is at least a header long and, when the header is accepted,
      holds every sample the loop reads. */
  predicate Playable(file: seq<Byte>) {
    && |file| >= HEADER_SIZE
    && var h := IsValidWavHeader(file).header;
       h.Some? ==>
         HEADER_SIZE + FrameCount(h.value.dataSize, h.value.channels, h.value.bits)
                       * ReadWidth(h.value.channels, h.value.bits) <= |file|
  }

  /** The conversion of an accepted file: announce the blocks, run the
      loop, flush. */
  function Convert(j: Job, lanes: Lanes): State
    requires Readable(j) && ValidLanes(lanes)
  {
    Flush(j, Loop(j, 0, HEADER_SIZE, lanes, State(OK, [], [Total(NumBlocks(j.frames))])))
  }

  /** Converter::run on a freshly constructed converter, whose returnCode_
      is "OK". `lanes` is the uninitialised sample buffer. A rejected
      header ends the job with nothing encoded, nothing flushed and the
      code still "OK". */
  function Run(inputOpens: bool, outputOpens: bool, file: seq<Byte>, encoder: Encoder,
               cancel: nat -> bool, lanes: Lanes): (r: State)
    requires ValidLanes(lanes) && Playable(file)
    ensures r.code in {OK, OPEN_INPUT_ERROR, OPEN_OUTPUT_ERROR, ENCODE_ERROR}
    ensures !inputOpens <==> r.code == OPEN_INPUT_ERROR
    ensures inputOpens && !outputOpens <==> r.code == OPEN_OUTPUT_ERROR
    ensures (!inputOpens || !outputOpens || IsValidWavHeader(file).header.None?)
            ==> r.output == [] && r.events == []
    ensures inputOpens && outputOpens && IsValidWavHeader(file).header.None? ==> r.code == OK
    ensures inputOpens && outputOpens && IsValidWavHeader(file).header.Some? ==>
      |r.events| >= 3 && r.events[0].Total? && r.events[|r.events| - 1] == Flushed
  {
    if !inputOpens then State(OPEN_INPUT_ERROR, [], [])
    else if !outputOpens then State(OPEN_OUTPUT_ERROR, [], [])
    else if IsValidWavHeader(file).header.None? then State(OK, [], [])
    else
      var j := JobOf(file, IsValidWavHeader(file).header.value, encoder, cancel);
      ConvertReference(j, lanes);
      ConvertAnnounces(j, lanes);
      Convert(j, lanes)
  }

  // ---------------------------------------------------------------------
  // The same job, described block by block

  /** Sample m of block i in lane 0 (left) or 1 (right), decoded from
      frame i * INPUT_BLOCK_SIZE + m of the data chunk. */
  function SampleAt(j: Job, i: nat, m: nat, lane: nat): Sample
    requires Readable(j) && i < NumBlocks(j.frames) && m < BlockSize(j.frames, i)
    requires lane == 0 || (lane == 1 && j.channels == 2)
  {
    SampleInFile(j, i, m);
    DecodeSample(j.file, FramePos(j, i, m) + (if lane == 0 then 0 else ReadWidth(1, j.bits)), j.bits)
  }

  /** Where frame m of block i starts in the file. */
  function FramePos(j: Job, i: nat, m: nat): nat {
    HEADER_SIZE + (i * INPUT_BLOCK_SIZE + m) * Width(j)
  }

  lemma SampleInFile(j: Job, i: nat, m: nat)
    requires Readable(j) && i < NumBlocks(j.frames) && m < BlockSize(j.frames, i)
    ensures FramePos(j, i, m) + Width(j) <= |j.file|
  {
    MulLe(i * INPUT_BLOCK_SIZE + m + 1, j.frames, Width(j));
  }

  /** Index m of lane `lane` once block i has been read. The buffer is
      never cleared: the right lane of a mono file keeps its initial
      contents, and the indices a short last block does not reach keep
      the samples of the block before it (or the initial contents when
      it is the only block). */
  function LaneAt(j: Job, lanes: Lanes, i: nat, m: nat, lane: nat): Sample
    requires Readable(j) && ValidLanes(lanes) && i < NumBlocks(j.frames)
    requires m < INPUT_BLOCK_SIZE && lane < 2
  {
    if lane == 1 && j.channels != 2 then lanes.right[m]
    else if m < BlockSize(j.frames, i) then SampleAt(j, i, m, lane)
    else if i == 0 then (if lane == 0 then lanes.left[m] else lanes.right[m])
    else SampleAt(j, i - 1, m, lane)
  }

  /** The first n indices of lane `lane` once block i has been read. */
  function LaneSeq(j: Job, lanes: Lanes, i: nat, lane: nat, n: nat): (r: seq<Sample>)
    requires Readable(j) && ValidLanes(lanes) && i < NumBlocks(j.frames)
    requires n <= INPUT_BLOCK_SIZE && lane < 2
    ensures |r| == n
  {
    if n == 0 then [] else LaneSeq(j, lanes, i, lane, n - 1) + [LaneAt(j, lanes, i, n - 1, lane)]
  }

  lemma {:induction false} LaneSeqAt(j: Job, lanes: Lanes, i: nat, lane: nat, n: nat, m: nat)
    requires Readable(j) && ValidLanes(lanes) && i < NumBlocks(j.frames)
    requires m < n <= INPUT_BLOCK_SIZE && lane < 2
    ensures LaneSeq(j, lanes, i, lane, n)[m] == LaneAt(j, lanes, i, m, lane)
  {
    if m < n - 1 {
      LaneSeqAt(j, lanes, i, lane, n - 1, m);
    }
  }

  /** The sample buffer after block i has been read. */
  function BlockLanes(j: Job, lanes: Lanes, i: nat): (r: Lanes)
    requires Readable(j) && ValidLanes(lanes) && i < NumBlocks(j.frames)
    ensures ValidLanes(r)
  {
    Lanes(LaneSeq(j, lanes, i, 0, INPUT_BLOCK_SIZE), LaneSeq(j, lanes, i, 1, INPUT_BLOCK_SIZE))
  }

  /** The buffer as block i finds it. */
  function PriorLanes(j: Job, lanes: Lanes, i: nat): (r: Lanes)
    requires Readable(j) && ValidLanes(lanes) && i <= NumBlocks(j.frames)
    ensures ValidLanes(r)
  {
    if i == 0 then lanes else BlockLanes(j, lanes, i - 1)
  }

  /** getWavBuffer, applied to block i with the buffer as the block before
      left it, produces the buffer the block-by-block description gives. */
  lemma ReadBlockLanes(j: Job, lanes: Lanes, i: nat)
    requires Readable(j) && ValidLanes(lanes) && i < NumBlocks(j.frames)
    ensures BlockStart(j, i) + BlockSize(j.frames, i) * Width(j) <= |j.file|
    ensures GetWavBuffer(j.file, BlockStart(j, i), PriorLanes(j, lanes, i), j.channels, j.bits,
                         BlockSize(j.frames, i)).lanes == BlockLanes(j, lanes, i)
  {
    BlockInFile(j, i);
    var prior := PriorLanes(j, lanes, i);
    var r := GetWavBuffer(j.file, BlockStart(j, i), prior, j.channels, j.bits, BlockSize(j.frames, i)).lanes;
    var b := BlockLanes(j, lanes, i);
    forall m | 0 <= m < INPUT_BLOCK_SIZE
      ensures r.left[m] == b.left[m] && r.right[m] == b.right[m]
    {
      ReadBlockLanesAt(j, lanes, i, m);
      LaneSeqAt(j, lanes, i, 0, INPUT_BLOCK_SIZE, m);
      LaneSeqAt(j, lanes, i, 1, INPUT_BLOCK_SIZE, m);
    }
    assert r.left == b.left && r.right == b.right;
  }

  lemma ReadBlockLanesAt(j: Job, lanes: Lanes, i: nat, m: nat)
    requires Readable(j) && ValidLanes(lanes) && i < NumBlocks(j.frames) && m < INPUT_BLOCK_SIZE
    ensures BlockStart(j, i) + BlockSize(j.frames, i) * Width(j) <= |j.file|
    ensures var r := GetWavBuffer(j.file, BlockStart(j, i), PriorLanes(j, lanes, i), j.channels, j.bits,
                                  BlockSize(j.frames, i)).lanes;
      r.left[m] == LaneAt(j, lanes, i, m, 0) && r.right[m] == LaneAt(j, lanes, i, m, 1)
  {
    BlockInFile(j, i);
    var bs := BlockSize(j.frames, i);
    if i > 0 {
      LaneSeqAt(j, lanes, i - 1, 0, INPUT_BLOCK_SIZE, m);
      LaneSeqAt(j, lanes, i - 1, 1, INPUT_BLOCK_SIZE, m);
    }
    GetWavBufferContents(j.file, BlockStart(j, i), PriorLanes(j, lanes, i), j.channels, j.bits, bs, m);
    if m < bs {
      ReadFrameLanes(j, lanes, i, m);
    } else if i > 0 {
      BlockSizes(j.frames, i - 1);
    }
  }

  /** A frame the block reads lands, decoded, at its index in the lanes. */
  lemma ReadFrameLanes(j: Job, lanes: Lanes, i: nat, m: nat)
    requires Readable(j) && ValidLanes(lanes) && i < NumBlocks(j.frames) && m < BlockSize(j.frames, i)
    ensures BlockStart(j, i) + BlockSize(j.frames, i) * Width(j) <= |j.file|
    ensures var r := GetWavBuffer(j.file, BlockStart(j, i), PriorLanes(j, lanes, i), j.channels, j.bits,
                                  BlockSize(j.frames, i)).lanes;
      && r.left[m] == SampleAt(j, i, m, 0)
      && (j.channels == 2 ==> r.right[m] == SampleAt(j, i, m, 1))
  {
    BlockInFile(j, i);
    var w := Width(j);
    var p := BlockStart(j, i) + m * w;
    assert p == FramePos(j, i, m) by {
      assert (i * INPUT_BLOCK_SIZE + m) * w == i * INPUT_BLOCK_SIZE * w + m * w;
    }
    GetWavBufferContents(j.file, BlockStart(j, i), PriorLanes(j, lanes, i), j.channels, j.bits,
                         BlockSize(j.frames, i), m);
  }

  /** Block i ends the loop: the encoder failed on it or the job was
      cancelled while it was converted. */
  predicate Halts(j: Job, i: nat) {
    j.encoder.encode(i).size < 0 || j.cancel(i)
  }

  /** The number of blocks handed to the encoder, counting from block i:
      up to and including the first block that halts, or all of them. */
  function CallsFrom(j: Job, i: nat): (k: nat)
    requires i <= NumBlocks(j.frames)
    ensures i <= k <= NumBlocks(j.frames)
    decreases NumBlocks(j.frames) - i
  {
    if i == NumBlocks(j.frames) then i
    else if Halts(j, i) then i + 1
    else CallsFrom(j, i + 1)
  }

  /** The events of the run up to block k: the total, announced first,
      then for each block its encode call and, unless the encoder failed
      on it, its count signal. */
  function EventsUpTo(j: Job, lanes: Lanes, k: nat): seq<Event>
    requires Readable(j) && ValidLanes(lanes) && k <= NumBlocks(j.frames)
  {
    if k == 0 then [Total(NumBlocks(j.frames))]
    else
      var sent := EventsUpTo(j, lanes, k - 1)
                  + [Encoded(k - 1, BlockSize(j.frames, k - 1), BlockLanes(j, lanes, k - 1))];
      if j.encoder.encode(k - 1).size < 0 then sent else sent + Progress(k - 1)
  }

  /** The mp3 bytes of the first k blocks: what the encoder returned for
      each block it did not fail on. */
  function OutputUpTo(j: Job, k: nat): seq<Byte> {
    if k == 0 then []
    else if j.encoder.encode(k - 1).size < 0 then OutputUpTo(j, k - 1)
    else OutputUpTo(j, k - 1) + Written(j.encoder.encode(k - 1))
  }

  /** The loop's return code: the encoder error if the last block it
      encoded failed, the code it started with otherwise. */
  function LoopCode(j: Job, i: nat, k: nat, code: Code): Code {
    if k > i && j.encoder.encode(k - 1).size < 0 then ENCODE_ERROR else code
  }

  /** The events up to block k start with the total and hold at least one
      event per block. */
  predicate StartsWithTotal(j: Job, lanes: Lanes, k: nat)
    requires Readable(j) && ValidLanes(lanes) && k <= NumBlocks(j.frames)
  {
    var ev := EventsUpTo(j, lanes, k);
    |ev| >= k + 1 && ev[0] == Total(NumBlocks(j.frames))
  }

  lemma {:induction false} EventsUpToStart(j: Job, lanes: Lanes, k: nat)
    requires Readable(j) && ValidLanes(lanes) && k <= NumBlocks(j.frames)
    ensures StartsWithTotal(j, lanes, k)
  {
    if k > 0 {
      EventsUpToStart(j, lanes, k - 1);
    }
    StartStep(j, lanes, k);
  }

  /** A run's first signal announces its block count, and its last event
      is the flush. */
  lemma ConvertAnnounces(j: Job, lanes: Lanes)
    requires Readable(j) && ValidLanes(lanes)
    ensures var ev := Convert(j, lanes).events;
      |ev| >= 3 && ev[0] == Total(NumBlocks(j.frames)) && ev[|ev| - 1] == Flushed
  {
    ConvertReference(j, lanes);
    EventsUpToStart(j, lanes, CallsFrom(j, 0));
    assert StartsWithTotal(j, lanes, CallsFrom(j, 0));
  }

  lemma StartStep(j: Job, lanes: Lanes, k: nat)
    requires Readable(j) && ValidLanes(lanes) && k <= NumBlocks(j.frames)
    requires k > 0 ==> StartsWithTotal(j, lanes, k - 1)
    ensures StartsWithTotal(j, lanes, k)
  {
    if k > 0 {
      var sent := EventsUpTo(j, lanes, k - 1)
                  + [Encoded(k - 1, BlockSize(j.frames, k - 1), BlockLanes(j, lanes, k - 1))];
      assert sent[0] == EventsUpTo(j, lanes, k - 1)[0];
      if j.encoder.encode(k - 1).size >= 0 {
        assert (sent + Progress(k - 1))[0] == sent[0];
      }
    }
  }

  /** An iteration appends exactly block i's events and bytes, and sets the
      encoder error when the block's encoding failed. */
  lemma StepAppends(j: Job, lanes: Lanes, i: nat, code: Code)
    requires Readable(j) && ValidLanes(lanes) && i < NumBlocks(j.frames)
    ensures var s := AfterEncode(j, i, BlockLanes(j, lanes, i),
                                 State(code, OutputUpTo(j, i), EventsUpTo(j, lanes, i)));
      && s.stop == Halts(j, i)
      && s.state == State(if j.encoder.encode(i).size < 0 then ENCODE_ERROR else code,
                          OutputUpTo(j, i + 1), EventsUpTo(j, lanes, i + 1))
  {
  }

  /** Block i, read from the buffer the block before left, is encoded
      from the block-by-block description's buffer. */
  lemma StepReads(j: Job, lanes: Lanes, i: nat, st: State)
    requires Readable(j) && ValidLanes(lanes) && i < NumBlocks(j.frames)
    ensures var read := ReadAt(j, i, BlockStart(j, i), PriorLanes(j, lanes, i));
      && read.lanes == BlockLanes(j, lanes, i)
      && Outcome(j, i, read, st) == AfterEncode(j, i, BlockLanes(j, lanes, i), st)
  {
    ReadBlockLanes(j, lanes, i);
  }

  /** The loop stops at a block that halts. */
  lemma LoopStops(j: Job, lanes: Lanes, i: nat, st: State)
    requires Readable(j) && ValidLanes(lanes) && i < NumBlocks(j.frames) && Halts(j, i)
    ensures Loop(j, i, BlockStart(j, i), PriorLanes(j, lanes, i), st)
         == AfterEncode(j, i, BlockLanes(j, lanes, i), st).state
  {
    StepReads(j, lanes, i, st);
  }

  /** Past a block that does not halt, the loop moves on to the next
      block, at the next block's offset, with the buffer as read. */
  lemma LoopMovesOn(j: Job, lanes: Lanes, i: nat, st: State)
    requires Readable(j) && ValidLanes(lanes) && i < NumBlocks(j.frames) && !Halts(j, i)
    ensures Loop(j, i, BlockStart(j, i), PriorLanes(j, lanes, i), st)
         == Loop(j, i + 1, BlockStart(j, i + 1), PriorLanes(j, lanes, i + 1),
                 AfterEncode(j, i, BlockLanes(j, lanes, i), st).state)
  {
    if i + 1 < NumBlocks(j.frames) {
      LoopMovesOnInner(j, lanes, i, st);
    } else {
      LoopMovesOnLast(j, lanes, i, st);
    }
  }

  lemma LoopMovesOnInner(j: Job, lanes: Lanes, i: nat, st: State)
    requires Readable(j) && ValidLanes(lanes) && i + 1 < NumBlocks(j.frames) && !Halts(j, i)
    ensures Loop(j, i, BlockStart(j, i), PriorLanes(j, lanes, i), st)
         == Loop(j, i + 1, BlockStart(j, i + 1), PriorLanes(j, lanes, i + 1),
                 AfterEncode(j, i, BlockLanes(j, lanes, i), st).state)
  {
    StepReads(j, lanes, i, st);
    NextBlockStart(j, i);
  }

  lemma LoopMovesOnLast(j: Job, lanes: Lanes, i: nat, st: State)
    requires Readable(j) && ValidLanes(lanes) && i + 1 == NumBlocks(j.frames) && !Halts(j, i)
    ensures Loop(j, i, BlockStart(j, i), PriorLanes(j, lanes, i), st)
         == AfterEncode(j, i, BlockLanes(j, lanes, i), st).state
    ensures Loop(j, i + 1, BlockStart(j, i + 1), PriorLanes(j, lanes, i + 1),
                 AfterEncode(j, i, BlockLanes(j, lanes, i), st).state)
         == AfterEncode(j, i, BlockLanes(j, lanes, i), st).state
  {
    StepReads(j, lanes, i, st);
  }

  /** The loop with the buffer of each block given by the block-by-block
      description instead of read from the file. */
  function Reference(j: Job, lanes: Lanes, i: nat, st: State): State
    requires Readable(j) && ValidLanes(lanes) && i <= NumBlocks(j.frames)
    decreases NumBlocks(j.frames) - i
  {
    if i == NumBlocks(j.frames) then st
    else
      var s := AfterEncode(j, i, BlockLanes(j, lanes, i), st);
      if s.stop then s.state else Reference(j, lanes, i + 1, s.state)
  }

  /** The loop as written, from block i on, reads, block after block, the
      buffer the block-by-block description gives. */
  predicate LoopAgrees(j: Job, lanes: Lanes, i: nat, st: State)
    requires Readable(j) && ValidLanes(lanes) && i <= NumBlocks(j.frames)
  {
    Loop(j, i, BlockStart(j, i), PriorLanes(j, lanes, i), st) == Reference(j, lanes, i, st)
  }

  lemma {:induction false} LoopIsReference(j: Job, lanes: Lanes, i: nat, st: State)
    requires Readable(j) && ValidLanes(lanes) && i <= NumBlocks(j.frames)
    ensures LoopAgrees(j, lanes, i, st)
    decreases NumBlocks(j.frames) - i
  {
    if i < NumBlocks(j.frames) && !Halts(j, i) {
      LoopIsReference(j, lanes, i + 1, AfterEncode(j, i, BlockLanes(j, lanes, i), st).state);
    }
    AgreeStep(j, lanes, i, st);
  }

  lemma AgreeStep(j: Job, lanes: Lanes, i: nat, st: State)
    requires Readable(j) && ValidLanes(lanes) && i <= NumBlocks(j.frames)
    requires i < NumBlocks(j.frames) && !Halts(j, i) ==>
      LoopAgrees(j, lanes, i + 1, AfterEncode(j, i, BlockLanes(j, lanes, i), st).state)
    ensures LoopAgrees(j, lanes, i, st)
  {
    if i < NumBlocks(j.frames) && !Halts(j, i) {
      AgreeContinues(j, lanes, i, st);
    } else if i < NumBlocks(j.frames) {
      AgreeHalts(j, lanes, i, st);
    }
  }

  lemma AgreeContinues(j: Job, lanes: Lanes, i: nat, st: State)
    requires Readable(j) && ValidLanes(lanes) && i < NumBlocks(j.frames) && !Halts(j, i)
    requires LoopAgrees(j, lanes, i + 1, AfterEncode(j, i, BlockLanes(j, lanes, i), st).state)
    ensures LoopAgrees(j, lanes, i, st)
  {
    LoopMovesOn(j, lanes, i, st);
    ReferenceMovesOn(j, lanes, i, st);
  }

  lemma AgreeHalts(j: Job, lanes: Lanes, i: nat, st: State)
    requires Readable(j) && ValidLanes(lanes) && i < NumBlocks(j.frames) && Halts(j, i)
    ensures LoopAgrees(j, lanes, i, st)
  {
    LoopStops(j, lanes, i, st);
    ReferenceHalts(j, lanes, i, st);
  }

  lemma ReferenceMovesOn(j: Job, lanes: Lanes, i: nat, st: State)
    requires Readable(j) && ValidLanes(lanes) && i < NumBlocks(j.frames) && !Halts(j, i)
    ensures Reference(j, lanes, i, st)
         == Reference(j, lanes, i + 1, AfterEncode(j, i, BlockLanes(j, lanes, i), st).state)
  {
  }

  lemma ReferenceHalts(j: Job, lanes: Lanes, i: nat, st: State)
    requires Readable(j) && ValidLanes(lanes) && i < NumBlocks(j.frames) && Halts(j, i)
    ensures Reference(j, lanes, i, st) == AfterEncode(j, i, BlockLanes(j, lanes, i), st).state
  {
  }

  /** The block-by-block run from block i on, started after the events and
      bytes of the blocks before i, adds those of every block up to the
      first that halts, and ends with the encoder error if that block's
      encoding failed. */
  predicate FlatFrom(j: Job, lanes: Lanes, i: nat, code: Code)
    requires Readable(j) && ValidLanes(lanes) && i <= NumBlocks(j.frames)
  {
    var k := CallsFrom(j, i);
    Reference(j, lanes, i, State(code, OutputUpTo(j, i), EventsUpTo(j, lanes, i)))
    == State(LoopCode(j, i, k, code), OutputUpTo(j, k), EventsUpTo(j, lanes, k))
  }

  lemma {:induction false} ReferenceFlat(j: Job, lanes: Lanes, i: nat, code: Code)
    requires Readable(j) && ValidLanes(lanes) && i <= NumBlocks(j.frames)
    ensures FlatFrom(j, lanes, i, code)
    decreases NumBlocks(j.frames) - i
  {
    if i < NumBlocks(j.frames) && !Halts(j, i) {
      ReferenceFlat(j, lanes, i + 1, code);
    }
    FlatStep(j, lanes, i, code);
  }

  lemma FlatStep(j: Job, lanes: Lanes, i: nat, code: Code)
    requires Readable(j) && ValidLanes(lanes) && i <= NumBlocks(j.frames)
    requires i < NumBlocks(j.frames) && !Halts(j, i) ==> FlatFrom(j, lanes, i + 1, code)
    ensures FlatFrom(j, lanes, i, code)
  {
    if i < NumBlocks(j.frames) && !Halts(j, i) {
      FlatContinues(j, lanes, i, code);
    } else {
      FlatStops(j, lanes, i, code);
    }
  }

  lemma FlatStops(j: Job, lanes: Lanes, i: nat, code: Code)
    requires Readable(j) && ValidLanes(lanes) && i <= NumBlocks(j.frames)
    requires i < NumBlocks(j.frames) ==> Halts(j, i)
    ensures FlatFrom(j, lanes, i, code)
  {
    if i < NumBlocks(j.frames) {
      FlatHalts(j, lanes, i, code);
    } else {
      FlatEnd(j, lanes, i, code);
    }
  }

  lemma FlatHalts(j: Job, lanes: Lanes, i: nat, code: Code)
    requires Readable(j) && ValidLanes(lanes) && i < NumBlocks(j.frames) && Halts(j, i)
    ensures FlatFrom(j, lanes, i, code)
  {
    ReferenceStops(j, lanes, i, code);
    LoopCodeStops(j, i, code);
  }

  lemma ReferenceStops(j: Job, lanes: Lanes, i: nat, code: Code)
    requires Readable(j) && ValidLanes(lanes) && i < NumBlocks(j.frames) && Halts(j, i)
    ensures Reference(j, lanes, i, State(code, OutputUpTo(j, i), EventsUpTo(j, lanes, i)))
         == State(if j.encoder.encode(i).size < 0 then ENCODE_ERROR else code,
                  OutputUpTo(j, i + 1), EventsUpTo(j, lanes, i + 1))
  {
    StepAppends(j, lanes, i, code);
  }

  lemma LoopCodeStops(j: Job, i: nat, code: Code)
    requires i < NumBlocks(j.frames) && Halts(j, i)
    ensures CallsFrom(j, i) == i + 1
    ensures LoopCode(j, i, CallsFrom(j, i), code) == if j.encoder.encode(i).size < 0 then ENCODE_ERROR else code
  {
  }

  lemma FlatEnd(j: Job, lanes: Lanes, i: nat, code: Code)
    requires Readable(j) && ValidLanes(lanes) && i == NumBlocks(j.frames)
    ensures FlatFrom(j, lanes, i, code)
  {
  }

  lemma FlatContinues(j: Job, lanes: Lanes, i: nat, code: Code)
    requires Readable(j) && ValidLanes(lanes) && i < NumBlocks(j.frames) && !Halts(j, i)
    requires FlatFrom(j, lanes, i + 1, code)
    ensures FlatFrom(j, lanes, i, code)
  {
    ReferenceStep(j, lanes, i, code);
    LoopCodeStep(j, i, code);
  }

  lemma ReferenceStep(j: Job, lanes: Lanes, i: nat, code: Code)
    requires Readable(j) && ValidLanes(lanes) && i < NumBlocks(j.frames) && !Halts(j, i)
    ensures Reference(j, lanes, i, State(code, OutputUpTo(j, i), EventsUpTo(j, lanes, i)))
         == Reference(j, lanes, i + 1, State(code, OutputUpTo(j, i + 1), EventsUpTo(j, lanes, i + 1)))
  {
    StepAppends(j, lanes, i, code);
  }

  lemma LoopCodeStep(j: Job, i: nat, code: Code)
    requires i < NumBlocks(j.frames) && !Halts(j, i)
    ensures CallsFrom(j, i) == CallsFrom(j, i + 1)
    ensures LoopCode(j, i, CallsFrom(j, i), code) == LoopCode(j, i + 1, CallsFrom(j, i + 1), code)
  {
  }

  /** The loop as written produces what the block-by-block description
      says: the events and bytes of every block up to the first that
      halts, and the encoder error if that block's encoding failed. */
  lemma LoopReference(j: Job, lanes: Lanes, i: nat, code: Code)
    requires Readable(j) && ValidLanes(lanes) && i <= NumBlocks(j.frames)
    ensures var k := CallsFrom(j, i);
      Loop(j, i, BlockStart(j, i), PriorLanes(j, lanes, i),
           State(code, OutputUpTo(j, i), EventsUpTo(j, lanes, i)))
      == State(LoopCode(j, i, k, code), OutputUpTo(j, k), EventsUpTo(j, lanes, k))
  {
    LoopIsReference(j, lanes, i, State(code, OutputUpTo(j, i), EventsUpTo(j, lanes, i)));
    assert LoopAgrees(j, lanes, i, State(code, OutputUpTo(j, i), EventsUpTo(j, lanes, i)));
    ReferenceFlat(j, lanes, i, code);
    assert FlatFrom(j, lanes, i, code);
  }

  /** The whole conversion of an accepted file, block by block: the total
      first, the events of the blocks up to the first that halts, the
      flush last; the output is their bytes followed by the flush's; the
      code is the encoder error when that block or the flush failed. */
  lemma ConvertReference(j: Job, lanes: Lanes)
    requires Readable(j) && ValidLanes(lanes)
    ensures var k := CallsFrom(j, 0);
      var r := Convert(j, lanes);
      && 1 <= k
      && r.events == EventsUpTo(j, lanes, k) + [Flushed]
      && r.output == OutputUpTo(j, k) + Written(j.encoder.flush)
      && r.code == (if j.encoder.encode(k - 1).size < 0 || j.encoder.flush.size < 0 then ENCODE_ERROR else OK)
  {
    LoopReference(j, lanes, 0, OK);
  }

  // ---------------------------------------------------------------------
  // Properties of the block-by-block description

  /** No block before the last one handed to the encoder halts, and the
      loop stops early only at a block that halts. */
  lemma {:induction false} CallsFromStops(j: Job, i: nat)
    requires i <= NumBlocks(j.frames)
    ensures var k := CallsFrom(j, i);
      && (forall m :: i <= m < k - 1 ==> !Halts(j, m))
      && (k < NumBlocks(j.frames) ==> k > i && Halts(j, k - 1))
      && (k == i ==> i == NumBlocks(j.frames))
    decreases NumBlocks(j.frames) - i
  {
    if i < NumBlocks(j.frames) && !Halts(j, i) {
      CallsFromStops(j, i + 1);
    }
  }

  /** Cancellation is read only once a block is complete: the block during
      which the flag is first seen is encoded and written in full, and no
      block after it is handed to the encoder. */
  lemma CancelStops(j: Job, c: nat)
    requires c < NumBlocks(j.frames) && j.cancel(c)
    requires forall m :: 0 <= m < c ==> !Halts(j, m)
    ensures CallsFrom(j, 0) == c + 1
  {
    CallsFromStops(j, 0);
    assert Halts(j, c);
  }

  /** Without an encoder error or a cancel every block is encoded. */
  lemma AllBlocksEncoded(j: Job)
    requires forall m :: 0 <= m < NumBlocks(j.frames) ==> !Halts(j, m)
    ensures CallsFrom(j, 0) == NumBlocks(j.frames)
  {
    CallsFromStops(j, 0);
  }

  /** Only the last block handed to the encoder can have failed. */
  lemma OnlyLastFails(j: Job)
    ensures var k := CallsFrom(j, 0);
      forall m :: 0 <= m < k - 1 ==> j.encoder.encode(m).size >= 0
  {
    var k := CallsFrom(j, 0);
    CallsFromStops(j, 0);
    forall m | 0 <= m < k - 1
      ensures j.encoder.encode(m).size >= 0
    {
      assert !Halts(j, m);
    }
  }

  /** The run ends with the encoder error exactly when some block handed to
      the encoder, or the flush, failed. */
  lemma EncodeErrorIff(j: Job, lanes: Lanes)
    requires Readable(j) && ValidLanes(lanes)
    ensures var k := CallsFrom(j, 0);
      Convert(j, lanes).code == ENCODE_ERROR
      <==> (exists m :: 0 <= m < k && j.encoder.encode(m).size < 0) || j.encoder.flush.size < 0
  {
    var k := CallsFrom(j, 0);
    assert 1 <= k && Convert(j, lanes).code
      == (if j.encoder.encode(k - 1).size < 0 || j.encoder.flush.size < 0 then ENCODE_ERROR else OK) by {
      ConvertReference(j, lanes);
    }
    assert (exists m :: 0 <= m < k && j.encoder.encode(m).size < 0) <==> j.encoder.encode(k - 1).size < 0 by {
      OnlyLastFails(j);
    }
    assert OK != ENCODE_ERROR;
  }

  /** The output file holds the written bytes of each encoded block in
      block order, and then the flush's: its length is the sum of the
      positive encoder results. */
  function PositiveSum(j: Job, k: nat): nat {
    if k == 0 then 0
    else PositiveSum(j, k - 1) + (if j.encoder.encode(k - 1).size > 0 then j.encoder.encode(k - 1).size else 0)
  }

  lemma {:induction false} OutputLength(j: Job, k: nat)
    ensures |OutputUpTo(j, k)| == PositiveSum(j, k)
  {
    if k > 0 {
      OutputLength(j, k - 1);
    }
  }

  /** The sum of the count signals among some events. */
  function CountSum(events: seq<Event>): nat {
    if events == [] then 0
    else CountSum(events[..|events| - 1]) + (if events[|events| - 1].Count? then events[|events| - 1].n else 0)
  }

  /** The sum of the total signals among some events. */
  function TotalSum(events: seq<Event>): nat {
    if events == [] then 0
    else TotalSum(events[..|events| - 1]) + (if events[|events| - 1].Total? then events[|events| - 1].blocks else 0)
  }

  lemma {:induction false} CountSumAppend(a: seq<Event>, b: seq<Event>)
    ensures CountSum(a + b) == CountSum(a) + CountSum(b)
    ensures TotalSum(a + b) == TotalSum(a) + TotalSum(b)
    decreases |b|
  {
    if b == [] {
      assert a + b == a;
    } else {
      assert (a + b)[..|a + b| - 1] == a + b[..|b| - 1];
      CountSumAppend(a, b[..|b| - 1]);
    }
  }

  lemma SingleSums(e: Event)
    ensures CountSum([e]) == (if e.Count? then e.n else 0)
    ensures TotalSum([e]) == (if e.Total? then e.blocks else 0)
  {
    assert [e][..0] == [];
  }

  lemma HundredStep(k: nat)
    requires k > 0
    ensures 100 * (k / 100) == 100 * ((k - 1) / 100) + (if (k - 1) % 100 == 99 then 100 else 0)
  {
    var q := (k - 1) / 100;
    var r := (k - 1) % 100;
    assert k - 1 == 100 * q + r;
    if r == 99 {
      assert k == 100 * (q + 1);
    } else {
      assert k == 100 * q + (r + 1) && r + 1 < 100;
    }
  }

  /** The events up to block k, none of whose blocks failed, count 100
      for every full hundred blocks, and announce the total once. */
  lemma {:induction false} CountUpTo(j: Job, lanes: Lanes, k: nat)
    requires Readable(j) && ValidLanes(lanes) && k <= NumBlocks(j.frames)
    requires forall m :: 0 <= m < k ==> j.encoder.encode(m).size >= 0
    ensures CountSum(EventsUpTo(j, lanes, k)) == 100 * (k / 100)
    ensures TotalSum(EventsUpTo(j, lanes, k)) == NumBlocks(j.frames)
  {
    if k == 0 {
      SingleSums(Total(NumBlocks(j.frames)));
    } else {
      CountUpTo(j, lanes, k - 1);
      CountStep(j, lanes, k);
      HundredStep(k);
    }
  }

  /** A block the encoder did not fail on adds its count signal. */
  lemma CountStep(j: Job, lanes: Lanes, k: nat)
    requires Readable(j) && ValidLanes(lanes) && 0 < k <= NumBlocks(j.frames)
    requires j.encoder.encode(k - 1).size >= 0
    ensures CountSum(EventsUpTo(j, lanes, k))
         == CountSum(EventsUpTo(j, lanes, k - 1)) + (if (k - 1) % 100 == 99 then 100 else 0)
    ensures TotalSum(EventsUpTo(j, lanes, k)) == TotalSum(EventsUpTo(j, lanes, k - 1))
  {
    var sent := EventsUpTo(j, lanes, k - 1);
    var e := Encoded(k - 1, BlockSize(j.frames, k - 1), BlockLanes(j, lanes, k - 1));
    SentSums(sent, e);
    CountSumAppend(sent + [e], Progress(k - 1));
    if (k - 1) % 100 == 99 {
      SingleSums(Count(100));
    }
  }

  /** An encode call adds nothing to the sums. */
  lemma SentSums(sent: seq<Event>, e: Event)
    requires e.Encoded?
    ensures CountSum(sent + [e]) == CountSum(sent) && TotalSum(sent + [e]) == TotalSum(sent)
  {
    assert (sent + [e])[..|sent + [e]| - 1] == sent;
  }

  /** A job announces its block count once, and the progress it reports
      never exceeds it: the counts sum to 100 for every full hundred
      blocks encoded without error, so the blocks beyond the last full
      hundred go uncounted. */
  lemma ProgressWithinTotal(j: Job, lanes: Lanes)
    requires Readable(j) && ValidLanes(lanes)
    ensures var k := CallsFrom(j, 0);
      var done := if j.encoder.encode(k - 1).size < 0 then k - 1 else k;
      var ev := Convert(j, lanes).events;
      && TotalSum(ev) == NumBlocks(j.frames)
      && CountSum(ev) == 100 * (done / 100)
      && CountSum(ev) <= NumBlocks(j.frames)
  {
    ConvertSums(j, lanes);
    RunCounts(j, lanes);
    assert CountsDone(j, lanes);
  }

  /** The sums over the events of the blocks a run handed to the encoder. */
  predicate CountsDone(j: Job, lanes: Lanes)
    requires Readable(j) && ValidLanes(lanes)
  {
    var k := CallsFrom(j, 0);
    var done := if j.encoder.encode(k - 1).size < 0 then k - 1 else k;
    var ev := EventsUpTo(j, lanes, k);
    && 1 <= k
    && TotalSum(ev) == NumBlocks(j.frames)
    && CountSum(ev) == 100 * (done / 100)
    && 100 * (done / 100) <= done <= NumBlocks(j.frames)
  }

  lemma RunCounts(j: Job, lanes: Lanes)
    requires Readable(j) && ValidLanes(lanes)
    ensures CountsDone(j, lanes)
  {
    var k := CallsFrom(j, 0);
    CallsFromStops(j, 0);
    if j.encoder.encode(k - 1).size < 0 {
      RunCountsFailed(j, lanes);
    } else {
      RunCountsDone(j, lanes);
    }
  }

  lemma RunCountsFailed(j: Job, lanes: Lanes)
    requires Readable(j) && ValidLanes(lanes)
    requires var k := CallsFrom(j, 0); 1 <= k && j.encoder.encode(k - 1).size < 0
    ensures CountsDone(j, lanes)
  {
    OnlyLastFails(j);
    FailedRunCounts(j, lanes, CallsFrom(j, 0));
  }

  lemma RunCountsDone(j: Job, lanes: Lanes)
    requires Readable(j) && ValidLanes(lanes)
    requires var k := CallsFrom(j, 0); 1 <= k && j.encoder.encode(k - 1).size >= 0
    ensures CountsDone(j, lanes)
  {
    OnlyLastFails(j);
    CountUpTo(j, lanes, CallsFrom(j, 0));
  }

  /** The sums over a run's events are those over its blocks' events: the
      flush adds nothing. */
  lemma ConvertSums(j: Job, lanes: Lanes)
    requires Readable(j) && ValidLanes(lanes)
    ensures var k := CallsFrom(j, 0);
      var ev := Convert(j, lanes).events;
      && 1 <= k
      && TotalSum(ev) == TotalSum(EventsUpTo(j, lanes, k))
      && CountSum(ev) == CountSum(EventsUpTo(j, lanes, k))
  {
    var k := CallsFrom(j, 0);
    ConvertReference(j, lanes);
    CountSumAppend(EventsUpTo(j, lanes, k), [Flushed]);
    SingleSums(Flushed);
  }

  /** When block k - 1 failed, its events count nothing. */
  lemma FailedRunCounts(j: Job, lanes: Lanes, k: nat)
    requires Readable(j) && ValidLanes(lanes) && 1 <= k <= NumBlocks(j.frames)
    requires j.encoder.encode(k - 1).size < 0
    requires forall m :: 0 <= m < k - 1 ==> j.encoder.encode(m).size >= 0
    ensures CountSum(EventsUpTo(j, lanes, k)) == 100 * ((k - 1) / 100)
    ensures TotalSum(EventsUpTo(j, lanes, k)) == NumBlocks(j.frames)
  {
    CountUpTo(j, lanes, k - 1);
    SentSums(EventsUpTo(j, lanes, k - 1), Encoded(k - 1, BlockSize(j.frames, k - 1), BlockLanes(j, lanes, k - 1)));
  }

  /** The encode calls among some events. */
  function EncodeCalls(events: seq<Event>): seq<Event> {
    if events == [] then []
    else EncodeCalls(events[..|events| - 1])
         + (if events[|events| - 1].Encoded? then [events[|events| - 1]] else [])
  }

  lemma {:induction false} EncodeCallsAppend(a: seq<Event>, b: seq<Event>)
    ensures EncodeCalls(a + b) == EncodeCalls(a) + EncodeCalls(b)
    decreases |b|
  {
    if b == [] {
      assert a + b == a;
    } else {
      assert (a + b)[..|a + b| - 1] == a + b[..|b| - 1];
      EncodeCallsAppend(a, b[..|b| - 1]);
    }
  }

  /** A count signal or a total is not an encode call. */
  lemma NoEncodeCalls(p: seq<Event>)
    requires p == [] || (|p| == 1 && !p[0].Encoded?)
    ensures EncodeCalls(p) == []
  {
    if p != [] {
      assert p[..0] == [];
    }
  }

  lemma EncodeCallsStep(j: Job, lanes: Lanes, k: nat)
    requires Readable(j) && ValidLanes(lanes) && 0 < k <= NumBlocks(j.frames)
    ensures EncodeCalls(EventsUpTo(j, lanes, k))
         == EncodeCalls(EventsUpTo(j, lanes, k - 1))
            + [Encoded(k - 1, BlockSize(j.frames, k - 1), BlockLanes(j, lanes, k - 1))]
  {
    var sent := EventsUpTo(j, lanes, k - 1);
    var e := Encoded(k - 1, BlockSize(j.frames, k - 1), BlockLanes(j, lanes, k - 1));
    assert (sent + [e])[..|sent + [e]| - 1] == sent;
    if j.encoder.encode(k - 1).size >= 0 {
      EncodeCallsAppend(sent + [e], Progress(k - 1));
      NoEncodeCalls(Progress(k - 1));
      assert EncodeCalls(sent + [e]) + [] == EncodeCalls(sent + [e]);
    }
  }

  /** One more call, in order, after k calls in order. */
  lemma ExtendCalls(j: Job, lanes: Lanes, prev: seq<Event>, k: nat)
    requires Readable(j) && ValidLanes(lanes) && k < NumBlocks(j.frames)
    requires |prev| == k
    requires forall m :: 0 <= m < k ==> prev[m] == Encoded(m, BlockSize(j.frames, m), BlockLanes(j, lanes, m))
    ensures var calls := prev + [Encoded(k, BlockSize(j.frames, k), BlockLanes(j, lanes, k))];
      && |calls| == k + 1
      && forall m :: 0 <= m < k + 1 ==> calls[m] == Encoded(m, BlockSize(j.frames, m), BlockLanes(j, lanes, m))
  {
  }

  /** The encoder is handed blocks 0, 1, ... in order, each once, with its
      block size and the buffer as read for it. */
  lemma {:induction false} EncodeCallsInOrder(j: Job, lanes: Lanes, k: nat)
    requires Readable(j) && ValidLanes(lanes) && k <= NumBlocks(j.frames)
    ensures var calls := EncodeCalls(EventsUpTo(j, lanes, k));
      && |calls| == k
      && forall m :: 0 <= m < k ==> calls[m] == Encoded(m, BlockSize(j.frames, m), BlockLanes(j, lanes, m))
  {
    if k == 0 {
      NoEncodeCalls([Total(NumBlocks(j.frames))]);
    } else {
      EncodeCallsInOrder(j, lanes, k - 1);
      EncodeCallsStep(j, lanes, k);
      ExtendCalls(j, lanes, EncodeCalls(EventsUpTo(j, lanes, k - 1)), k - 1);
    }
  }

  /** The buffer handed to the encoder for block i holds that block's
      samples: frame i * INPUT_BLOCK_SIZE + m of the data chunk at index
      m, its first sample in the left lane and, for stereo, its second in
      the right lane; 8-bit samples unchanged, 16-bit ones as signed
      values. */
  lemma BlockSamples(j: Job, lanes: Lanes, i: nat, m: nat)
    requires Readable(j) && ValidLanes(lanes) && i < NumBlocks(j.frames)
    requires m < BlockSize(j.frames, i)
    ensures var p := HEADER_SIZE + (i * INPUT_BLOCK_SIZE + m) * Width(j);
      && p + Width(j) <= |j.file|
      && BlockLanes(j, lanes, i).left[m] == (if j.bits == 8 then j.file[p] as int else ToShort(LE16(j.file, p)))
      && (j.channels == 2 ==>
            BlockLanes(j, lanes, i).right[m] == DecodeSample(j.file, p + ReadWidth(1, j.bits), j.bits))
  {
    SampleInFile(j, i, m);
    LaneSeqAt(j, lanes, i, 0, INPUT_BLOCK_SIZE, m);
    LaneSeqAt(j, lanes, i, 1, INPUT_BLOCK_SIZE, m);
  }
}

=== FILE: keywords.dfy ===
/** The keyword table of stripBadOptions (initializeValidKeywords), in
    source order, held as eight runs so that membership facts stay cheap to
    prove. */
module Keywords {

  /** Keywords listed at klameoptionsdialog.cpp lines 888-899. */
  const Run0: seq<string> := [
    "-a", "--add-id3v2", "--allshort", "--alt-preset", "--athaa-type",
    "--athaa-sensitivity", "--athonly", "--athlower", "--athtype", "-b",
    "-B", "--big-endian"
  ]

  /** Keywords listed at klameoptionsdialog.cpp lines 900-912. */
  const Run1: seq<string> := [
    "--bitwidth", "-c", "--cbr", "--clip-detect", "--comp", "--cwlimit",
    "--decode", "--disptime", "-e", "-f", "-F", "--freeformat"
  ]

  /** Keywords listed at klameoptionsdialog.cpp lines 913-924. */
  const Run2: seq<string> := [
    "--interch", "-g", "--genre-list", "-h", "--highpass",
    "--highpass-width", "--id3v1-only", "--id3v2-only",
    "--ignore-tag-errors", "-k", "--little-endian", "--lowpass"
  ]

  /** Keywords listed at klameoptionsdialog.cpp lines 925-936. */
  const Run3: seq<string> := [
    "--lowpass-width", "-m", "--mp1input", "--mp2input", "--mp3input",
    "--noasm", "--nohist", "--nogap", "--nogapout", "--noreplaygain",
    "--nores", "--noshort"
  ]

  /** Keywords listed at klameoptionsdialog.cpp lines 937-948. */
  const Run4: seq<string> := [
    "--notemp", "--ns-alto", "--ns-bass", "--nspsytune", "--nsmsfix",
    "--nssafejoint", "--nssfb21", "--ns-treble", "-o", "-p", "--pad-id3v2",
    "--preset"
  ]

  /** Keywords listed at klameoptionsdialog.cpp lines 949-960. */
  const Run5: seq<string> := [
    "-q", "--quiet", "-r", "--r3mix", "--replaygain-accurate",
    "--replaygain-fast", "-s", "-S", "--scale", "--scale-l", "--scale-r",
    "--short"
  ]

  /** Keywords listed at klameoptionsdialog.cpp lines 961-972. */
  const Run6: seq<string> := [
    "--silent", "--signed", "--space-id3v1", "--strictly-enforce-ISO",
    "--substep", "-t", "-T", "--ta", "--tc", "--tg", "--tl", "--tn"
  ]

  /** Keywords listed at klameoptionsdialog.cpp lines 973-983. */
  const Run7: seq<string> := [
    "--tt", "--ty", "--unsigned", "-v", "-V", "--vbr-old", "--vbr-new", "-x",
    "-X", "-Y", "-Z"
  ]

  /** The 95 accepted keywords. */
  const ValidKeywords: seq<string> := Run0 + Run1 + Run2 + Run3 + Run4 + Run5 + Run6 + Run7

  /** The table has 95 entries and includes the keywords the dialogue
      itself emits. */
  lemma KeywordsListed()
    ensures |ValidKeywords| == 95
    ensures "-m" in ValidKeywords && "--preset" in ValidKeywords
    ensures "--silent" in ValidKeywords && "-V" in ValidKeywords
  {
    assert "-m" in Run3;
    assert "--preset" in Run4;
    assert "--silent" in Run6;
    assert "-V" in Run7;
  }

  /** The obsolete decoder switch "-d" is commented out of the table. */
  lemma DashDUnlisted()
    ensures "-d" !in ValidKeywords
  {
    DashDNotInFirstRuns();
    DashDNotInLastRuns();
  }

  lemma DashDNotInFirstRuns()
    ensures "-d" !in Run0 + Run1 + Run2 + Run3
  {
    assert "-d" !in Run0 && "-d" !in Run1 && "-d" !in Run2 && "-d" !in Run3;
  }

  lemma DashDNotInLastRuns()
    ensures "-d" !in Run4 + Run5 + Run6 + Run7
  {
    assert "-d" !in Run4 && "-d" !in Run5 && "-d" !in Run6 && "-d" !in Run7;
  }
}

=== FILE: lame_settings.dfy ===
/** setLameSetting: one command-line style option applied to the LAME
    settings of one conversion. The settings are the fields the integer
    and table keywords reach; the LAME calls themselves are not part of
    this model, only the values they are handed. */
module LameSettings {
  import opened Base
  import opened Text
  import opened OptionParser

  datatype Mode = Mono | Stereo | JointStereo | DualChannel

  /** lame_set_VBR's argument. */
  datatype VbrMode = VbrOff | VbrDefault | VbrMtrh | VbrAbr

  /** The settings the keywords write: the value most recently handed to
      each setter. `insane` records lame_set_preset(INSANE). */
  datatype Flags = Flags(
    mode: Mode, forceMs: bool, vbr: VbrMode, vbrQuality: int,
    vbrMaxKbps: int, bitrate: int, vbrMinKbps: int, abrMeanKbps: int,
    quality: int, lowpass: int, highpass: int, insane: bool,
    outSampleRate: int, quantComp: int)

  /** The keywords whose parameter is read with toInt. */
  const IntKeywords: seq<string> := ["-V", "-B", "-b", "--abr", "-q", "-X"]

  /** The keywords whose parameter is read with toFloat. */
  const FloatKeywords: seq<string> := ["--highpass", "--highpass-width", "--lowpass", "--lowpass-width", "--cwlimit"]

  /** The keywords setLameSetting acts on; every other keyword is
      accepted and changes nothing. */
  const KnownKeywords: seq<string> :=
    IntKeywords + FloatKeywords + ["-m", "--vbr-new", "--vbr-old", "-v", "--cbr", "-k", "--preset", "--resample"]

  /** `option.section(" ", 1, 1)`: the first parameter, if any. */
  function Parameter(option: string): string {
    Section(option, 1)
  }

  /** A numeric keyword comes with a parameter. Without one the program
      reads a conversion flag it never set, so such options are outside
      the model. */
  predicate Defined(option: string) {
    Keyword(option) in IntKeywords + FloatKeywords ==> Parameter(option) != ""
  }

  /** The -m table. */
  function ModeOf(p: string): Option<Mode> {
    if p == "m" then Some(Mono)
    else if p == "s" then Some(Stereo)
    else if p == "j" || p == "a" || p == "f" then Some(JointStereo)
    else if p == "d" then Some(DualChannel)
    else None
  }

  /** The --preset table. */
  predicate IsPreset(p: string) {
    p == "standard" || p == "medium" || p == "extreme" || p == "insane"
  }

  /** The --resample table, kHz text to Hz. "44" is not in it. */
  function RateOf(p: string): Option<int> {
    if p == "8" then Some(8000)
    else if p == "11.025" || p == "11" then Some(11025)
    else if p == "12" then Some(12000)
    else if p == "16" then Some(16000)
    else if p == "22.05" || p == "22" then Some(22050)
    else if p == "24" then Some(24000)
    else if p == "32" then Some(32000)
    else if p == "44.1" then Some(44100)
    else if p == "48" then Some(48000)
    else None
  }

  /** The --abr value in kbps: values from 8000 up are taken as bps and
      rounded to the nearest kbps, then the result is held in 8..320. The
      rounding is done without the 32-bit overflow of the source (see
      AbrKbpsAsWritten). */
  function AbrKbps(p: int): (k: int)
    ensures 8 <= k <= 320
    ensures 8 <= p <= 320 ==> k == p
    ensures p >= 319500 ==> k == 320
  {
    Clamp(if p >= 8000 then (p + 500) / 1000 else p, 8, 320)
  }

  /** The settings after one accepted keyword, or None when the keyword
      refuses its parameter. */
  function Apply(f: Flags, keyword: string, p: string, floatOk: string -> bool): Option<Flags> {
    var n := ParseInt(p);
    if keyword == "-m" then
      match ModeOf(p)
      case None => None
      case Some(m) => Some(f.(mode := m, forceMs := if p == "f" then true else f.forceMs))
    else if keyword == "-V" then
      if n.None? then None
      else Some(f.(vbr := if f.vbr == VbrOff then VbrDefault else f.vbr,
                   vbrQuality := Clamp(n.value, 0, 9)))
    else if keyword == "--vbr-new" || keyword == "--vbr-old" then Some(f.(vbr := VbrMtrh))
    else if keyword == "-v" then Some(f.(vbr := VbrDefault))
    else if keyword == "-B" then
      if n.None? then None else Some(f.(vbrMaxKbps := n.value))
    else if keyword == "-b" then
      if n.None? then None else Some(f.(bitrate := n.value, vbrMinKbps := n.value))
    else if keyword == "--abr" then
      if n.None? then None else Some(f.(vbr := VbrAbr, abrMeanKbps := AbrKbps(n.value)))
    else if keyword == "--cbr" then Some(f.(vbr := VbrOff))
    else if keyword == "-q" then
      if n.None? then None else Some(f.(quality := Clamp(n.value, 0, 9)))
    else if keyword == "-k" then Some(f.(lowpass := -1, highpass := -1))
    else if keyword == "--preset" then
      if p == "standard" then Some(f.(vbrQuality := 2))
      else if p == "medium" then Some(f.(vbrQuality := 4))
      else if p == "extreme" then Some(f.(vbrQuality := 0))
      else if p == "insane" then Some(f.(insane := true))
      else None
    else if keyword in FloatKeywords then
      if floatOk(p) then Some(f) else None
    else if keyword == "--resample" then
      match RateOf(p)
      case None => None
      case Some(hz) => Some(f.(outSampleRate := hz))
    else if keyword == "-X" then
      if n.None? then None else Some(f.(quantComp := n.value))
    else Some(f)
  }

  /** What setLameSetting returns, and the settings it leaves. */
  datatype Applied = Applied(reply: string, flags: Flags)

  /** When an option is refused: an integer keyword whose parameter is
      not a number, a table keyword whose parameter is not in its table,
      or a float keyword whose parameter toFloat rejects. */
  predicate Refuses(keyword: string, p: string, floatOk: string -> bool) {
    || (keyword in IntKeywords && ParseInt(p).None?)
    || (keyword == "-m" && ModeOf(p).None?)
    || (keyword == "--preset" && !IsPreset(p))
    || (keyword == "--resample" && RateOf(p).None?)
    || (keyword in FloatKeywords && !floatOk(p))
  }

  /** setLameSetting(gfp, option): "OK" with the option applied, or the
      option text itself with nothing changed. `floatOk` is toFloat's
      verdict on a parameter. */
  function SetLameSetting(f: Flags, option: string, floatOk: string -> bool): (r: Applied)
    requires Defined(option)
    ensures r.reply != "OK" ==> r.reply == option && r.flags == f
    ensures r.reply != "OK" <==> Refuses(Keyword(option), Parameter(option), floatOk)
  {
    match Apply(f, Keyword(option), Parameter(option), floatOk)
    case None =>
      RefusedText(option, floatOk);
      Applied(option, f)
    case Some(g) => Applied("OK", g)
  }

  /** A refused option starts with its dash keyword, so its text is never
      "OK". */
  lemma RefusedText(option: string, floatOk: string -> bool)
    requires Refuses(Keyword(option), Parameter(option), floatOk)
    ensures option != "OK"
  {
    assert |Keyword(option)| > 0 && Keyword(option)[0] == '-';
    SplitWord("OK");
  }

  // ---------------------------------------------------------------------
  // Properties of setLameSetting

  /** A keyword outside the handled set, and the empty option that ends
      every option list, are accepted and change nothing. */
  lemma UnknownAccepted(f: Flags, option: string, floatOk: string -> bool)
    requires Keyword(option) !in KnownKeywords
    ensures SetLameSetting(f, option, floatOk) == Applied("OK", f)
  {
  }

  lemma EmptyAccepted(f: Flags, floatOk: string -> bool)
    ensures SetLameSetting(f, "", floatOk) == Applied("OK", f)
  {
    assert Keyword("") == "";
  }

  /** -V n: any number is accepted and held in 0..9; VBR is switched on
      (to vbr_default) if it was off, and otherwise keeps its mode. */
  lemma VbrQualityClamped(f: Flags, option: string, floatOk: string -> bool)
    requires Keyword(option) == "-V" && Parameter(option) != ""
    ensures var r := SetLameSetting(f, option, floatOk);
      var n := ParseInt(Parameter(option));
      && (r.reply == "OK" <==> n.Some?)
      && (n.Some? ==> && 0 <= r.flags.vbrQuality <= 9
                      && (0 <= n.value <= 9 ==> r.flags.vbrQuality == n.value)
                      && (n.value < 0 ==> r.flags.vbrQuality == 0)
                      && (n.value > 9 ==> r.flags.vbrQuality == 9)
                      && (f.vbr == VbrOff ==> r.flags.vbr == VbrDefault)
                      && (f.vbr != VbrOff ==> r.flags.vbr == f.vbr))
  {
  }

  /** -q n: any number is accepted and held in 0..9. */
  lemma QualityClamped(f: Flags, option: string, floatOk: string -> bool)
    requires Keyword(option) == "-q" && Parameter(option) != ""
    ensures var r := SetLameSetting(f, option, floatOk);
      var n := ParseInt(Parameter(option));
      && (r.reply == "OK" <==> n.Some?)
      && (n.Some? ==> && 0 <= r.flags.quality <= 9
                      && (0 <= n.value <= 9 ==> r.flags.quality == n.value)
                      && (n.value < 0 ==> r.flags.quality == 0)
                      && (n.value > 9 ==> r.flags.quality == 9))
  {
  }

  /** --abr n: ABR mode with a mean bitrate in 8..320 kbps; a value from
      8000 up is read as bps and rounded to the nearest kbps. Below the
      overflow of `parmI + 500` this is the source's own arithmetic. */
  lemma AbrMapped(f: Flags, option: string, floatOk: string -> bool)
    requires Keyword(option) == "--abr" && Parameter(option) != ""
    ensures var r := SetLameSetting(f, option, floatOk);
      var n := ParseInt(Parameter(option));
      && (r.reply == "OK" <==> n.Some?)
      && (n.Some? ==> && r.flags.vbr == VbrAbr
                      && 8 <= r.flags.abrMeanKbps <= 320
                      && (n.value < 8 ==> r.flags.abrMeanKbps == 8)
                      && (8 <= n.value <= 320 ==> r.flags.abrMeanKbps == n.value)
                      && (320 < n.value < 8000 ==> r.flags.abrMeanKbps == 320)
                      && (8000 <= n.value ==>
                            r.flags.abrMeanKbps == Clamp((n.value + 500) / 1000, 8, 320))
                      && (n.value <= INT32_MAX - 500 ==>
                            r.flags.abrMeanKbps == AbrKbpsAsWritten(n.value)))
  {
    var n := ParseInt(Parameter(option));
    if n.Some? && n.value <= INT32_MAX - 500 {
      AbrAgreesBelowOverflow(n.value);
    }
  }

  /** -b n sets both the bitrate and the VBR minimum to n. */
  lemma BitrateSetsMinimum(f: Flags, option: string, floatOk: string -> bool)
    requires Keyword(option) == "-b" && Parameter(option) != ""
    ensures var r := SetLameSetting(f, option, floatOk);
      var n := ParseInt(Parameter(option));
      && (r.reply == "OK" <==> n.Some?)
      && (n.Some? ==> r.flags.bitrate == r.flags.vbrMinKbps == n.value)
  {
  }

  /** -B n and -X n: any number is accepted and handed over unchanged, as
      the VBR maximum and the quantisation comparison respectively. */
  lemma MaxAndCompSet(f: Flags, option: string, floatOk: string -> bool)
    requires Keyword(option) in {"-B", "-X"} && Parameter(option) != ""
    ensures var r := SetLameSetting(f, option, floatOk);
      var n := ParseInt(Parameter(option));
      && (r.reply == "OK" <==> n.Some?)
      && (n.Some? && Keyword(option) == "-B" ==> r.flags.vbrMaxKbps == n.value)
      && (n.Some? && Keyword(option) == "-X" ==> r.flags.quantComp == n.value)
  {
  }

  /** The keywords without a parameter are always accepted: --vbr-new and
      --vbr-old both select vbr_mtrh, -v selects vbr_default, --cbr turns
      VBR off, and -k switches both filters off (-1). */
  lemma SwitchValues(f: Flags, option: string, floatOk: string -> bool)
    requires Keyword(option) in {"--vbr-new", "--vbr-old", "-v", "--cbr", "-k"}
    ensures var r := SetLameSetting(f, option, floatOk);
      var k := Keyword(option);
      && r.reply == "OK"
      && (k == "--vbr-new" ==> r.flags.vbr == VbrMtrh)
      && (k == "--vbr-old" ==> r.flags.vbr == VbrMtrh)
      && (k == "-v" ==> r.flags.vbr == VbrDefault)
      && (k == "--cbr" ==> r.flags.vbr == VbrOff)
      && (k == "-k" ==> r.flags.lowpass == -1 && r.flags.highpass == -1)
  {
  }

  /** --preset accepts four names: standard, medium and extreme set the
      VBR quality to 2, 4 and 0, and insane selects the INSANE preset. */
  lemma PresetValues(f: Flags, option: string, floatOk: string -> bool)
    requires Keyword(option) == "--preset"
    ensures var r := SetLameSetting(f, option, floatOk);
      var p := Parameter(option);
      && (r.reply == "OK" <==> p in {"standard", "medium", "extreme", "insane"})
      && (p == "standard" ==> r.flags.vbrQuality == 2 && r.flags.insane == f.insane)
      && (p == "medium" ==> r.flags.vbrQuality == 4 && r.flags.insane == f.insane)
      && (p == "extreme" ==> r.flags.vbrQuality == 0 && r.flags.insane == f.insane)
      && (p == "insane" ==> r.flags.insane && r.flags.vbrQuality == f.vbrQuality)
  {
  }

  /** A float keyword is accepted exactly when toFloat reads its
      parameter. */
  lemma FloatChecked(f: Flags, option: string, floatOk: string -> bool)
    requires Keyword(option) in FloatKeywords && Parameter(option) != ""
    ensures SetLameSetting(f, option, floatOk).reply == "OK" <==> floatOk(Parameter(option))
  {
  }

  /** --resample takes the output rate in kHz from its table: 11 and 22
      stand for 11.025 and 22.05, and 44 is not in the table. */
  lemma ResampleRates(f: Flags, option: string, floatOk: string -> bool)
    requires Keyword(option) == "--resample"
    ensures var r := SetLameSetting(f, option, floatOk);
      var p := Parameter(option);
      var hz := r.flags.outSampleRate;
      && (r.reply == "OK" <==>
            p in {"8", "11.025", "11", "12", "16", "22.05", "22", "24", "32", "44.1", "48"})
      && (p == "8" ==> hz == 8000)
      && (p == "11" || p == "11.025" ==> hz == 11025)
      && (p == "12" ==> hz == 12000)
      && (p == "16" ==> hz == 16000)
      && (p == "22" || p == "22.05" ==> hz == 22050)
      && (p == "24" ==> hz == 24000)
      && (p == "32" ==> hz == 32000)
      && (p == "44.1" ==> hz == 44100)
      && (p == "48" ==> hz == 48000)
      && (p == "44" ==> r == Applied(option, f))
  {
  }

  /** -m accepts m, s, j, a, f and d: mono, stereo, joint stereo (j, a and
      f), dual channel; "f" also forces mid/side stereo, the others leave
      that flag as it was. */
  lemma ModeTable(f: Flags, option: string, floatOk: string -> bool)
    requires Keyword(option) == "-m"
    ensures var r := SetLameSetting(f, option, floatOk);
      var p := Parameter(option);
      && (r.reply == "OK" <==> p in {"m", "s", "j", "a", "f", "d"})
      && (p == "m" ==> r.flags.mode == Mono && r.flags.forceMs == f.forceMs)
      && (p == "s" ==> r.flags.mode == Stereo && r.flags.forceMs == f.forceMs)
      && (p == "j" ==> r.flags.mode == JointStereo && r.flags.forceMs == f.forceMs)
      && (p == "a" ==> r.flags.mode == JointStereo && r.flags.forceMs == f.forceMs)
      && (p == "f" ==> r.flags.mode == JointStereo && r.flags.forceMs)
      && (p == "d" ==> r.flags.mode == DualChannel && r.flags.forceMs == f.forceMs)
  {
  }

  // ---------------------------------------------------------------------
  // Which settings each keyword writes

  datatype Field =
    | ModeF | ForceMsF | VbrF | VbrQualityF | VbrMaxF | BitrateF | VbrMinF | AbrMeanF
    | QualityF | LowpassF | HighpassF | InsaneF | OutRateF | QuantCompF

  /** One setting, as a value that can be compared across fields. */
  datatype Value = I(i: int) | B(b: bool) | M(m: Mode) | V(v: VbrMode)

  function Get(f: Flags, fd: Field): Value {
    match fd
    case ModeF => M(f.mode)
    case ForceMsF => B(f.forceMs)
    case VbrF => V(f.vbr)
    case VbrQualityF => I(f.vbrQuality)
    case VbrMaxF => I(f.vbrMaxKbps)
    case BitrateF => I(f.bitrate)
    case VbrMinF => I(f.vbrMinKbps)
    case AbrMeanF => I(f.abrMeanKbps)
    case QualityF => I(f.quality)
    case LowpassF => I(f.lowpass)
    case HighpassF => I(f.highpass)
    case InsaneF => B(f.insane)
    case OutRateF => I(f.outSampleRate)
    case QuantCompF => I(f.quantComp)
  }

  /** The settings each keyword's LAME calls reach. */
  function Touched(keyword: string): set<Field> {
    if keyword == "-m" then {ModeF, ForceMsF}
    else if keyword == "-V" then {VbrF, VbrQualityF}
    else if keyword in {"--vbr-new", "--vbr-old", "-v", "--cbr"} then {VbrF}
    else if keyword == "-B" then {VbrMaxF}
    else if keyword == "-b" then {BitrateF, VbrMinF}
    else if keyword == "--abr" then {VbrF, AbrMeanF}
    else if keyword == "-q" then {QualityF}
    else if keyword == "-k" then {LowpassF, HighpassF}
    else if keyword == "--preset" then {VbrQualityF, InsaneF}
    else if keyword == "--highpass" then {HighpassF}
    else if keyword == "--lowpass" then {LowpassF}
    else if keyword == "--resample" then {OutRateF}
    else if keyword == "-X" then {QuantCompF}
    else {}
  }

  /** Nothing else changes: an option leaves every setting its keyword
      does not reach as it was. */
  lemma OnlyTouched(f: Flags, option: string, floatOk: string -> bool, fd: Field)
    requires Defined(option) && fd !in Touched(Keyword(option))
    ensures Get(SetLameSetting(f, option, floatOk).flags, fd) == Get(f, fd)
  {
    var k := Keyword(option);
    var r := Apply(f, k, Parameter(option), floatOk);
    if r.Some? {
      ApplyOnlyTouched(f, k, Parameter(option), floatOk, fd);
    }
  }

  lemma ApplyOnlyTouched(f: Flags, k: string, p: string, floatOk: string -> bool, fd: Field)
    requires fd !in Touched(k) && Apply(f, k, p, floatOk).Some?
    ensures Get(Apply(f, k, p, floatOk).value, fd) == Get(f, fd)
  {
    if k in {"-m", "-V", "--vbr-new", "--vbr-old", "-v", "-B", "-b"} {
      EarlyOnlyTouched(f, k, p, floatOk, fd);
    } else if k in {"--abr", "--cbr", "-q", "-k"} {
      MiddleOnlyTouched(f, k, p, floatOk, fd);
    } else {
      LateOnlyTouched(f, k, p, floatOk, fd);
    }
  }

  lemma EarlyOnlyTouched(f: Flags, k: string, p: string, floatOk: string -> bool, fd: Field)
    requires k in {"-m", "-V", "--vbr-new", "--vbr-old", "-v", "-B", "-b"}
    requires fd !in Touched(k) && Apply(f, k, p, floatOk).Some?
    ensures Get(Apply(f, k, p, floatOk).value, fd) == Get(f, fd)
  {
  }

  lemma MiddleOnlyTouched(f: Flags, k: string, p: string, floatOk: string -> bool, fd: Field)
    requires k in {"--abr", "--cbr", "-q", "-k"}
    requires fd !in Touched(k) && Apply(f, k, p, floatOk).Some?
    ensures Get(Apply(f, k, p, floatOk).value, fd) == Get(f, fd)
  {
  }

  lemma LateOnlyTouched(f: Flags, k: string, p: string, floatOk: string -> bool, fd: Field)
    requires k !in {"-m", "-V", "--vbr-new", "--vbr-old", "-v", "-B", "-b", "--abr", "--cbr", "-q", "-k"}
    requires fd !in Touched(k) && Apply(f, k, p, floatOk).Some?
    ensures Get(Apply(f, k, p, floatOk).value, fd) == Get(f, fd)
  {
  }

  // ---------------------------------------------------------------------
  // The --abr rounding as written

  /** A value of C `int` after two's complement wrap-around. */
  function WrapInt32(x: int): (r: int)
    ensures INT32_MIN <= r <= INT32_MAX
    ensures INT32_MIN <= x <= INT32_MAX ==> r == x
  {
    (x - INT32_MIN) % UINT_MODULUS + INT32_MIN
  }

  /** The --abr mapping as the source computes it: `parmI + 500` in
      32-bit `int`, which overflows for the largest values, and C
      division. */
  function AbrKbpsAsWritten(p: int): (k: int)
    requires INT32_MIN <= p <= INT32_MAX
    ensures 8 <= k <= 320
  {
    Clamp(if p >= 8000 then TruncDiv(WrapInt32(p + 500), 1000) else p, 8, 320)
  }

  /** The two agree wherever the addition does not overflow. */
  lemma AbrAgreesBelowOverflow(p: int)
    requires INT32_MIN <= p <= INT32_MAX - 500
    ensures AbrKbpsAsWritten(p) == AbrKbps(p)
  {
  }

  /** "--abr 2147483647" asks for the highest rate but, once the sum
      wraps, gets the lowest. */
  lemma AbrOverflowExample()
    ensures AbrKbpsAsWritten(INT32_MAX) == 8
    ensures AbrKbps(INT32_MAX) == 320
  {
    assert WrapInt32(INT32_MAX + 500) == -2147483149;
  }

  /** Read as bps, the mapping never decreases: a higher requested rate
      never gives a lower one. */
  lemma AbrMonotone(p: int, q: int)
    requires 8000 <= p <= q
    ensures AbrKbps(p) <= AbrKbps(q)
  {
    assert (p + 500) / 1000 <= (q + 500) / 1000;
  }
}

=== FILE: option_parser.dfy ===
/** The command-line option layer of the options dialogue: `parseOptions`,
    which returns the n-th `-`/`--` option of a string, and
    `stripBadOptions`, which keeps only options with a known keyword. */
module OptionParser {
  import opened Base
  import opened Text
  import opened Keywords

  /** A token that starts an option. */
  predicate IsDash(t: string) {
    |t| > 0 && t[0] == '-'
  }

  // ---------------------------------------------------------------------
  // Reference description of the options of a word list

  /** Length of the leading run of tokens that do not start an option. */
  function NonDashRun(ws: seq<string>): (k: nat)
    ensures k <= |ws|
    ensures forall j :: 0 <= j < k ==> !IsDash(ws[j])
    ensures k < |ws| ==> IsDash(ws[k])
  {
    if ws == [] || IsDash(ws[0]) then 0 else 1 + NonDashRun(ws[1..])
  }

  /** One past the end of the option group that starts at ws[0]. */
  function GroupEnd(ws: seq<string>): (e: nat)
    requires ws != []
    ensures 1 <= e <= |ws|
  {
    1 + NonDashRun(ws[1..])
  }

  /** The space parseOptions leaves after the last option of a string. */
  function Trailer(last: bool): string {
    if last then " " else ""
  }

  /** A group rendered as parseOptions returns it. */
  function OptionText(g: seq<string>, last: bool): string {
    Join(g) + Trailer(last)
  }

  /** A well-formed option group: a dash token followed by non-dash
      tokens. */
  predicate IsGroup(g: seq<string>) {
    |g| >= 1 && IsDash(g[0]) && AllWords(g) && forall j :: 1 <= j < |g| ==> !IsDash(g[j])
  }

  /** The option groups of a word list: each dash token with the non-dash
      tokens after it, up to the next dash token. Tokens before the first
      dash token belong to no group. */
  function Groups(ws: seq<string>): (gs: seq<seq<string>>)
    decreases |ws|
  {
    if ws == [] then []
    else if !IsDash(ws[0]) then Groups(ws[1..])
    else [ws[..GroupEnd(ws)]] + Groups(ws[GroupEnd(ws)..])
  }

  /** The options of a word list as parseOptions renders them: each group
      joined by single spaces, and the group that runs to the end of the
      string followed by one space. */
  function Options(ws: seq<string>): seq<string>
    decreases |ws|
  {
    if ws == [] then []
    else if !IsDash(ws[0]) then Options(ws[1..])
    else [OptionText(ws[..GroupEnd(ws)], GroupEnd(ws) == |ws|)] + Options(ws[GroupEnd(ws)..])
  }

  /** The n-th option, or "" when there are at most n. */
  function NthOption(ws: seq<string>, n: nat): string {
    var os := Options(ws);
    if n < |os| then os[n] else ""
  }

  /** Number of tokens that begin with '-'. */
  function DashCount(ws: seq<string>): nat {
    if ws == [] then 0 else (if IsDash(ws[0]) then 1 else 0) + DashCount(ws[1..])
  }

  function Flatten(gs: seq<seq<string>>): seq<string> {
    if gs == [] then [] else gs[0] + Flatten(gs[1..])
  }

  // ---------------------------------------------------------------------
  // parseOptions, as written

  /** QString::section(" ", k, k) applied to a string whose fields are
      `fs`. */
  function Token(fs: seq<string>, k: nat): string {
    if k < |fs| then fs[k] else ""
  }

  /** The do-while loop of parseOptions: `k` is tokenNumber, `optNumber`
      counts dash tokens seen, `found` is isOptionFound. The loop leaves
      at a dash token once the option is found, and otherwise after
      processing the first empty token. */
  function Scan(fs: seq<string>, k: nat, optNumber: nat, n: nat, found: bool, option: string): string
    decreases |fs| - k
  {
    var token := Token(fs, k);
    if found && IsDash(token) then option
    else
      var option' :=
        if found then option + " " + token
        else if IsDash(token) && optNumber == n then token
        else option;
      var found' := found || (IsDash(token) && optNumber == n);
      var optNumber' := if !found && IsDash(token) then optNumber + 1 else optNumber;
      if token == "" then option'
      else Scan(fs, k + 1, optNumber', n, found', option')
  }

  /** What parseOptions returns, and the simplified string it writes back
      into its by-reference argument. */
  datatype Parsed = Parsed(option: string, simplified: string)

  /** parseOptions(options, n): the n-th option of the simplified string;
      the caller's string becomes its simplified form. */
  function ParseOptions(options: string, n: nat): (r: Parsed)
    ensures r.simplified == Simplified(options)
    ensures r.option == NthOption(Words(options), n)
  {
    var s := Simplified(options);
    var ws := Words(options);
    SplitOfJoin(ws);
    if ws == [] then
      assert Scan([""], 0, 0, n, false, "") == "";
      Parsed("", s)
    else
      ScanSearch(ws, 0, 0, n);
      assert ws[0..] == ws;
      Parsed(Scan(Split(s), 0, 0, n, false, ""), s)
  }

  // ---------------------------------------------------------------------
  // Proofs about Scan

  lemma {:induction false} OptionsSkip(ws: seq<string>, j: nat)
    requires j <= |ws|
    requires forall i :: 0 <= i < j ==> !IsDash(ws[i])
    ensures Options(ws) == Options(ws[j..])
    ensures Groups(ws) == Groups(ws[j..])
    decreases j
  {
    if j > 0 {
      assert ws[1..][j-1..] == ws[j..];
      OptionsSkip(ws[1..], j - 1);
    }
  }

  lemma ScanCollectStep(ws: seq<string>, k: nat, m: nat, n: nat, opt: string)
    requires AllWords(ws) && k <= |ws|
    ensures k == |ws| ==> Scan(ws, k, m, n, true, opt) == opt + " "
    ensures k < |ws| && IsDash(ws[k]) ==> Scan(ws, k, m, n, true, opt) == opt
    ensures k < |ws| && !IsDash(ws[k]) ==>
      Scan(ws, k, m, n, true, opt) == Scan(ws, k + 1, m, n, true, opt + " " + ws[k])
  {
    if k < |ws| {
      assert IsWord(ws[k]);
    } else {
      assert opt + " " + "" == opt + " ";
    }
  }

  /** Collecting a non-dash token appends it after one space. */
  lemma ScanCollectWord(ws: seq<string>, k: nat, m: nat, n: nat, opt: string)
    requires AllWords(ws) && k < |ws| && !IsDash(ws[k])
    requires var e := k + 1 + NonDashRun(ws[k+1..]);
      Scan(ws, k + 1, m, n, true, opt + " " + ws[k]) ==
      opt + " " + ws[k] + Spaced(ws[k+1..e]) + Trailer(e == |ws|)
    ensures var e := k + NonDashRun(ws[k..]);
      Scan(ws, k, m, n, true, opt) == opt + Spaced(ws[k..e]) + Trailer(e == |ws|)
  {
    ScanCollectStep(ws, k, m, n, opt);
    var e := k + NonDashRun(ws[k..]);
    assert e == (k + 1) + NonDashRun(ws[k+1..]) by {
      assert ws[k..][1..] == ws[k+1..];
    }
    assert Spaced(ws[k..e]) == " " + ws[k] + Spaced(ws[k+1..e]) by {
      assert ws[k..e][0] == ws[k] && ws[k..e][1..] == ws[k+1..e];
    }
    AppendAssoc(opt, " ", ws[k]);
    AppendAssoc(opt, " " + ws[k], Spaced(ws[k+1..e]));
  }

  lemma {:induction false} ScanCollect(ws: seq<string>, k: nat, m: nat, n: nat, opt: string)
    requires AllWords(ws) && k <= |ws|
    ensures var e := k + NonDashRun(ws[k..]);
      Scan(ws, k, m, n, true, opt) == opt + Spaced(ws[k..e]) + Trailer(e == |ws|)
    decreases |ws| - k
  {
    ScanCollectStep(ws, k, m, n, opt);
    if k == |ws| {
      assert NonDashRun(ws[k..]) == 0;
      assert Spaced(ws[k..k]) == "" && Trailer(true) == " ";
      assert opt + "" + " " == opt + " ";
    } else if IsDash(ws[k]) {
      assert NonDashRun(ws[k..]) == 0;
      assert Spaced(ws[k..k]) == "" && Trailer(false) == "";
      assert opt + "" + "" == opt;
    } else {
      ScanCollect(ws, k + 1, m, n, opt + " " + ws[k]);
      ScanCollectWord(ws, k, m, n, opt);
    }
  }

  lemma ScanSearchStep(ws: seq<string>, k: nat, m: nat, n: nat)
    requires AllWords(ws) && k < |ws|
    ensures !IsDash(ws[k]) ==> Scan(ws, k, m, n, false, "") == Scan(ws, k + 1, m, n, false, "")
    ensures IsDash(ws[k]) && m == n ==> Scan(ws, k, m, n, false, "") == Scan(ws, k + 1, m + 1, n, true, ws[k])
    ensures IsDash(ws[k]) && m != n ==> Scan(ws, k, m, n, false, "") == Scan(ws, k + 1, m + 1, n, false, "")
  {
    assert IsWord(ws[k]);
  }

  lemma NthOptionStep(rest: seq<string>, i: nat)
    requires rest != []
    ensures !IsDash(rest[0]) ==> NthOption(rest, i) == NthOption(rest[1..], i)
    ensures IsDash(rest[0]) && i > 0 ==>
      NthOption(rest, i) == NthOption(rest[GroupEnd(rest)..], i - 1)
    ensures IsDash(rest[0]) && i == 0 ==>
      var e := GroupEnd(rest);
      NthOption(rest, 0) == OptionText(rest[..e], e == |rest|)
  {
    if IsDash(rest[0]) {
      var e := GroupEnd(rest);
      var first := OptionText(rest[..e], e == |rest|);
      assert Options(rest) == [first] + Options(rest[e..]);
    } else {
      assert Options(rest) == Options(rest[1..]);
    }
  }

  /** Scan finds the option at a dash token once its count reaches n. */
  lemma ScanSearchHere(ws: seq<string>, k: nat, n: nat)
    requires AllWords(ws) && k < |ws| && IsDash(ws[k])
    ensures Scan(ws, k, n, n, false, "") == NthOption(ws[k..], 0)
  {
    var rest := ws[k..];
    assert rest[1..] == ws[k+1..];
    var e := GroupEnd(rest);
    var trailer := Trailer(e == |rest|);
    ScanSearchStep(ws, k, n, n);
    assert Scan(ws, k, n, n, false, "") == Scan(ws, k + 1, n + 1, n, true, ws[k]);
    NthOptionStep(rest, 0);
    assert NthOption(rest, 0) == Join(rest[..e]) + trailer;
    ScanCollect(ws, k + 1, n + 1, n, ws[k]);
    assert Scan(ws, k + 1, n + 1, n, true, ws[k]) == ws[k] + Spaced(ws[k+1..k+e]) + trailer;
    JoinSlice(ws, k, e);
  }

  lemma JoinSlice(ws: seq<string>, k: nat, e: nat)
    requires k < k + e <= |ws| && e >= 1
    ensures Join(ws[k..][..e]) == ws[k] + Spaced(ws[k+1..k+e])
  {
    var g := ws[k..][..e];
    assert g[0] == ws[k];
    assert g[1..] == ws[k+1..k+e];
  }

  /** A dash token before the wanted option only advances the count. */
  lemma ScanSearchPastDash(ws: seq<string>, k: nat, m: nat, n: nat)
    requires AllWords(ws) && k < |ws| && IsDash(ws[k]) && m < n
    requires Scan(ws, k + 1, m + 1, n, false, "") == NthOption(ws[k+1..], n - (m + 1))
    ensures Scan(ws, k, m, n, false, "") == NthOption(ws[k..], n - m)
  {
    var rest := ws[k..];
    assert rest[1..] == ws[k+1..];
    ScanSearchStep(ws, k, m, n);
    NthOptionStep(rest, n - m);
    var e := GroupEnd(rest);
    assert rest[1..][e-1..] == rest[e..];
    OptionsSkip(rest[1..], e - 1);
  }

  /** A non-dash token before the wanted option is skipped. */
  lemma ScanSearchPastWord(ws: seq<string>, k: nat, m: nat, n: nat)
    requires AllWords(ws) && k < |ws| && !IsDash(ws[k]) && m <= n
    requires Scan(ws, k + 1, m, n, false, "") == NthOption(ws[k+1..], n - m)
    ensures Scan(ws, k, m, n, false, "") == NthOption(ws[k..], n - m)
  {
    var rest := ws[k..];
    assert rest[1..] == ws[k+1..];
    ScanSearchStep(ws, k, m, n);
    NthOptionStep(rest, n - m);
  }

  lemma {:induction false} ScanSearch(ws: seq<string>, k: nat, m: nat, n: nat)
    requires AllWords(ws) && k <= |ws| && m <= n
    ensures Scan(ws, k, m, n, false, "") == NthOption(ws[k..], n - m)
    decreases |ws| - k
  {
    if k == |ws| {
      assert ws[k..] == [];
    } else if !IsDash(ws[k]) {
      ScanSearch(ws, k + 1, m, n);
      ScanSearchPastWord(ws, k, m, n);
    } else if m == n {
      ScanSearchHere(ws, k, n);
    } else {
      ScanSearch(ws, k + 1, m + 1, n);
      ScanSearchPastDash(ws, k, m, n);
    }
  }

  // ---------------------------------------------------------------------
  // Properties of the options

  lemma {:induction false} OptionsAreGroups(ws: seq<string>)
    requires AllWords(ws)
    ensures |Options(ws)| == |Groups(ws)| == DashCount(ws)
    ensures forall i :: 0 <= i < |Groups(ws)| ==> IsGroup(Groups(ws)[i])
    ensures forall i :: 0 <= i < |Options(ws)| ==>
      Options(ws)[i] == OptionText(Groups(ws)[i], i == |Groups(ws)| - 1)
    decreases |ws|
  {
    if ws != [] {
      if !IsDash(ws[0]) {
        OptionsAreGroups(ws[1..]);
      } else {
        var e := GroupEnd(ws);
        OptionsAreGroups(ws[e..]);
        OptionsAreGroupsDash(ws);
      }
    }
  }

  /** The inductive step of OptionsAreGroups at a dash token. */
  lemma OptionsAreGroupsDash(ws: seq<string>)
    requires AllWords(ws) && ws != [] && IsDash(ws[0])
    requires var r := ws[GroupEnd(ws)..];
      && |Options(r)| == |Groups(r)| == DashCount(r)
      && (forall i :: 0 <= i < |Groups(r)| ==> IsGroup(Groups(r)[i]))
      && (forall i :: 0 <= i < |Options(r)| ==>
            Options(r)[i] == OptionText(Groups(r)[i], i == |Groups(r)| - 1))
    ensures |Options(ws)| == |Groups(ws)| == DashCount(ws)
    ensures forall i :: 0 <= i < |Groups(ws)| ==> IsGroup(Groups(ws)[i])
    ensures forall i :: 0 <= i < |Options(ws)| ==>
      Options(ws)[i] == OptionText(Groups(ws)[i], i == |Groups(ws)| - 1)
  {
    var e := GroupEnd(ws);
    OptionsGroupsUnfold(ws);
    GroupEndFacts(ws);
    ConsGroups(ws[..e], Groups(ws[e..]));
    ConsOptions(OptionText(ws[..e], e == |ws|), ws[..e], Options(ws[e..]), Groups(ws[e..]));
  }

  lemma GroupEndFacts(ws: seq<string>)
    requires AllWords(ws) && ws != [] && IsDash(ws[0])
    ensures var e := GroupEnd(ws);
      && DashCount(ws) == 1 + DashCount(ws[e..])
      && IsGroup(ws[..e])
      && (e == |ws| <==> Groups(ws[e..]) == [])
  {
    GroupEndDashes(ws);
    GroupEndIsGroup(ws);
    GroupEndLast(ws);
  }

  /** The group holds exactly one dash token. */
  lemma GroupEndDashes(ws: seq<string>)
    requires ws != [] && IsDash(ws[0])
    ensures DashCount(ws) == 1 + DashCount(ws[GroupEnd(ws)..])
  {
    var e := GroupEnd(ws);
    DashCountSkip(ws[1..], e - 1);
    assert ws[1..][e-1..] == ws[e..];
  }

  lemma GroupEndIsGroup(ws: seq<string>)
    requires AllWords(ws) && ws != [] && IsDash(ws[0])
    ensures IsGroup(ws[..GroupEnd(ws)])
  {
    var e := GroupEnd(ws);
    var g := ws[..e];
    forall j | 1 <= j < |g|
      ensures !IsDash(g[j])
    {
      assert g[j] == ws[1..][j - 1];
    }
  }

  /** The group runs to the end exactly when no group follows it. */
  lemma GroupEndLast(ws: seq<string>)
    requires ws != [] && IsDash(ws[0])
    ensures GroupEnd(ws) == |ws| <==> Groups(ws[GroupEnd(ws)..]) == []
  {
    var e := GroupEnd(ws);
    var r := ws[e..];
    if e < |ws| {
      assert r[0] == ws[1..][e - 1];
      assert IsDash(r[0]);
    } else {
      assert r == [];
    }
  }

  lemma ConsGroups(g: seq<string>, gs: seq<seq<string>>)
    requires IsGroup(g) && forall i :: 0 <= i < |gs| ==> IsGroup(gs[i])
    ensures forall i :: 0 <= i < |[g] + gs| ==> IsGroup(([g] + gs)[i])
  {
  }

  lemma ConsOptions(o: string, g: seq<string>, os: seq<string>, gs: seq<seq<string>>)
    requires |os| == |gs| && o == OptionText(g, gs == [])
    requires forall i :: 0 <= i < |os| ==> os[i] == OptionText(gs[i], i == |gs| - 1)
    ensures forall i :: 0 <= i < |[o] + os| ==>
      ([o] + os)[i] == OptionText(([g] + gs)[i], i == |[g] + gs| - 1)
  {
    forall i | 0 <= i < |[o] + os|
      ensures ([o] + os)[i] == OptionText(([g] + gs)[i], i == |[g] + gs| - 1)
    {
      if i > 0 {
        assert ([o] + os)[i] == os[i-1];
        assert ([g] + gs)[i] == gs[i-1];
      }
    }
  }

  lemma OptionsGroupsUnfold(ws: seq<string>)
    requires ws != [] && IsDash(ws[0])
    ensures var e := GroupEnd(ws);
      && Options(ws) == [OptionText(ws[..e], e == |ws|)] + Options(ws[e..])
      && Groups(ws) == [ws[..e]] + Groups(ws[e..])
  {
  }

  lemma {:induction false} DashCountSkip(ws: seq<string>, j: nat)
    requires j <= |ws|
    requires forall i :: 0 <= i < j ==> !IsDash(ws[i])
    ensures DashCount(ws) == DashCount(ws[j..])
    decreases j
  {
    if j > 0 {
      assert ws[1..][j-1..] == ws[j..];
      DashCountSkip(ws[1..], j - 1);
    }
  }

  /** parseOptions returns "" exactly when the simplified string has at
      most n tokens beginning with '-'. */
  lemma ParseEmptyIff(options: string, n: nat)
    ensures ParseOptions(options, n).option == "" <==> DashCount(Words(options)) <= n
  {
    var ws := Words(options);
    OptionsAreGroups(ws);
    if n < |Options(ws)| {
      assert |Join(Groups(ws)[n])| >= |Groups(ws)[n][0]| > 0;
    }
  }

  /** Once an option index yields "", every later index does too. */
  lemma ParseMonotone(options: string, n: nat, m: nat)
    requires n <= m
    requires ParseOptions(options, n).option == ""
    ensures ParseOptions(options, m).option == ""
  {
    ParseEmptyIff(options, n);
    ParseEmptyIff(options, m);
  }

  /** The n-th returned option is the n-th option group joined by single
      spaces, with one trailing space exactly when it is the last group. */
  lemma ParseIsGroup(options: string, n: nat)
    requires n < |Groups(Words(options))|
    ensures var gs := Groups(Words(options));
      && IsGroup(gs[n])
      && ParseOptions(options, n).option == OptionText(gs[n], n == |gs| - 1)
  {
    OptionsAreGroups(Words(options));
  }

  /** The groups cover every token from the first dash token on, in order,
      each exactly once; tokens before it belong to no option. */
  lemma {:induction false} GroupsPartition(ws: seq<string>)
    ensures Flatten(Groups(ws)) == ws[NonDashRun(ws)..]
    decreases |ws|
  {
    if ws != [] {
      if !IsDash(ws[0]) {
        assert Flatten(Groups(ws[1..])) == ws[1..][NonDashRun(ws[1..])..] by {
          GroupsPartition(ws[1..]);
        }
        assert ws[1..][NonDashRun(ws[1..])..] == ws[NonDashRun(ws)..];
      } else {
        var e := GroupEnd(ws);
        assert Flatten(Groups(ws[e..])) == ws[e..] by {
          GroupsPartition(ws[e..]);
          assert NonDashRun(ws[e..]) == 0;
        }
        assert Groups(ws) == [ws[..e]] + Groups(ws[e..]);
        assert Flatten(Groups(ws)) == ws[..e] + Flatten(Groups(ws[e..])) by {
          assert ([ws[..e]] + Groups(ws[e..]))[1..] == Groups(ws[e..]);
        }
        assert ws[..e] + ws[e..] == ws;
      }
    }
  }

  /** Re-grouping the concatenation of well-formed groups gives them back. */
  lemma {:induction false} GroupsOfFlatten(gs: seq<seq<string>>)
    requires forall i :: 0 <= i < |gs| ==> IsGroup(gs[i])
    ensures Groups(Flatten(gs)) == gs
    decreases |gs|
  {
    if gs != [] {
      var ws := Flatten(gs);
      var g := gs[0];
      var rest := Flatten(gs[1..]);
      assert Groups(rest) == gs[1..] by {
        GroupsOfFlatten(gs[1..]);
      }
      assert ws == g + rest;
      assert NonDashRun(ws[1..]) == |g| - 1 by {
        assert ws[1..] == g[1..] + rest;
        if gs[1..] != [] {
          assert rest == gs[1] + Flatten(gs[2..]);
          assert IsDash(rest[0]);
        }
        NonDashRunAppend(g[1..], rest);
      }
      assert ws[..|g|] == g && ws[|g|..] == rest;
      assert Groups(ws) == [g] + Groups(rest);
    }
  }

  lemma {:induction false} NonDashRunAppend(a: seq<string>, b: seq<string>)
    requires forall j :: 0 <= j < |a| ==> !IsDash(a[j])
    requires b != [] ==> IsDash(b[0])
    ensures NonDashRun(a + b) == |a|
    decreases |a|
  {
    if a != [] {
      assert (a + b)[1..] == a[1..] + b;
      NonDashRunAppend(a[1..], b);
    } else {
      assert a + b == b;
    }
  }

  // ---------------------------------------------------------------------
  // stripBadOptions

  /** `option.section(" ", 0, 0)`: the option's keyword. */
  function Keyword(option: string): string {
    Section(option, 0)
  }

  /** The inner loop of stripBadOptions: the option's keyword is one of
      the table's entries. */
  predicate IsValidOption(option: string, valid: seq<string>) {
    Keyword(option) in valid
  }

  /** What the loop appends for one option: the option and a space when
      its keyword is listed, nothing otherwise. */
  function Kept(option: string, valid: seq<string>): string {
    if IsValidOption(option, valid) then option + " " else ""
  }

  /** The loop of stripBadOptions: options n, n+1, ... are fetched until
      the empty one, each one with a listed keyword being appended to
      `good` followed by a space. parseOptions overwrites `options` with
      its simplified form on every call. */
  function StripLoop(options: string, n: nat, good: string, valid: seq<string>): string
    decreases |Options(Words(options))| - n
  {
    var p := ParseOptions(options, n);
    if p.option == "" then good
    else
      SimplifiedKeepsWords(options);
      StripLoop(p.simplified, n + 1, good + Kept(p.option, valid), valid)
  }

  /** stripBadOptions(options): the new value of `options`. */
  function StripBadOptions(options: string): string {
    StripLoop(options, 0, "", ValidKeywords)
  }

  /** Each kept option followed by one space, in order. */
  function KeptText(os: seq<string>, valid: seq<string>): string {
    if os == [] then ""
    else Kept(os[0], valid) + KeptText(os[1..], valid)
  }

  predicate IsKeptGroup(g: seq<string>, valid: seq<string>) {
    |g| > 0 && g[0] in valid
  }

  function KeptGroups(gs: seq<seq<string>>, valid: seq<string>): seq<seq<string>> {
    if gs == [] then []
    else (if IsKeptGroup(gs[0], valid) then [gs[0]] else []) + KeptGroups(gs[1..], valid)
  }

  lemma StripLoopStep(options: string, n: nat, good: string, valid: seq<string>)
    requires n < |Options(Words(options))|
    ensures var o := Options(Words(options))[n];
      && Options(Words(Simplified(options))) == Options(Words(options))
      && StripLoop(options, n, good, valid) ==
         StripLoop(Simplified(options), n + 1, good + Kept(o, valid), valid)
  {
    OptionsAreGroups(Words(options));
    assert |Join(Groups(Words(options))[n])| > 0;
    SimplifiedKeepsWords(options);
  }

  lemma KeptTextCons(os: seq<string>, n: nat, valid: seq<string>)
    requires n < |os|
    ensures KeptText(os[n..], valid) == Kept(os[n], valid) + KeptText(os[n+1..], valid)
  {
    assert os[n..][1..] == os[n+1..];
  }

  lemma {:induction false} StripLoopSpec(options: string, n: nat, good: string, valid: seq<string>)
    requires n <= |Options(Words(options))|
    ensures StripLoop(options, n, good, valid) == good + KeptText(Options(Words(options))[n..], valid)
    decreases |Options(Words(options))| - n
  {
    var os := Options(Words(options));
    if n == |os| {
      assert StripLoop(options, n, good, valid) == good by {
        OptionsAreGroups(Words(options));
      }
      assert os[n..] == [];
    } else {
      var kept := Kept(os[n], valid);
      var s' := Simplified(options);
      assert Options(Words(s')) == os && StripLoop(options, n, good, valid) == StripLoop(s', n + 1, good + kept, valid) by {
        StripLoopStep(options, n, good, valid);
      }
      assert StripLoop(s', n + 1, good + kept, valid) == good + kept + KeptText(os[n+1..], valid) by {
        StripLoopSpec(s', n + 1, good + kept, valid);
      }
      assert KeptText(os[n..], valid) == kept + KeptText(os[n+1..], valid) by {
        KeptTextCons(os, n, valid);
      }
      AppendAssoc(good, kept, KeptText(os[n+1..], valid));
    }
  }

  /** stripBadOptions keeps, in their original order, exactly the options
      whose keyword is listed, each followed by a space. */
  lemma StripSpec(options: string)
    ensures StripBadOptions(options) == KeptText(Options(Words(options)), ValidKeywords)
  {
    StripLoopSpec(options, 0, "", ValidKeywords);
    assert Options(Words(options))[0..] == Options(Words(options));
  }

  /** The keyword of an option is its dash token. */
  lemma KeywordOfGroup(g: seq<string>, last: bool)
    requires IsGroup(g)
    ensures Keyword(OptionText(g, last)) == g[0]
  {
    var o := OptionText(g, last);
    assert forall i :: 0 <= i < |g[0]| ==> g[0][i] != ' ' by {
      assert IsWord(g[0]);
    }
    if |g| == 1 && !last {
      assert o == g[0];
      SplitWord(g[0]);
    } else if |g| == 1 {
      assert o == g[0] + " " + "";
      SplitWordThenSpace(g[0], "");
    } else {
      var u := Join(g[1..]) + Trailer(last);
      assert o == g[0] + " " + u by {
        SpacedIsSpaceJoin(g[1..]);
        AppendAssoc(g[0], " ", Join(g[1..]));
        AppendAssoc(g[0] + " ", Join(g[1..]), Trailer(last));
      }
      SplitWordThenSpace(g[0], u);
    }
  }

  /** The words of an option are the tokens of its group. */
  lemma WordsOfOption(g: seq<string>, last: bool)
    requires IsGroup(g)
    ensures Words(OptionText(g, last)) == g
  {
    WordsOfJoin(g);
    if last {
      WordsAroundSpace(Join(g), ' ', "");
      assert Join(g) + [' '] + "" == OptionText(g, last);
    } else {
      assert OptionText(g, last) == Join(g);
    }
  }

  lemma {:induction false} KeptWords(ws: seq<string>, i: nat, valid: seq<string>)
    requires AllWords(ws) && i <= |Options(ws)| && i <= |Groups(ws)|
    ensures Words(KeptText(Options(ws)[i..], valid)) == Flatten(KeptGroups(Groups(ws)[i..], valid))
    decreases |Options(ws)| - i
  {
    OptionsAreGroups(ws);
    var os := Options(ws);
    var gs := Groups(ws);
    if i == |os| {
      assert os[i..] == [] && gs[i..] == [];
    } else {
      var g := gs[i];
      var last := i == |gs| - 1;
      assert os[i] == OptionText(g, last);
      assert Words(KeptText(os[i+1..], valid)) == Flatten(KeptGroups(gs[i+1..], valid)) by {
        KeptWords(ws, i + 1, valid);
      }
      assert KeptText(os[i..], valid) == Kept(os[i], valid) + KeptText(os[i+1..], valid) by {
        KeptTextCons(os, i, valid);
      }
      assert KeptGroups(gs[i..], valid) == (if IsKeptGroup(g, valid) then [g] else []) + KeptGroups(gs[i+1..], valid) by {
        assert gs[i..][1..] == gs[i+1..];
      }
      assert IsValidOption(os[i], valid) <==> IsKeptGroup(g, valid) by {
        KeywordOfGroup(g, last);
      }
      if IsKeptGroup(g, valid) {
        assert Words(os[i] + " " + KeptText(os[i+1..], valid)) == g + Words(KeptText(os[i+1..], valid)) by {
          WordsOfOption(g, last);
          WordsAroundSpace(os[i], ' ', KeptText(os[i+1..], valid));
          assert os[i] + " " + KeptText(os[i+1..], valid) == os[i] + [' '] + KeptText(os[i+1..], valid);
        }
        assert ([g] + KeptGroups(gs[i+1..], valid))[1..] == KeptGroups(gs[i+1..], valid);
      } else {
        assert [] + KeptGroups(gs[i+1..], valid) == KeptGroups(gs[i+1..], valid);
        assert "" + KeptText(os[i+1..], valid) == KeptText(os[i+1..], valid);
      }
    }
  }

  lemma {:induction false} KeptGroupsAreGroups(gs: seq<seq<string>>, valid: seq<string>)
    requires forall i :: 0 <= i < |gs| ==> IsGroup(gs[i])
    ensures forall i :: 0 <= i < |KeptGroups(gs, valid)| ==> IsGroup(KeptGroups(gs, valid)[i]) && IsKeptGroup(KeptGroups(gs, valid)[i], valid)
    ensures KeptGroups(KeptGroups(gs, valid), valid) == KeptGroups(gs, valid)
    decreases |gs|
  {
    if gs != [] {
      KeptGroupsAreGroups(gs[1..], valid);
      var rest := KeptGroups(gs[1..], valid);
      if IsKeptGroup(gs[0], valid) {
        assert KeptGroups(gs, valid) == [gs[0]] + rest;
        assert ([gs[0]] + rest)[1..] == rest;
      } else {
        assert KeptGroups(gs, valid) == rest;
      }
    }
  }

  /** The options left by stripBadOptions are exactly the listed-keyword
      option groups of the input, in order, and stripping again changes
      none of them. */
  lemma StripGroups(options: string)
    ensures Groups(Words(StripBadOptions(options))) == KeptGroups(Groups(Words(options)), ValidKeywords)
    ensures Groups(Words(StripBadOptions(StripBadOptions(options)))) == Groups(Words(StripBadOptions(options)))
  {
    var ws := Words(options);
    OptionsAreGroups(ws);
    StripSpec(options);
    KeptWords(ws, 0, ValidKeywords);
    assert Options(ws)[0..] == Options(ws) && Groups(ws)[0..] == Groups(ws);
    KeptGroupsAreGroups(Groups(ws), ValidKeywords);
    GroupsOfFlatten(KeptGroups(Groups(ws), ValidKeywords));
    var s1 := StripBadOptions(options);
    var ws1 := Words(s1);
    OptionsAreGroups(ws1);
    StripSpec(s1);
    KeptWords(ws1, 0, ValidKeywords);
    assert Options(ws1)[0..] == Options(ws1) && Groups(ws1)[0..] == Groups(ws1);
    KeptGroupsAreGroups(Groups(ws1), ValidKeywords);
    GroupsOfFlatten(KeptGroups(Groups(ws1), ValidKeywords));
  }
}

=== FILE: options_dialogue.dfy ===
/** The options dialogue's mapping between its widgets and a LAME option
    string: wipeSettings (the defaults), setDefaultOptions (option string
    to widgets) and buildOptions (widgets to option string). The widgets
    are a record of the values they hold; each slider and the spin box the
    dialogue keeps in step with it hold one value. */
module OptionsDialogue {
  import opened Base
  import opened Text
  import opened OptionParser
  import LameSettings

  datatype Widgets = Widgets(
    mode: int,                  // mode combo box index
    bitratePref: bool,
    qualityPref: bool,
    quality: int,               // qualitySelect and qualityDisplay
    bitrate: int,               // bitrateSelect and bitrateDisplay
    abrBitrate: int,            // abrBitrateSelect and abrBitrateDisplay
    useCbr: bool,
    qualitySetting: int,
    noFiltering: bool,
    blockSizeDifference: bool,
    useMaxBitrate: bool,
    maxBitrate: int,            // maxBitrateVbr and maxBitrateDisplay
    useMinVbrBitrate: bool,
    preset: int,                // preset combo box index
    presetSelect: bool,
    highpassSelect: bool, highpass: string,
    highpassWidthSelect: bool, highpassWidth: string,
    lowpassSelect: bool, lowpass: string,
    lowpassWidthSelect: bool, lowpassWidth: string,
    useTonalityLimit: bool, tonalityLimit: string,
    useResample: bool,
    resample: int,              // resample frequency combo box index
    algorithmVbr: int,          // VBR algorithm combo box index
    changeQualityMeasure: bool,
    qualityMeasure: int,
    additional: string)         // the additional options line

  /** wipeSettings: the defaults. The maximum VBR bitrate is not reset, so
      it keeps the value it had. */
  function Wipe(w: Widgets): Widgets {
    Widgets(0, false, true, 60, 128, 128, false, 5, false, false, false, w.maxBitrate, false,
            1, false, false, "", false, "", false, "", false, "", false, "", false, 0, 0,
            false, 0, "")
  }

  // ---------------------------------------------------------------------
  // setDefaultOptions

  /** The loop variables of setDefaultOptions: the widgets, the last
      integer parameter read (`parm`, which an option without a parameter
      reuses) and the unrecognised options collected so far. */
  datatype Reading = Reading(w: Widgets, parm: int, extra: string)

  /** toInt's value: the number, or 0 when the text is not one. */
  function IntOrZero(p: string): int {
    match ParseInt(p)
    case Some(v) => v
    case None => 0
  }

  /** The mode combo box index -m sets; "-m a" sets none. */
  function ModeIndex(p: string): Option<int> {
    if p == "m" then Some(1)
    else if p == "s" then Some(2)
    else if p == "j" then Some(3)
    else if p == "f" then Some(4)
    else if p == "d" then Some(5)
    else None
  }

  /** The resample combo box index --resample sets; anything not in the
      list selects the last entry. */
  function ResampleIndex(p: string): int {
    if p == "8" then 0
    else if p == "11.025" then 1
    else if p == "12" then 2
    else if p == "16" then 3
    else if p == "22.05" then 4
    else if p == "24" then 5
    else if p == "32" then 6
    else if p == "44.1" then 7
    else 8
  }

  /** The preset combo box index --preset sets, if any. */
  function PresetIndex(p: string, current: int): int {
    if p == "standard" then 0
    else if p == "medium" then 1
    else if p == "extreme" then 2
    else if p == "insane" then 3
    else current
  }

  /** One iteration of setDefaultOptions' loop on one option. */
  function ReadOption(r: Reading, option: string): Reading {
    var k := Keyword(option);
    var p := Section(option, 1);
    var parm := if p != "" then IntOrZero(p) else r.parm;
    var w := r.w;
    var w' :=
      if k == "-m" then
        (match ModeIndex(p) case Some(i) => w.(mode := i) case None => w)
      else if k == "-V" then w.(qualityPref := true, quality := 100 - parm * 10)
      else if k == "--vbr-new" then w.(qualityPref := true, algorithmVbr := 1)
      else if k == "--vbr-old" || k == "-v" then w.(qualityPref := true, algorithmVbr := 0)
      else if k == "-B" then w.(useMaxBitrate := true, maxBitrate := parm)
      else if k == "-b" then w.(bitrate := parm, useMinVbrBitrate := true)
      else if k == "--abr" then w.(bitratePref := true, abrBitrate := parm)
      else if k == "--cbr" then w.(bitratePref := true, useCbr := true)
      else if k == "-q" then w.(qualitySetting := parm)
      else if k == "-k" then w.(noFiltering := true)
      else if k == "--preset" then w.(presetSelect := true, preset := PresetIndex(p, w.preset))
      else if k == "--highpass" then w.(highpassSelect := true, highpass := p)
      else if k == "--highpass-width" then w.(highpassWidthSelect := true, highpassWidth := p)
      else if k == "--lowpass" then w.(lowpassSelect := true, lowpass := p)
      else if k == "--lowpass-width" then w.(lowpassWidthSelect := true, lowpassWidth := p)
      else if k == "--cwlimit" then w.(useTonalityLimit := true, tonalityLimit := p)
      else if k == "--resample" then w.(useResample := true, resample := ResampleIndex(p))
      else if k == "-X" then w.(changeQualityMeasure := true, qualityMeasure := parm)
      else w;
    var extra := if Recognised(k) || k == "--silent" then r.extra else r.extra + option + " ";
    Reading(w', parm, extra)
  }

  /** The keywords setDefaultOptions shows in the widgets. */
  predicate Recognised(k: string) {
    k in ["-m", "-V", "--vbr-new", "--vbr-old", "-v", "-B", "-b", "--abr", "--cbr", "-q", "-k",
          "--preset", "--highpass", "--highpass-width", "--lowpass", "--lowpass-width",
          "--cwlimit", "--resample", "-X"]
  }

  /** The loop of setDefaultOptions from option n on; parseOptions
      replaces `options` by its simplified form on every call. */
  function ReadLoop(options: string, n: nat, r: Reading): Reading
    decreases |Options(Words(options))| - n
  {
    var p := ParseOptions(options, n);
    if p.option == "" then r
    else
      SimplifiedKeepsWords(options);
      ReadLoop(p.simplified, n + 1, ReadOption(r, p.option))
  }

  /** setDefaultOptions(options): the widgets it leaves, with the
      unrecognised options in the additional options line. The other
      widgets keep their values. */
  function SetDefaultOptions(w: Widgets, options: string): Widgets {
    var r := ReadLoop(options, 0, Reading(w, 0, ""));
    r.w.(additional := r.extra)
  }

  /** The same loop described as a left fold over the option list. */
  function ReadAll(r: Reading, os: seq<string>): Reading
    decreases |os|
  {
    if os == [] then r else ReadAll(ReadOption(r, os[0]), os[1..])
  }

  lemma ReadLoopStep(options: string, n: nat, r: Reading)
    requires n < |Options(Words(options))|
    ensures var o := Options(Words(options))[n];
      && Options(Words(Simplified(options))) == Options(Words(options))
      && ReadLoop(options, n, r) == ReadLoop(Simplified(options), n + 1, ReadOption(r, o))
  {
    OptionsAreGroups(Words(options));
    assert |Join(Groups(Words(options))[n])| > 0;
    SimplifiedKeepsWords(options);
  }

  /** setDefaultOptions reads the options in order, each once. */
  lemma {:induction false} ReadLoopIsFold(options: string, n: nat, r: Reading)
    requires n <= |Options(Words(options))|
    ensures ReadLoop(options, n, r) == ReadAll(r, Options(Words(options))[n..])
    decreases |Options(Words(options))| - n
  {
    var os := Options(Words(options));
    if n == |os| {
      OptionsAreGroups(Words(options));
      assert os[n..] == [];
    } else {
      ReadLoopStep(options, n, r);
      ReadLoopIsFold(Simplified(options), n + 1, ReadOption(r, os[n]));
      assert os[n..][1..] == os[n + 1..];
    }
  }

  // ---------------------------------------------------------------------
  // buildOptions

  /** QString::number applied to an integer widget value. */
  function Num(i: int): string {
    IntToString(i)
  }

  /** The VBR quality number buildOptions emits for a quality slider value,
      in C integer division. */
  function VQuality(quality: int): int {
    TruncDiv(100 - quality, 10)
  }

  /** The rate control options: VBR, ABR or CBR. */
  function RatePart(w: Widgets): (s: string)
    ensures |s| > 0 && s[0] == ' '
  {
    if w.qualityPref then
      " -V " + Num(VQuality(w.quality))
      + (if w.useMaxBitrate then " -B " + Num(w.maxBitrate) else "")
      + (if w.algorithmVbr == 1 then " --vbr-new" else " --vbr-old")
      + (if w.useMinVbrBitrate then " -b " + Num(w.bitrate) else "")
    else if !w.useCbr then
      " --abr " + Num(w.abrBitrate)
      + (if w.useMaxBitrate then " -B " + Num(w.maxBitrate) else "")
      + (if w.useMinVbrBitrate then " -b " + Num(w.bitrate) else "")
    else " --cbr " + "-b " + Num(w.bitrate)
  }

  /** The -m letter of each mode index. */
  function ModeLetter(i: int): string {
    if i == 1 then "m"
    else if i == 2 then "s"
    else if i == 3 then "j"
    else if i == 4 then "f"
    else if i == 5 then "d"
    else ""
  }

  function ModePart(w: Widgets): string {
    if 1 <= w.mode <= 5 then " -m " + ModeLetter(w.mode) else ""
  }

  /** `text.left(text.indexOf(pattern))`: the text before the first
      occurrence of the pattern, or all of it when there is none. */
  function Before(text: string, pattern: string): (r: string)
    requires |pattern| > 0
    ensures |r| <= |text| && r == text[..|r|]
  {
    if |text| < |pattern| then text
    else if text[..|pattern|] == pattern then ""
    else [text[0]] + Before(text[1..], pattern)
  }

  /** The options after the rate control: mode, quality, filters, preset,
      frequencies, quality measure, resampling and tonality limit.
      `presetText` and `resampleText` are the combo boxes' item texts. */
  function TailPart(w: Widgets, presetText: int -> string, resampleText: int -> string): string {
    ModePart(w)
    + " -q " + Num(w.qualitySetting)
    + (if w.noFiltering then " -k" else "")
    + (if w.presetSelect then " --preset " + presetText(w.preset) else "")
    + (if w.highpassSelect then " --highpass " + w.highpass else "")
    + (if w.highpassWidthSelect then " --highpass-width " + w.highpassWidth else "")
    + (if w.lowpassSelect then " --lowpass " + w.lowpass else "")
    + (if w.lowpassWidthSelect then " --lowpass-width " + w.lowpassWidth else "")
    + (if w.changeQualityMeasure then " -X " + Num(w.qualityMeasure) else "")
    + (if w.useResample then " --resample " + Before(resampleText(w.resample), " kHz") else "")
    + (if w.useTonalityLimit then " --cwlimit " + w.tonalityLimit else "")
  }

  /** What buildOptions produces: the option string and the widgets after
      it has read the additional options into them. */
  datatype Built = Built(options: string, w: Widgets)

  /** The additional options line after the optional strip, and the
      widgets once setDefaultOptions has read it. */
  function ReadAdditional(w: Widgets, discard: bool): (string, Widgets) {
    var add := if discard then StripBadOptions(w.additional) else w.additional;
    (Simplified(add), SetDefaultOptions(w, add))
  }

  /** The widget options of buildOptions, after the additional ones. */
  function WidgetPart(w: Widgets, presetText: int -> string, resampleText: int -> string): (s: string)
    ensures |s| > 0 && s[0] == ' '
  {
    RatePart(w) + TailPart(w, presetText, resampleText)
  }

  /** " --silent", then the additional options run on with no separating
      space, then the widget options: the string as buildOptions builds it. */
  function GlueAsWritten(add: string, rest: string): string {
    " --silent" + add + rest
  }

  /** " --silent", a space and the additional options when there are
      any, then the widget options. */
  function Glue(add: string, rest: string): string {
    " --silent" + (if add == "" then "" else " " + add) + rest
  }

  /** buildOptions as written. */
  function BuildOptionsAsWritten(w: Widgets, discard: bool, presetText: int -> string,
                                 resampleText: int -> string): Built
  {
    var a := ReadAdditional(w, discard);
    Built(GlueAsWritten(a.0, WidgetPart(a.1, presetText, resampleText)), a.1)
  }

  /** buildOptions with a space between " --silent" and non-empty
      additional options. */
  function BuildOptions(w: Widgets, discard: bool, presetText: int -> string,
                        resampleText: int -> string): Built
  {
    var a := ReadAdditional(w, discard);
    Built(Glue(a.0, WidgetPart(a.1, presetText, resampleText)), a.1)
  }

  // ---------------------------------------------------------------------
  // Properties

  /** An empty additional options line reads as nothing and leaves the
      widgets unchanged. */
  lemma NoAdditional(w: Widgets, discard: bool)
    requires w.additional == ""
    ensures ReadAdditional(w, discard) == ("", w)
  {
    if discard {
      StripSpec("");
    }
    assert Words("") == [];
    assert ParseOptions("", 0).option == "";
  }

  /** The default rate control: VBR quality 4 with the old algorithm. */
  lemma DefaultRate(w: Widgets)
    ensures RatePart(Wipe(w)) == " -V 4 --vbr-old"
  {
    assert Num(VQuality(60)) == "4";
  }

  lemma DefaultTail(w: Widgets, presetText: int -> string, resampleText: int -> string)
    ensures TailPart(Wipe(w), presetText, resampleText) == " -q 5"
  {
    assert Num(5) == "5";
  }

  /** The widget options of the defaults. */
  lemma DefaultWidgets(w: Widgets, presetText: int -> string, resampleText: int -> string)
    ensures WidgetPart(Wipe(w), presetText, resampleText) == " -V 4 --vbr-old" + " -q 5"
  {
    DefaultRate(w);
    DefaultTail(w, presetText, resampleText);
  }

  /** With an empty additional options line, the option string is
      " --silent" followed by the widget options, both as written and
      corrected. */
  lemma BuildWithoutAdditional(w: Widgets, discard: bool, presetText: int -> string,
                               resampleText: int -> string)
    requires w.additional == ""
    ensures BuildOptionsAsWritten(w, discard, presetText, resampleText).options
            == " --silent" + WidgetPart(w, presetText, resampleText)
    ensures BuildOptions(w, discard, presetText, resampleText).options
            == " --silent" + WidgetPart(w, presetText, resampleText)
  {
    NoAdditional(w, discard);
  }

  /** The defaults, with an empty additional options line, give the
      program's default option string. */
  lemma DefaultOptionString(w: Widgets, discard: bool, presetText: int -> string,
                            resampleText: int -> string)
    ensures BuildOptionsAsWritten(Wipe(w), discard, presetText, resampleText).options
            == " --silent" + " -V 4 --vbr-old" + " -q 5"
    ensures BuildOptions(Wipe(w), discard, presetText, resampleText).options
            == " --silent" + " -V 4 --vbr-old" + " -q 5"
  {
    BuildWithoutAdditional(Wipe(w), discard, presetText, resampleText);
    DefaultWidgets(w, presetText, resampleText);
  }

  /** -m with one of m, s, j, f, d selects the mode index whose letter
      buildOptions writes back; "-m a" changes no widget. */
  lemma ModeRoundTrip(r: Reading, option: string)
    requires Keyword(option) == "-m"
    ensures var p := Section(option, 1);
      var w := ReadOption(r, option).w;
      && (p in {"m", "s", "j", "f", "d"} ==> ModePart(w) == " -m " + p)
      && (p !in {"m", "s", "j", "f", "d"} ==> w == r.w)
  {
  }

  /** buildOptions' -m option, read back, restores the mode index. */
  lemma ModeReadBack(r: Reading, option: string, w: Widgets)
    requires 1 <= w.mode <= 5
    requires Keyword(option) == "-m" && Section(option, 1) == ModeLetter(w.mode)
    ensures ReadOption(r, option).w.mode == w.mode
  {
  }

  /** -V p sets the quality slider to 100 - 10p, from which buildOptions
      writes back p for every p in 0..10. */
  lemma QualityRoundTrip(r: Reading, option: string, p: int)
    requires 0 <= p <= 10
    requires Keyword(option) == "-V" && Section(option, 1) == Num(p)
    ensures var w := ReadOption(r, option).w;
      && w.qualityPref
      && w.quality == 100 - 10 * p
      && RatePart(w)[..4 + |Num(p)|] == " -V " + Num(p)
  {
    IntStringRoundTrip(p);
    var w := ReadOption(r, option).w;
    assert VQuality(w.quality) == p;
  }

  /** A quality slider on a multiple of ten in 0..100 survives being
      written by buildOptions and read back by setDefaultOptions. */
  lemma QualityReadBack(r: Reading, option: string, q: int)
    requires 0 <= q <= 100 && q % 10 == 0
    requires Keyword(option) == "-V" && Section(option, 1) == Num(VQuality(q))
    ensures ReadOption(r, option).w.quality == q
  {
    IntStringRoundTrip(VQuality(q));
  }

  /** An option without a parameter reuses the last integer read. */
  lemma ParameterCarried(r: Reading, option: string)
    requires Keyword(option) == "-q" && Section(option, 1) == ""
    ensures ReadOption(r, option).w.qualitySetting == r.parm
  {
  }

  /** An unrecognised option is kept for the additional options line,
      followed by a space, and changes no widget. */
  lemma UnrecognisedKept(r: Reading, option: string)
    requires !Recognised(Keyword(option)) && Keyword(option) != "--silent"
    ensures ReadOption(r, option).w == r.w
    ensures ReadOption(r, option).extra == r.extra + option + " "
  {
  }

  /** The resample text of a combo box item "<rate> kHz". */
  lemma {:induction false} BeforeUnit(a: string, b: string)
    requires forall i :: 0 <= i < |a| ==> a[i] != ' '
    ensures Before(a + " kHz" + b, " kHz") == a
    decreases |a|
  {
    var t := a + " kHz" + b;
    if a == [] {
      assert t[..4] == " kHz";
    } else {
      assert t[..4] != " kHz" by {
        assert t[0] == a[0] && a[0] != ' ';
      }
      assert t[1..] == a[1..] + " kHz" + b;
      BeforeUnit(a[1..], b);
      assert [a[0]] + a[1..] == a;
    }
  }

  // ---------------------------------------------------------------------
  // The " --silent" glue

  /** The first word of a word followed by a space is that word. */
  lemma FirstWord(a: string, t: string)
    requires IsWord(a) && t != [] && IsSpace(t[0])
    ensures Words(a + t) != [] && Words(a + t)[0] == a
  {
    WordLenAppend(a, t);
    WordLenOfWord(a);
    assert (a + t)[..|a|] == a;
  }

  /** A non-empty simplified line, glued after " --silent", lengthens the
      first word of the result. */
  lemma GluedWords(ws: seq<string>, rest: string)
    requires AllWords(ws) && ws != [] && rest != [] && IsSpace(rest[0])
    ensures var s := GlueAsWritten(Join(ws), rest);
      Words(s) != [] && Words(s)[0] == "--silent" + ws[0]
  {
    var s := GlueAsWritten(Join(ws), rest);
    var tail := Spaced(ws[1..]) + rest;
    assert s == [' '] + (("--silent" + ws[0]) + tail);
    assert s[1..] == ("--silent" + ws[0]) + tail;
    assert IsWord(ws[0]);
    assert IsWord("--silent" + ws[0]);
    if ws[1..] != [] {
      assert tail[0] == ' ';
    } else {
      assert tail == rest;
    }
    FirstWord("--silent" + ws[0], tail);
  }

  /** The words of " --silent". */
  lemma SilentWords()
    ensures Words(" --silent") == ["--silent"]
  {
    WordsOfWord("--silent");
    WordsAroundSpace("", ' ', "--silent");
    assert [] + [' '] + "--silent" == " --silent";
  }

  /** The words of a string after a space and of one that starts with it. */
  lemma SpaceThen(a: string, rest: string)
    requires rest != [] && IsSpace(rest[0])
    ensures Words(a + rest) == Words(a) + Words(rest)
  {
    assert a + rest == a + [rest[0]] + rest[1..];
    WordsAroundSpace(a, rest[0], rest[1..]);
    assert rest == [] + [rest[0]] + rest[1..];
    WordsAroundSpace([], rest[0], rest[1..]);
  }

  lemma SeparateWordsEmpty(rest: string)
    requires rest != [] && IsSpace(rest[0])
    ensures Words(Glue("", rest)) == ["--silent"] + Words(rest)
  {
    var t := " --silent" + rest;
    assert Glue("", rest) == t;
    assert Words(t) == ["--silent"] + Words(rest) by {
      SpaceThen(" --silent", rest);
      SilentWords();
    }
  }

  lemma SeparateWordsSome(add: string, rest: string)
    requires add != "" && rest != [] && IsSpace(rest[0])
    ensures Words(Glue(add, rest)) == ["--silent"] + Words(add) + Words(rest)
  {
    var t := add + rest;
    assert Glue(add, rest) == " --silent" + [' '] + t;
    WordsAroundSpace(" --silent", ' ', t);
    SilentWords();
    SpaceThen(add, rest);
  }

  /** With the space, the words are those of the three parts in order. */
  lemma SeparateWords(add: string, rest: string)
    requires rest != [] && IsSpace(rest[0])
    ensures Words(Glue(add, rest)) == ["--silent"] + Words(add) + Words(rest)
  {
    if add == "" {
      SeparateWordsEmpty(rest);
    } else {
      SeparateWordsSome(add, rest);
    }
  }

  /** As written, non-empty additional options are glued to "--silent":
      the option string's first word is "--silent" run together with the
      first additional word. That word is no keyword setLameSetting acts
      on, so it is accepted and ignored: the first additional option is
      lost unless a widget writes it back ("-m a" is one no widget keeps),
      and one that setLameSetting would refuse ("-V x") passes silently. */
  lemma GluedSilent(w: Widgets, discard: bool, presetText: int -> string,
                    resampleText: int -> string)
    requires ReadAdditional(w, discard).0 != ""
    ensures var add := ReadAdditional(w, discard).0;
      var s := BuildOptionsAsWritten(w, discard, presetText, resampleText).options;
      && Words(add) != [] && Words(s) != []
      && Words(s)[0] == "--silent" + Words(add)[0]
      && Words(s)[0] != "--silent"
      && Words(s)[0] !in LameSettings.KnownKeywords
  {
    var a := ReadAdditional(w, discard);
    var raw := if discard then StripBadOptions(w.additional) else w.additional;
    assert a.0 == Join(Words(raw));
    SimplifiedKeepsWords(raw);
    GluedWords(Words(raw), WidgetPart(a.1, presetText, resampleText));
    assert |"--silent" + Words(raw)[0]| > |"--silent"|;
    GluedUnknown(Words(raw)[0]);
  }

  /** No keyword setLameSetting acts on starts with "--s". */
  lemma GluedUnknown(x: string)
    requires x != ""
    ensures "--silent" + x !in LameSettings.KnownKeywords
  {
    var g := "--silent" + x;
    assert |g| > 8 && g[2] == 's';
    forall k | k in LameSettings.KnownKeywords
      ensures k != g
    {
      assert |k| <= 2 || k[2] != 's';
    }
  }

  /** With the space, the option string's words are "--silent", then the
      additional options' words, then the widget options' words. */
  lemma SeparateSilent(w: Widgets, discard: bool, presetText: int -> string,
                       resampleText: int -> string)
    ensures var a := ReadAdditional(w, discard);
      Words(BuildOptions(w, discard, presetText, resampleText).options)
        == ["--silent"] + Words(a.0) + Words(WidgetPart(a.1, presetText, resampleText))
  {
    var a := ReadAdditional(w, discard);
    SeparateWords(a.0, WidgetPart(a.1, presetText, resampleText));
  }
}

=== FILE: progress.dfy ===
/** ProgressDisplay: the progress dialogue's two unsigned counters, fed by
    the jobs' progressTotalIncrement and progressCountIncrement signals.
    The dialogue itself is reduced to the last values handed to
    setMaximum and setValue. */
module ProgressDisplay {
  import opened Base
  import opened WavReader
  import opened BlockPartition
  import opened ConversionJob

  /** A value of the C type `uint`. */
  type Uint = x: nat | x < UINT_MODULUS

  /** progressTotal_, progressCount_, and the last arguments of setMaximum
      and setValue (None while the dialogue has not been given one). */
  datatype Display = Display(total: Uint, count: Uint, maximum: Option<Uint>, value: Option<Uint>)

  /** The constructor clears both counters. */
  const Fresh: Display := Display(0, 0, None, None)

  /** `uint` addition, which wraps around. */
  function AddUint(a: Uint, b: nat): (r: Uint)
    ensures a + b < UINT_MODULUS ==> r == a + b
    ensures (r - a - b) % UINT_MODULUS == 0
  {
    (a + b) % UINT_MODULUS
  }

  /** bumpProgressTotal: the total grows, and the dialogue's maximum
      follows it once it is positive. */
  function BumpTotal(d: Display, increment: nat): (r: Display)
    ensures r.count == d.count && r.value == d.value
    ensures r.total > 0 ==> r.maximum == Some(r.total)
    ensures r.total == 0 ==> r.maximum == d.maximum
  {
    var total := AddUint(d.total, increment);
    Display(total, d.count, if total > 0 then Some(total) else d.maximum, d.value)
  }

  /** bumpProgressCount: the count grows, and the dialogue's value follows
      it only while the total is positive. */
  function BumpCount(d: Display, increment: nat): (r: Display)
    ensures r.total == d.total && r.maximum == d.maximum
    ensures d.total > 0 ==> r.value == Some(r.count)
    ensures d.total == 0 ==> r.value == d.value
  {
    var count := AddUint(d.count, increment);
    Display(d.total, count, d.maximum, if d.total > 0 then Some(count) else d.value)
  }

  /** The slot a job's event reaches: the two progress signals; the
      encoder calls are not seen by the dialogue. */
  function Receive(d: Display, e: Event): Display {
    match e
    case Total(blocks) => BumpTotal(d, blocks)
    case Count(n) => BumpCount(d, n)
    case _ => d
  }

  /** The dialogue after a sequence of events, in the order the slots run. */
  function Feed(d: Display, events: seq<Event>): Display {
    if events == [] then d
    else Receive(Feed(d, events[..|events| - 1]), events[|events| - 1])
  }

  lemma ModAdd(x: nat, y: nat)
    ensures (x % UINT_MODULUS + y) % UINT_MODULUS == (x + y) % UINT_MODULUS
  {
    var q := x / UINT_MODULUS;
    assert x + y == (x % UINT_MODULUS + y) + q * UINT_MODULUS;
  }

  /** The counters are running sums of the increments, taken modulo 2^32. */
  lemma {:induction false} FeedSums(d: Display, events: seq<Event>)
    ensures Feed(d, events).total == (d.total + TotalSum(events)) % UINT_MODULUS
    ensures Feed(d, events).count == (d.count + CountSum(events)) % UINT_MODULUS
    decreases |events|
  {
    if events != [] {
      var pre := events[..|events| - 1];
      var e := events[|events| - 1];
      FeedSums(d, pre);
      assert events == pre + [e];
      CountSumAppend(pre, [e]);
      SingleSums(e);
      ModAdd(d.total + TotalSum(pre), TotalSum([e]));
      ModAdd(d.count + CountSum(pre), CountSum([e]));
    }
  }

  /** Feeding two runs of events one after the other. */
  lemma {:induction false} FeedAppend(d: Display, a: seq<Event>, b: seq<Event>)
    ensures Feed(d, a + b) == Feed(Feed(d, a), b)
    decreases |b|
  {
    if b == [] {
      assert a + b == a;
    } else {
      assert (a + b)[..|a + b| - 1] == a + b[..|b| - 1];
      FeedAppend(d, a, b[..|b| - 1]);
    }
  }

  /** Whenever the total is positive, the dialogue's maximum is the total;
      and a value is shown only after a maximum has been. */
  predicate Consistent(d: Display) {
    && (d.total > 0 ==> d.maximum == Some(d.total))
    && (d.maximum.Some? ==> d.maximum.value > 0)
    && (d.value.Some? ==> d.maximum.Some?)
  }

  lemma {:induction false} FeedConsistent(d: Display, events: seq<Event>)
    requires Consistent(d)
    ensures Consistent(Feed(d, events))
    decreases |events|
  {
    if events != [] {
      FeedConsistent(d, events[..|events| - 1]);
    }
  }

  /** Nothing reaches the dialogue until some total is positive: with no
      wrap-around, it shows a maximum exactly when the summed totals are
      positive, and no value before that. */
  lemma {:induction false} NothingShownBeforeTotal(events: seq<Event>)
    requires TotalSum(events) < UINT_MODULUS
    ensures Feed(Fresh, events).maximum.None? <==> TotalSum(events) == 0
    ensures TotalSum(events) == 0 ==> Feed(Fresh, events).value.None?
    ensures Feed(Fresh, events).total == TotalSum(events)
    decreases |events|
  {
    if events != [] {
      var pre := events[..|events| - 1];
      var e := events[|events| - 1];
      assert events == pre + [e];
      CountSumAppend(pre, [e]);
      SingleSums(e);
      NothingShownBeforeTotal(pre);
    }
  }

  /** After a positive total, events that add no total keep the total and
      maximum, and the shown value is the count as soon as any count has
      been added. */
  predicate Tracking(d: Display) {
    && d.total > 0 && d.maximum == Some(d.total)
    && (d.value.Some? ==> d.value == Some(d.count))
  }

  lemma {:induction false} FeedAfterTotal(d: Display, events: seq<Event>)
    requires Tracking(d) && TotalSum(events) == 0
    ensures var r := Feed(d, events);
      && Tracking(r) && r.total == d.total && r.maximum == d.maximum
      && (CountSum(events) > 0 ==> r.value.Some?)
    decreases |events|
  {
    if events != [] {
      var pre := events[..|events| - 1];
      var e := events[|events| - 1];
      assert events == pre + [e];
      CountSumAppend(pre, [e]);
      SingleSums(e);
      FeedAfterTotal(d, pre);
    }
  }

  /** One job's signals on a fresh dialogue: the maximum is the job's block
      count, the count is the sum of its count signals and stays within
      the maximum, and the value shown is the count once one has arrived. */
  lemma JobDisplay(j: Job, lanes: Lanes)
    requires Readable(j) && ValidLanes(lanes) && NumBlocks(j.frames) < UINT_MODULUS
    ensures var ev := Convert(j, lanes).events;
      var r := Feed(Fresh, ev);
      && r.total == NumBlocks(j.frames)
      && r.maximum == Some(NumBlocks(j.frames))
      && r.count == CountSum(ev) <= r.total
      && (r.count > 0 ==> r.value == Some(r.count))
      && (r.value.Some? ==> r.value == Some(r.count))
  {
    var ev := Convert(j, lanes).events;
    var n := NumBlocks(j.frames);
    ConvertAnnounces(j, lanes);
    ProgressWithinTotal(j, lanes);
    assert ev == [ev[0]] + ev[1..];
    CountSumAppend([ev[0]], ev[1..]);
    SingleSums(ev[0]);
    FeedAppend(Fresh, [ev[0]], ev[1..]);
    assert [ev[0]][..0] == [];
    assert Feed(Fresh, [ev[0]]) == Display(n, 0, Some(n), None);
    FeedAfterTotal(Feed(Fresh, [ev[0]]), ev[1..]);
    FeedSums(Fresh, ev);
  }

  // ---------------------------------------------------------------------
  // Several jobs at once

  /** An event in the middle of a sequence adds its increments to the
      sums of the rest. */
  lemma SumsAround(p: seq<Event>, x: Event, q: seq<Event>)
    ensures TotalSum(p + [x] + q) == TotalSum(p + q) + TotalSum([x])
    ensures CountSum(p + [x] + q) == CountSum(p + q) + CountSum([x])
  {
    CountSumAppend(p, [x]);
    CountSumAppend(p + [x], q);
    CountSumAppend(p, q);
  }

  /** Taking element i out of b leaves the rest of its multiset. */
  lemma Remove<T>(b: seq<T>, i: nat)
    requires i < |b|
    ensures multiset(b[..i] + b[i + 1..]) == multiset(b) - multiset{b[i]}
  {
    assert b == b[..i] + [b[i]] + b[i + 1..];
  }

  /** The first event of a and event i of b are the same; the sums of
      both are those of the rest plus that event's increments. */
  lemma SumsMatch(a: seq<Event>, b: seq<Event>, i: nat)
    requires a != [] && i < |b| && b[i] == a[0]
    ensures TotalSum(a) == TotalSum(a[1..]) + TotalSum([a[0]])
    ensures CountSum(a) == CountSum(a[1..]) + CountSum([a[0]])
    ensures TotalSum(b) == TotalSum(b[..i] + b[i + 1..]) + TotalSum([a[0]])
    ensures CountSum(b) == CountSum(b[..i] + b[i + 1..]) + CountSum([a[0]])
  {
    assert a == [a[0]] + a[1..];
    CountSumAppend([a[0]], a[1..]);
    assert b == b[..i] + [b[i]] + b[i + 1..];
    SumsAround(b[..i], b[i], b[i + 1..]);
  }

  /** Matching the first event of a in b leaves two permutations of each
      other. */
  lemma PermutationRest(a: seq<Event>, b: seq<Event>) returns (i: nat)
    requires a != [] && multiset(a) == multiset(b)
    ensures i < |b| && b[i] == a[0]
    ensures multiset(a[1..]) == multiset(b[..i] + b[i + 1..])
  {
    assert a[0] in multiset(b);
    i :| 0 <= i < |b| && b[i] == a[0];
    Remove(b, i);
    Remove(a, 0);
    assert a[..0] + a[1..] == a[1..];
  }

  /** The sums do not depend on the order of the events. */
  lemma {:induction false} SumsOfPermutation(a: seq<Event>, b: seq<Event>)
    requires multiset(a) == multiset(b)
    ensures TotalSum(a) == TotalSum(b) && CountSum(a) == CountSum(b)
    decreases |a|
  {
    if a == [] {
      assert |b| == |multiset(b)| == 0;
    } else {
      var i := PermutationRest(a, b);
      SumsOfPermutation(a[1..], b[..i] + b[i + 1..]);
      SumsMatch(a, b, i);
    }
  }

  /** The jobs run in parallel, so their signals reach the dialogue in any
      interleaving; the final counters do not depend on which. */
  lemma InterleavingFree(a: seq<Event>, b: seq<Event>)
    requires multiset(a) == multiset(b)
    ensures Feed(Fresh, a).total == Feed(Fresh, b).total
    ensures Feed(Fresh, a).count == Feed(Fresh, b).count
  {
    SumsOfPermutation(a, b);
    FeedSums(Fresh, a);
    FeedSums(Fresh, b);
  }
}

=== FILE: scheduler.dfy ===
/** on_actionConvertFiles_triggered: the batch over the main table. Each
    setting column (its LAME options, output directory and file name tag)
    meets each file row in a cell; for every cell LAME is initialised, the
    column's options are applied, and a conversion job is started when the
    cell is checked. LAME's side is a parameter: whether lame_init succeeds
    for a cell, the settings a fresh lame_init holds, whether
    lame_init_params accepts settings, and toFloat's verdict on a text. The
    jobs themselves are the ConversionJob module's; here a started job is
    the record handed to it. */
module Scheduler {
  import opened Base
  import opened Text
  import opened OptionParser
  import opened LameSettings

  /** A setting column: lameOptionsList_, outputDirectoryList_ and
      filenameTagList_ at its index. */
  datatype Column = Column(options: string, outputDir: string, tag: string)

  /** A file row: the input path (table column 0) and the file name shown
      (table column 1). */
  datatype Row = Row(inputPath: string, name: string)

  /** A cell by setting column index (ncol - 2) and row index. */
  datatype Cell = Cell(col: nat, row: nat)

  /** The table without its two file columns and its dummy last row. The
      checked cells are those whose check box is Qt::Checked. */
  datatype Table = Table(columns: seq<Column>, rows: seq<Row>, checked: set<Cell>)

  datatype Lame = Lame(init: Cell -> bool, defaults: Flags, initParams: Flags -> bool,
                       floatOk: string -> bool)

  /** The values returnCode_ takes. */
  datatype Outcome = Ok | InitFail | Refused(option: string) | ParamError

  /** The text of returnCode_. */
  function CodeText(o: Outcome): string {
    match o
    case Ok => "OK"
    case InitFail => "LAME Initialise Fail"
    case Refused(option) => option
    case ParamError => "Parameter Error"
  }

  // ---------------------------------------------------------------------
  // The options of one column

  /** Every option of the string has the parameter its keyword needs. */
  predicate AllDefined(options: string) {
    forall i :: 0 <= i < |Options(Words(options))| ==> Defined(Options(Words(options))[i])
  }

  /** What the option loop leaves: the return code and the settings. */
  datatype Settings = Settings(code: Outcome, flags: Flags)

  lemma DefinedOption(options: string, n: nat)
    requires AllDefined(options)
    ensures Defined(ParseOptions(options, n).option)
  {
    assert Keyword("") == "";
  }

  /** The do-while loop from option n on: each option, and the empty one
      that ends the list, goes to setLameSetting until one is refused. */
  function ApplyLoop(options: string, n: nat, f: Flags, floatOk: string -> bool): Settings
    requires AllDefined(options)
    decreases |Options(Words(options))| - n
  {
    var p := ParseOptions(options, n);
    DefinedOption(options, n);
    var a := SetLameSetting(f, p.option, floatOk);
    if a.reply != "OK" then Settings(Refused(a.reply), a.flags)
    else if p.option == "" then Settings(Ok, a.flags)
    else
      SimplifiedKeepsWords(options);
      ApplyLoop(p.simplified, n + 1, a.flags, floatOk)
  }

  predicate IsRefused(option: string, floatOk: string -> bool) {
    Refuses(Keyword(option), Parameter(option), floatOk)
  }

  /** The options applied in order, stopping at the first refused one. */
  function ApplyAll(f: Flags, os: seq<string>, floatOk: string -> bool): Settings
    requires forall i :: 0 <= i < |os| ==> Defined(os[i])
    decreases |os|
  {
    if os == [] then Settings(Ok, f)
    else
      var a := SetLameSetting(f, os[0], floatOk);
      if a.reply != "OK" then Settings(Refused(os[0]), f)
      else ApplyAll(a.flags, os[1..], floatOk)
  }

  lemma ApplyLoopStep(options: string, n: nat, f: Flags, floatOk: string -> bool)
    requires AllDefined(options) && n < |Options(Words(options))|
    ensures var os := Options(Words(options));
      var a := SetLameSetting(f, os[n], floatOk);
      && Options(Words(Simplified(options))) == os
      && ApplyLoop(options, n, f, floatOk) ==
         (if a.reply != "OK" then Settings(Refused(os[n]), f)
          else ApplyLoop(Simplified(options), n + 1, a.flags, floatOk))
  {
    OptionsAreGroups(Words(options));
    assert |Join(Groups(Words(options))[n])| > 0;
    SimplifiedKeepsWords(options);
  }

  lemma ApplyLoopEnd(options: string, f: Flags, floatOk: string -> bool)
    requires AllDefined(options)
    ensures ApplyLoop(options, |Options(Words(options))|, f, floatOk) == Settings(Ok, f)
  {
    EmptyAccepted(f, floatOk);
  }

  /** The loop applies the options in order, each once. */
  lemma {:induction false} ApplyLoopIsFold(options: string, n: nat, f: Flags, floatOk: string -> bool)
    requires AllDefined(options) && n <= |Options(Words(options))|
    ensures ApplyLoop(options, n, f, floatOk) == ApplyAll(f, Options(Words(options))[n..], floatOk)
    decreases |Options(Words(options))| - n
  {
    var os := Options(Words(options));
    if n == |os| {
      ApplyLoopEnd(options, f, floatOk);
      assert os[n..] == [];
    } else {
      ApplyLoopStep(options, n, f, floatOk);
      var a := SetLameSetting(f, os[n], floatOk);
      assert os[n..][0] == os[n] && os[n..][1..] == os[n + 1..];
      if a.reply == "OK" {
        ApplyLoopIsFold(Simplified(options), n + 1, a.flags, floatOk);
      }
    }
  }

  /** The options are accepted exactly when none is refused; otherwise the
      code names the first refused option. Whether an option is refused
      does not depend on the settings before it. */
  lemma {:induction false} ApplyAllOutcome(f: Flags, os: seq<string>, floatOk: string -> bool)
    requires forall i :: 0 <= i < |os| ==> Defined(os[i])
    ensures ApplyAll(f, os, floatOk).code == Ok <==> forall i :: 0 <= i < |os| ==> !IsRefused(os[i], floatOk)
    ensures ApplyAll(f, os, floatOk).code != Ok ==>
      exists k :: 0 <= k < |os| && ApplyAll(f, os, floatOk).code == Refused(os[k])
        && IsRefused(os[k], floatOk) && forall i :: 0 <= i < k ==> !IsRefused(os[i], floatOk)
    decreases |os|
  {
    if os != [] {
      var a := SetLameSetting(f, os[0], floatOk);
      if a.reply == "OK" {
        ApplyAllOutcome(a.flags, os[1..], floatOk);
        var r := ApplyAll(f, os, floatOk);
        if r.code != Ok {
          var k :| 0 <= k < |os[1..]| && r.code == Refused(os[1..][k])
            && IsRefused(os[1..][k], floatOk) && forall i :: 0 <= i < k ==> !IsRefused(os[1..][i], floatOk);
          assert r.code == Refused(os[k + 1]);
          assert forall i :: 0 <= i < k + 1 ==> !IsRefused(os[i], floatOk) by {
            forall i | 0 <= i < k + 1
              ensures !IsRefused(os[i], floatOk)
            {
              if i > 0 {
                assert os[i] == os[1..][i - 1];
              }
            }
          }
        } else {
          assert forall i :: 0 <= i < |os| ==> !IsRefused(os[i], floatOk) by {
            forall i | 0 <= i < |os|
              ensures !IsRefused(os[i], floatOk)
            {
              if i > 0 {
                assert os[i] == os[1..][i - 1];
              }
            }
          }
        }
      }
    }
  }

  // ---------------------------------------------------------------------
  // One cell

  /** Every column's options are within the model. */
  predicate WellFormed(t: Table) {
    forall c :: 0 <= c < |t.columns| ==> AllDefined(t.columns[c].options)
  }

  /** The settings a fresh LAME context holds after the column's options. */
  function ColumnSettings(t: Table, lame: Lame, c: nat): Settings
    requires WellFormed(t) && c < |t.columns|
  {
    ApplyLoop(t.columns[c].options, 0, lame.defaults, lame.floatOk)
  }

  /** returnCode_ after a cell whose lame_init succeeded: the options'
      code, then lame_init_params' verdict. It is the same for every row
      of the column. */
  function CellCode(t: Table, lame: Lame, c: nat): Outcome
    requires WellFormed(t) && c < |t.columns|
  {
    var s := ColumnSettings(t, lame, c);
    if s.code != Ok then s.code
    else if !lame.initParams(s.flags) then ParamError
    else Ok
  }

  /** The options' code: "OK" exactly when none is refused, otherwise the
      first refused option, whose text is never "OK". */
  lemma ColumnCodeSpec(t: Table, lame: Lame, c: nat)
    requires WellFormed(t) && c < |t.columns|
    ensures var os := Options(Words(t.columns[c].options));
      var code := ColumnSettings(t, lame, c).code;
      && (code == Ok <==> forall i :: 0 <= i < |os| ==> !IsRefused(os[i], lame.floatOk))
      && (code != Ok ==>
           exists k :: 0 <= k < |os| && code == Refused(os[k]) && os[k] != "OK"
             && IsRefused(os[k], lame.floatOk)
             && (forall i :: 0 <= i < k ==> !IsRefused(os[i], lame.floatOk)))
  {
    var options := t.columns[c].options;
    var os := Options(Words(options));
    ApplyLoopIsFold(options, 0, lame.defaults, lame.floatOk);
    assert os[0..] == os;
    ApplyAllOutcome(lame.defaults, os, lame.floatOk);
    if ColumnSettings(t, lame, c).code != Ok {
      var k :| 0 <= k < |os| && ColumnSettings(t, lame, c).code == Refused(os[k])
        && IsRefused(os[k], lame.floatOk) && forall i :: 0 <= i < k ==> !IsRefused(os[i], lame.floatOk);
      RefusedText(os[k], lame.floatOk);
    }
  }

  /** A cell's code is "OK" exactly when none of its column's options is
      refused and lame_init_params accepts the settings; a refused option
      is reported by its own text, which is never "OK". */
  lemma CellCodeSpec(t: Table, lame: Lame, c: nat)
    requires WellFormed(t) && c < |t.columns|
    ensures var os := Options(Words(t.columns[c].options));
      && (CellCode(t, lame, c) == Ok <==>
           (forall i :: 0 <= i < |os| ==> !IsRefused(os[i], lame.floatOk))
           && lame.initParams(ColumnSettings(t, lame, c).flags))
      && (CellCode(t, lame, c).Refused? ==>
           exists k :: 0 <= k < |os| && CellCode(t, lame, c) == Refused(os[k])
             && IsRefused(os[k], lame.floatOk)
             && (forall i :: 0 <= i < k ==> !IsRefused(os[i], lame.floatOk))
             && CodeText(CellCode(t, lame, c)) != "OK")
  {
    ColumnCodeSpec(t, lame, c);
  }

  /** Every character up to the first '.'. */
  predicate NoDot(s: string) {
    forall i :: 0 <= i < |s| ==> s[i] != '.'
  }

  function UpToDot(s: string): (r: string)
    ensures NoDot(r) && |r| <= |s|
  {
    if s == [] || s[0] == '.' then "" else [s[0]] + UpToDot(s[1..])
  }

  /** `name.section(".", 0, 0, QString::SectionSkipEmpty)`: the first
      non-empty field between dots. */
  function Stub(name: string): (r: string)
    ensures NoDot(r) && |r| <= |name|
  {
    if name == [] then ""
    else if name[0] == '.' then Stub(name[1..])
    else UpToDot(name)
  }

  lemma {:induction false} UpToDotOf(a: string, b: string)
    requires NoDot(a) && (b == [] || b[0] == '.')
    ensures UpToDot(a + b) == a
    decreases |a|
  {
    if a != [] {
      assert (a + b)[1..] == a[1..] + b;
      UpToDotOf(a[1..], b);
      assert [a[0]] + a[1..] == a;
    } else {
      assert a + b == b;
    }
  }

  /** The stub of "song.wav" is "song"; leading dots are skipped. */
  lemma {:induction false} StubOfName(dots: nat, a: string, b: string)
    requires a != [] && NoDot(a)
    ensures Stub(seq(dots, i => '.') + a + "." + b) == a
    ensures Stub(seq(dots, i => '.') + a) == a
    decreases dots
  {
    var d := seq(dots, i => '.');
    if dots == 0 {
      assert d + a + "." + b == a + ("." + b);
      assert d + a == a + [];
      UpToDotOf(a, "." + b);
      UpToDotOf(a, []);
    } else {
      var d' := seq(dots - 1, i => '.');
      assert d == ['.'] + d';
      assert (d + a + "." + b)[1..] == d' + a + "." + b;
      assert (d + a)[1..] == d' + a;
      StubOfName(dots - 1, a, b);
    }
  }

  /** `QDir(outputDir).filePath(stub + tag + ".mp3")`. */
  function OutputPath(col: Column, row: Row): string {
    col.outputDir + "/" + Stub(row.name) + col.tag + ".mp3"
  }

  /** The output file of "name.ext" under a column is
      "<dir>/<name><tag>.mp3". */
  lemma OutputPathOfName(col: Column, row: Row, a: string, b: string)
    requires a != [] && NoDot(a) && row.name == a + "." + b
    ensures OutputPath(col, row) == col.outputDir + "/" + a + col.tag + ".mp3"
  {
    StubOfName(0, a, b);
    assert seq(0, i => '.') + a + "." + b == a + "." + b;
  }

  // ---------------------------------------------------------------------
  // The loops

  /** A column's code and settings. They are the same for every row of
      the column, since each cell starts from a fresh lame_init. */
  function PlanOf(t: Table, lame: Lame, c: nat): Settings
    requires WellFormed(t) && c < |t.columns|
  {
    Settings(CellCode(t, lame, c), ColumnSettings(t, lame, c).flags)
  }

  /** Every column's plan; the loops below take them as `ps`. */
  function Plans(t: Table, lame: Lame): (ps: seq<Settings>)
    requires WellFormed(t)
    ensures |ps| == |t.columns|
    ensures forall c :: 0 <= c < |t.columns| ==> ps[c] == PlanOf(t, lame, c)
  {
    seq(|t.columns|, c requires 0 <= c < |t.columns| => PlanOf(t, lame, c))
  }

  /** A started job: its cell and what is handed to it. */
  datatype Launch = Launch(cell: Cell, input: string, output: string, flags: Flags)

  /** The batch's state: returnCode_, the cells whose lame_init succeeded
      and the jobs started, in order. */
  datatype Run = Run(code: Outcome, inited: seq<Cell>, started: seq<Launch>)

  function LaunchOf(t: Table, ps: seq<Settings>, c: nat, r: nat): Launch
    requires |ps| == |t.columns| && c < |t.columns| && r < |t.rows|
  {
    Launch(Cell(c, r), t.rows[r].inputPath, OutputPath(t.columns[c], t.rows[r]), ps[c].flags)
  }

  /** The row loop of column c from row r on. A failed lame_init ends it
      (and, through the column loop, the batch); an error in the options
      or parameters skips only the current cell. */
  function RowLoop(t: Table, init: Cell -> bool, ps: seq<Settings>, c: nat, r: nat, st: Run): Run
    requires |ps| == |t.columns| && c < |t.columns| && r <= |t.rows|
    decreases |t.rows| - r
  {
    if r == |t.rows| then st
    else if !init(Cell(c, r)) then st.(code := InitFail)
    else
      var code := ps[c].code;
      var started :=
        if code == Ok && Cell(c, r) in t.checked then st.started + [LaunchOf(t, ps, c, r)]
        else st.started;
      RowLoop(t, init, ps, c, r + 1, Run(code, st.inited + [Cell(c, r)], started))
  }

  /** The column loop from column c on: it ends after the first column
      whose row loop leaves a code other than "OK". */
  function ColumnLoop(t: Table, init: Cell -> bool, ps: seq<Settings>, c: nat, st: Run): Run
    requires |ps| == |t.columns| && c <= |t.columns|
    decreases |t.columns| - c
  {
    if c == |t.columns| then st
    else
      var st' := RowLoop(t, init, ps, c, 0, st);
      if st'.code != Ok then st' else ColumnLoop(t, init, ps, c + 1, st')
  }

  /** The scheduling part of on_actionConvertFiles_triggered. */
  function Schedule(t: Table, lame: Lame): Run
    requires WellFormed(t)
  {
    ColumnLoop(t, lame.init, Plans(t, lame), 0, Run(Ok, [], []))
  }

  // ---------------------------------------------------------------------
  // Reference description of the loops

  /** The first row from r on whose lame_init fails, or the row count. */
  function FirstFail(t: Table, init: Cell -> bool, c: nat, r: nat): (e: nat)
    requires r <= |t.rows|
    ensures r <= e <= |t.rows|
    decreases |t.rows| - r
  {
    if r == |t.rows| || !init(Cell(c, r)) then r else FirstFail(t, init, c, r + 1)
  }

  lemma {:induction false} FirstFailBelow(t: Table, init: Cell -> bool, c: nat, r: nat, row: nat)
    requires r <= row
    requires r <= |t.rows|
    ensures row < FirstFail(t, init, c, r) <==>
      row < |t.rows| && forall k :: r <= k <= row ==> init(Cell(c, k))
    decreases |t.rows| - r
  {
    if r < |t.rows| && init(Cell(c, r)) && r < row {
      FirstFailBelow(t, init, c, r + 1, row);
      if row < FirstFail(t, init, c, r) {
        assert forall k :: r <= k <= row ==> init(Cell(c, k)) by {
          forall k | r <= k <= row ensures init(Cell(c, k)) {
            if k > r {
              assert r + 1 <= k <= row;
            }
          }
        }
      }
    }
  }

  function CellsFrom(c: nat, r: nat, e: nat): (s: seq<Cell>)
    requires r <= e
    ensures |s| == e - r
    decreases e - r
  {
    if r == e then [] else [Cell(c, r)] + CellsFrom(c, r + 1, e)
  }

  lemma {:induction false} CellsFromMember(c: nat, r: nat, e: nat, cell: Cell)
    requires r <= e
    ensures cell in CellsFrom(c, r, e) <==> cell.col == c && r <= cell.row < e
    decreases e - r
  {
    if r < e {
      CellsFromMember(c, r + 1, e, cell);
    }
  }

  /** The jobs a column starts on rows r..e-1. */
  function LaunchesFrom(t: Table, ps: seq<Settings>, c: nat, r: nat, e: nat): seq<Launch>
    requires |ps| == |t.columns| && c < |t.columns| && r <= e <= |t.rows|
    decreases e - r
  {
    if r == e then []
    else
      (if ps[c].code == Ok && Cell(c, r) in t.checked then [LaunchOf(t, ps, c, r)] else [])
      + LaunchesFrom(t, ps, c, r + 1, e)
  }

  lemma {:induction false} LaunchesFromMember(t: Table, ps: seq<Settings>, c: nat, r: nat, e: nat, c2: nat, row: nat)
    requires |ps| == |t.columns| && c < |t.columns| && r <= e <= |t.rows|
    requires c2 < |t.columns| && row < |t.rows|
    ensures LaunchOf(t, ps, c2, row) in LaunchesFrom(t, ps, c, r, e) <==>
      c2 == c && r <= row < e && ps[c].code == Ok && Cell(c, row) in t.checked
    decreases e - r
  {
    if r < e {
      LaunchesFromMember(t, ps, c, r + 1, e, c2, row);
    }
  }

  /** The code a row loop from row r leaves, entered with code `before`. */
  function RowCode(t: Table, init: Cell -> bool, ps: seq<Settings>, c: nat, r: nat, before: Outcome): Outcome
    requires |ps| == |t.columns| && c < |t.columns| && r <= |t.rows|
  {
    if FirstFail(t, init, c, r) < |t.rows| then InitFail
    else if r < |t.rows| then ps[c].code
    else before
  }

  lemma {:induction false} RowLoopCode(t: Table, init: Cell -> bool, ps: seq<Settings>, c: nat, r: nat, st: Run)
    requires |ps| == |t.columns| && c < |t.columns| && r <= |t.rows|
    ensures RowLoop(t, init, ps, c, r, st).code == RowCode(t, init, ps, c, r, st.code)
    decreases |t.rows| - r
  {
    if r < |t.rows| && init(Cell(c, r)) {
      var code := ps[c].code;
      var started :=
        if code == Ok && Cell(c, r) in t.checked then st.started + [LaunchOf(t, ps, c, r)]
        else st.started;
      RowLoopCode(t, init, ps, c, r + 1, Run(code, st.inited + [Cell(c, r)], started));
    }
  }

  lemma {:induction false} RowLoopInited(t: Table, init: Cell -> bool, ps: seq<Settings>, c: nat, r: nat, st: Run)
    requires |ps| == |t.columns| && c < |t.columns| && r <= |t.rows|
    ensures RowLoop(t, init, ps, c, r, st).inited == st.inited + CellsFrom(c, r, FirstFail(t, init, c, r))
    decreases |t.rows| - r
  {
    if r == |t.rows| || !init(Cell(c, r)) {
      assert st.inited + [] == st.inited;
    } else {
      var code := ps[c].code;
      var started :=
        if code == Ok && Cell(c, r) in t.checked then st.started + [LaunchOf(t, ps, c, r)]
        else st.started;
      var e := FirstFail(t, init, c, r);
      RowLoopInited(t, init, ps, c, r + 1, Run(code, st.inited + [Cell(c, r)], started));
      AppendAssoc(st.inited, [Cell(c, r)], CellsFrom(c, r + 1, e));
    }
  }

  lemma {:induction false} RowLoopStarted(t: Table, init: Cell -> bool, ps: seq<Settings>, c: nat, r: nat, st: Run)
    requires |ps| == |t.columns| && c < |t.columns| && r <= |t.rows|
    ensures RowLoop(t, init, ps, c, r, st).started
            == st.started + LaunchesFrom(t, ps, c, r, FirstFail(t, init, c, r))
    decreases |t.rows| - r
  {
    if r == |t.rows| || !init(Cell(c, r)) {
      assert st.started + [] == st.started;
    } else {
      var code := ps[c].code;
      var one := if code == Ok && Cell(c, r) in t.checked then [LaunchOf(t, ps, c, r)] else [];
      var e := FirstFail(t, init, c, r);
      assert st.started + one == (if code == Ok && Cell(c, r) in t.checked
        then st.started + [LaunchOf(t, ps, c, r)] else st.started);
      RowLoopStarted(t, init, ps, c, r + 1, Run(code, st.inited + [Cell(c, r)], st.started + one));
      AppendAssoc(st.started, one, LaunchesFrom(t, ps, c, r + 1, e));
    }
  }

  /** Column c ends the batch when entered with "OK": a lame_init fails,
      or there are rows and the column's code is not "OK". */
  predicate Stops(t: Table, init: Cell -> bool, ps: seq<Settings>, c: nat)
    requires |ps| == |t.columns| && c < |t.columns|
  {
    FirstFail(t, init, c, 0) < |t.rows| || (|t.rows| > 0 && ps[c].code != Ok)
  }

  lemma RowLoopStops(t: Table, init: Cell -> bool, ps: seq<Settings>, c: nat, st: Run)
    requires |ps| == |t.columns| && c < |t.columns| && st.code == Ok
    ensures RowLoop(t, init, ps, c, 0, st).code != Ok <==> Stops(t, init, ps, c)
  {
    RowLoopCode(t, init, ps, c, 0, st);
  }

  /** One past the last column the batch processes from column c on. */
  function Reach(t: Table, init: Cell -> bool, ps: seq<Settings>, c: nat): (e: nat)
    requires |ps| == |t.columns| && c <= |t.columns|
    ensures c <= e <= |t.columns|
    decreases |t.columns| - c
  {
    if c == |t.columns| then c
    else if Stops(t, init, ps, c) then c + 1
    else Reach(t, init, ps, c + 1)
  }

  lemma {:induction false} ReachBelow(t: Table, init: Cell -> bool, ps: seq<Settings>, c: nat, col: nat)
    requires |ps| == |t.columns| && c <= col && c <= |t.columns|
    ensures col < Reach(t, init, ps, c) <==>
      col < |t.columns| && forall k :: c <= k < col ==> !Stops(t, init, ps, k)
    decreases |t.columns| - c
  {
    if c < |t.columns| && !Stops(t, init, ps, c) && c < col {
      ReachBelow(t, init, ps, c + 1, col);
      if col < Reach(t, init, ps, c) {
        assert forall k :: c <= k < col ==> !Stops(t, init, ps, k) by {
          forall k | c <= k < col ensures !Stops(t, init, ps, k) {
            if k > c {
              assert c + 1 <= k < col;
            }
          }
        }
      }
    }
  }

  /** The cells initialised by columns c..e-1, each from its row 0. */
  function AllCells(t: Table, init: Cell -> bool, c: nat, e: nat): seq<Cell>
    requires c <= e
    decreases e - c
  {
    if c == e then [] else CellsFrom(c, 0, FirstFail(t, init, c, 0)) + AllCells(t, init, c + 1, e)
  }

  /** The jobs started by columns c..e-1. */
  function AllLaunches(t: Table, init: Cell -> bool, ps: seq<Settings>, c: nat, e: nat): seq<Launch>
    requires |ps| == |t.columns| && c <= e <= |t.columns|
    decreases e - c
  {
    if c == e then []
    else LaunchesFrom(t, ps, c, 0, FirstFail(t, init, c, 0)) + AllLaunches(t, init, ps, c + 1, e)
  }

  /** One turn of the column loop, entered with "OK". */
  lemma ColumnStep(t: Table, init: Cell -> bool, ps: seq<Settings>, c: nat, st: Run)
    requires |ps| == |t.columns| && c < |t.columns| && st.code == Ok
    ensures var st' := RowLoop(t, init, ps, c, 0, st);
      && (st'.code != Ok <==> Stops(t, init, ps, c))
      && ColumnLoop(t, init, ps, c, st) ==
         (if Stops(t, init, ps, c) then st' else ColumnLoop(t, init, ps, c + 1, st'))
      && Reach(t, init, ps, c) == (if Stops(t, init, ps, c) then c + 1 else Reach(t, init, ps, c + 1))
  {
    RowLoopStops(t, init, ps, c, st);
  }

  /** No column from c on stops exactly when c does not and none from
      c + 1 on does. */
  lemma StopsFrom(t: Table, init: Cell -> bool, ps: seq<Settings>, c: nat)
    requires |ps| == |t.columns| && c < |t.columns|
    ensures (forall k :: c <= k < |t.columns| ==> !Stops(t, init, ps, k)) <==>
      !Stops(t, init, ps, c) && forall k :: c + 1 <= k < |t.columns| ==> !Stops(t, init, ps, k)
  {
    if !Stops(t, init, ps, c) && forall k :: c + 1 <= k < |t.columns| ==> !Stops(t, init, ps, k) {
      forall k | c <= k < |t.columns| ensures !Stops(t, init, ps, k) {
        if k > c {
          assert c + 1 <= k < |t.columns|;
        }
      }
    }
  }

  /** The code the column loop leaves: "OK" when no column from c on
      stops, otherwise the row loop's code in the column that stops. */
  lemma {:induction false} ColumnLoopCode(t: Table, init: Cell -> bool, ps: seq<Settings>, c: nat, st: Run)
    requires |ps| == |t.columns| && c <= |t.columns| && st.code == Ok
    ensures ColumnLoop(t, init, ps, c, st).code == Ok <==>
      forall k :: c <= k < |t.columns| ==> !Stops(t, init, ps, k)
    ensures ColumnLoop(t, init, ps, c, st).code != Ok ==>
      c < Reach(t, init, ps, c) && Stops(t, init, ps, Reach(t, init, ps, c) - 1) &&
      ColumnLoop(t, init, ps, c, st).code == RowCode(t, init, ps, Reach(t, init, ps, c) - 1, 0, Ok)
    decreases |t.columns| - c
  {
    if c < |t.columns| {
      var st' := RowLoop(t, init, ps, c, 0, st);
      ColumnStep(t, init, ps, c, st);
      if Stops(t, init, ps, c) {
        RowLoopCode(t, init, ps, c, 0, st);
      } else {
        ColumnLoopCode(t, init, ps, c + 1, st');
        StopsFrom(t, init, ps, c);
      }
    }
  }

  lemma AllCellsOne(t: Table, init: Cell -> bool, c: nat)
    ensures AllCells(t, init, c, c + 1) == CellsFrom(c, 0, FirstFail(t, init, c, 0))
  {
    assert AllCells(t, init, c + 1, c + 1) == [];
  }

  lemma {:induction false} ColumnLoopInited(t: Table, init: Cell -> bool, ps: seq<Settings>, c: nat, st: Run)
    requires |ps| == |t.columns| && c <= |t.columns| && st.code == Ok
    ensures ColumnLoop(t, init, ps, c, st).inited == st.inited + AllCells(t, init, c, Reach(t, init, ps, c))
    decreases |t.columns| - c
  {
    if c == |t.columns| {
      assert st.inited + [] == st.inited;
    } else {
      var st' := RowLoop(t, init, ps, c, 0, st);
      var mine := CellsFrom(c, 0, FirstFail(t, init, c, 0));
      ColumnStep(t, init, ps, c, st);
      RowLoopInited(t, init, ps, c, 0, st);
      if Stops(t, init, ps, c) {
        AllCellsOne(t, init, c);
      } else {
        var e := Reach(t, init, ps, c + 1);
        ColumnLoopInited(t, init, ps, c + 1, st');
        AppendAssoc(st.inited, mine, AllCells(t, init, c + 1, e));
      }
    }
  }

  lemma AllLaunchesOne(t: Table, init: Cell -> bool, ps: seq<Settings>, c: nat)
    requires |ps| == |t.columns| && c < |t.columns|
    ensures AllLaunches(t, init, ps, c, c + 1) == LaunchesFrom(t, ps, c, 0, FirstFail(t, init, c, 0))
  {
    assert AllLaunches(t, init, ps, c + 1, c + 1) == [];
  }

  lemma {:induction false} ColumnLoopStarted(t: Table, init: Cell -> bool, ps: seq<Settings>, c: nat, st: Run)
    requires |ps| == |t.columns| && c <= |t.columns| && st.code == Ok
    ensures ColumnLoop(t, init, ps, c, st).started
            == st.started + AllLaunches(t, init, ps, c, Reach(t, init, ps, c))
    decreases |t.columns| - c
  {
    if c == |t.columns| {
      assert st.started + [] == st.started;
    } else {
      var st' := RowLoop(t, init, ps, c, 0, st);
      var mine := LaunchesFrom(t, ps, c, 0, FirstFail(t, init, c, 0));
      ColumnStep(t, init, ps, c, st);
      RowLoopStarted(t, init, ps, c, 0, st);
      if Stops(t, init, ps, c) {
        AllLaunchesOne(t, init, ps, c);
      } else {
        var e := Reach(t, init, ps, c + 1);
        ColumnLoopStarted(t, init, ps, c + 1, st');
        AppendAssoc(st.started, mine, AllLaunches(t, init, ps, c + 1, e));
      }
    }
  }

  lemma {:induction false} AllCellsMember(t: Table, init: Cell -> bool, c: nat, e: nat, cell: Cell)
    requires c <= e
    ensures cell in AllCells(t, init, c, e) <==>
      c <= cell.col < e && cell.row < FirstFail(t, init, cell.col, 0)
    decreases e - c
  {
    if c < e {
      CellsFromMember(c, 0, FirstFail(t, init, c, 0), cell);
      AllCellsMember(t, init, c + 1, e, cell);
    }
  }

  /** Every job a column starts on rows r..e-1 is the launch of one of
      those rows' checked cells, in a column whose code is "OK". */
  lemma {:induction false} LaunchesFromAre(t: Table, ps: seq<Settings>, c: nat, r: nat, e: nat, l: Launch)
    requires |ps| == |t.columns| && c < |t.columns| && r <= e <= |t.rows|
    requires l in LaunchesFrom(t, ps, c, r, e)
    ensures l.cell.col == c && r <= l.cell.row < e
    ensures l == LaunchOf(t, ps, c, l.cell.row)
    ensures ps[c].code == Ok && l.cell in t.checked
    decreases e - r
  {
    var here := if ps[c].code == Ok && Cell(c, r) in t.checked then [LaunchOf(t, ps, c, r)] else [];
    if l !in here {
      LaunchesFromAre(t, ps, c, r + 1, e, l);
    }
  }

  /** The same for the jobs of columns c..e-1. */
  lemma {:induction false} AllLaunchesAre(t: Table, init: Cell -> bool, ps: seq<Settings>, c: nat, e: nat, l: Launch)
    requires |ps| == |t.columns| && c <= e <= |t.columns|
    requires l in AllLaunches(t, init, ps, c, e)
    ensures c <= l.cell.col < e && l.cell.row < |t.rows|
    ensures l == LaunchOf(t, ps, l.cell.col, l.cell.row)
    ensures ps[l.cell.col].code == Ok && l.cell in t.checked
    decreases e - c
  {
    var mine := LaunchesFrom(t, ps, c, 0, FirstFail(t, init, c, 0));
    if l in mine {
      LaunchesFromAre(t, ps, c, 0, FirstFail(t, init, c, 0), l);
    } else {
      AllLaunchesAre(t, init, ps, c + 1, e, l);
    }
  }

  /** No cell appears twice. */
  predicate NoRepeats(s: seq<Cell>) {
    forall i, j :: 0 <= i < j < |s| ==> s[i] != s[j]
  }

  lemma {:induction false} CellsFromAt(c: nat, r: nat, e: nat, i: nat)
    requires r <= e && i < e - r
    ensures CellsFrom(c, r, e)[i] == Cell(c, r + i)
    decreases e - r
  {
    if i > 0 {
      CellsFromAt(c, r + 1, e, i - 1);
    }
  }

  lemma NoRepeatsAppend(a: seq<Cell>, b: seq<Cell>)
    requires NoRepeats(a) && NoRepeats(b)
    requires forall x :: x in a ==> x !in b
    ensures NoRepeats(a + b)
  {
    forall i, j | 0 <= i < j < |a + b|
      ensures (a + b)[i] != (a + b)[j]
    {
      if j < |a| {
        assert (a + b)[i] == a[i] && (a + b)[j] == a[j];
      } else if i >= |a| {
        assert (a + b)[i] == b[i - |a|] && (a + b)[j] == b[j - |a|];
      } else {
        assert (a + b)[i] == a[i] && (a + b)[j] == b[j - |a|];
        assert a[i] in a && b[j - |a|] in b;
      }
    }
  }

  /** Each column contributes its own rows, each once. */
  lemma {:induction false} AllCellsNoRepeats(t: Table, init: Cell -> bool, c: nat, e: nat)
    requires c <= e
    ensures NoRepeats(AllCells(t, init, c, e))
    decreases e - c
  {
    if c < e {
      var n := FirstFail(t, init, c, 0);
      var mine := CellsFrom(c, 0, n);
      var rest := AllCells(t, init, c + 1, e);
      forall i, j | 0 <= i < j < |mine|
        ensures mine[i] != mine[j]
      {
        CellsFromAt(c, 0, n, i);
        CellsFromAt(c, 0, n, j);
      }
      AllCellsNoRepeats(t, init, c + 1, e);
      forall x | x in mine
        ensures x !in rest
      {
        CellsFromMember(c, 0, n, x);
        AllCellsMember(t, init, c + 1, e, x);
      }
      NoRepeatsAppend(mine, rest);
    }
  }

  lemma {:induction false} AllLaunchesMember(t: Table, init: Cell -> bool, ps: seq<Settings>, c: nat, e: nat, col: nat, row: nat)
    requires |ps| == |t.columns| && c <= e <= |t.columns| && col < |t.columns| && row < |t.rows|
    ensures LaunchOf(t, ps, col, row) in AllLaunches(t, init, ps, c, e) <==>
      c <= col < e && row < FirstFail(t, init, col, 0) && ps[col].code == Ok && Cell(col, row) in t.checked
    decreases e - c
  {
    if c < e {
      LaunchesFromMember(t, ps, c, 0, FirstFail(t, init, c, 0), col, row);
      AllLaunchesMember(t, init, ps, c + 1, e, col, row);
    }
  }

  // ---------------------------------------------------------------------
  // What the batch does

  /** Column c stops the batch: one of its lame_init calls fails, or
      there are rows and its cell code is not "OK". */
  predicate ColumnStops(t: Table, lame: Lame, c: nat)
    requires WellFormed(t) && c < |t.columns|
  {
    FirstFail(t, lame.init, c, 0) < |t.rows| || (|t.rows| > 0 && CellCode(t, lame, c) != Ok)
  }

  /** A column is processed when no column before it stopped the batch. */
  predicate Processed(t: Table, lame: Lame, col: nat)
    requires WellFormed(t) && col < |t.columns|
  {
    forall k :: 0 <= k < col ==> !ColumnStops(t, lame, k)
  }

  /** A row of a column is reached when lame_init succeeded on it and on
      every row above it. */
  predicate Reached(lame: Lame, cell: Cell) {
    forall k :: 0 <= k <= cell.row ==> lame.init(Cell(cell.col, k))
  }

  lemma StopsIsColumnStops(t: Table, lame: Lame)
    requires WellFormed(t)
    ensures forall c :: 0 <= c < |t.columns| ==>
      (Stops(t, lame.init, Plans(t, lame), c) <==> ColumnStops(t, lame, c))
  {
    forall c | 0 <= c < |t.columns|
      ensures Stops(t, lame.init, Plans(t, lame), c) <==> ColumnStops(t, lame, c)
    {
      
    }
  }

  /** The batch ends with "OK" exactly when no column stops it. */
  lemma ScheduleOk(t: Table, lame: Lame)
    requires WellFormed(t)
    ensures Schedule(t, lame).code == Ok <==> forall c :: 0 <= c < |t.columns| ==> !ColumnStops(t, lame, c)
  {
    ColumnLoopCode(t, lame.init, Plans(t, lame), 0, Run(Ok, [], []));
    StopsIsColumnStops(t, lame);
  }

  /** Otherwise the batch's code is that of the first column that stops
      it: "LAME Initialise Fail", or the column's cell code. */
  lemma ScheduleFails(t: Table, lame: Lame)
    requires WellFormed(t) && Schedule(t, lame).code != Ok
    ensures exists c ::
      && 0 <= c < |t.columns| && Processed(t, lame, c) && ColumnStops(t, lame, c)
      && Schedule(t, lame).code == (if FirstFail(t, lame.init, c, 0) < |t.rows| then InitFail else CellCode(t, lame, c))
  {
    var ps := Plans(t, lame);
    ColumnLoopCode(t, lame.init, ps, 0, Run(Ok, [], []));
    var c := Reach(t, lame.init, ps, 0) - 1;
    ReachBelow(t, lame.init, ps, 0, c);
    StopsIsColumnStops(t, lame);
    assert Processed(t, lame, c);
  }

  /** lame_init succeeds, and the context is kept, exactly on the reached
      cells of the processed columns, each once, in column then row order. */
  lemma ScheduleInits(t: Table, lame: Lame, cell: Cell)
    requires WellFormed(t)
    ensures Schedule(t, lame).inited == AllCells(t, lame.init, 0, Reach(t, lame.init, Plans(t, lame), 0))
    ensures cell in Schedule(t, lame).inited <==>
      cell.col < |t.columns| && cell.row < |t.rows| && Processed(t, lame, cell.col) && Reached(lame, cell)
    ensures NoRepeats(Schedule(t, lame).inited)
  {
    var ps := Plans(t, lame);
    var e := Reach(t, lame.init, ps, 0);
    ColumnLoopInited(t, lame.init, ps, 0, Run(Ok, [], []));
    assert [] + AllCells(t, lame.init, 0, e) == AllCells(t, lame.init, 0, e);
    AllCellsMember(t, lame.init, 0, e, cell);
    AllCellsNoRepeats(t, lame.init, 0, e);
    ReachBelow(t, lame.init, ps, 0, cell.col);
    StopsIsColumnStops(t, lame);
    if cell.col < |t.columns| {
      FirstFailBelow(t, lame.init, cell.col, 0, cell.row);
    }
  }

  /** A cell's job is started exactly when its column is processed, its
      row is reached, its column's code is "OK" and it is checked. */
  lemma ScheduleStarts(t: Table, lame: Lame, col: nat, row: nat)
    requires WellFormed(t) && col < |t.columns| && row < |t.rows|
    ensures LaunchOf(t, Plans(t, lame), col, row) in Schedule(t, lame).started <==>
      && Processed(t, lame, col) && Reached(lame, Cell(col, row))
      && CellCode(t, lame, col) == Ok && Cell(col, row) in t.checked
  {
    var ps := Plans(t, lame);
    var e := Reach(t, lame.init, ps, 0);
    ColumnLoopStarted(t, lame.init, ps, 0, Run(Ok, [], []));
    assert [] + AllLaunches(t, lame.init, ps, 0, e) == AllLaunches(t, lame.init, ps, 0, e);
    AllLaunchesMember(t, lame.init, ps, 0, e, col, row);
    ReachBelow(t, lame.init, ps, 0, col);
    FirstFailBelow(t, lame.init, col, 0, row);
    StopsIsColumnStops(t, lame);
    
  }

  /** A started job reads the row's input file, writes
      "<dir>/<stub><tag>.mp3", and gets the settings of its column's
      options. */
  lemma LaunchContents(t: Table, lame: Lame, col: nat, row: nat)
    requires WellFormed(t) && col < |t.columns| && row < |t.rows|
    ensures var l := LaunchOf(t, Plans(t, lame), col, row);
      && l.cell == Cell(col, row)
      && l.input == t.rows[row].inputPath
      && l.output == t.columns[col].outputDir + "/" + Stub(t.rows[row].name) + t.columns[col].tag + ".mp3"
      && l.flags == ApplyAll(lame.defaults, Options(Words(t.columns[col].options)), lame.floatOk).flags
  {
    
    ApplyLoopIsFold(t.columns[col].options, 0, lame.defaults, lame.floatOk);
    assert Options(Words(t.columns[col].options))[0..] == Options(Words(t.columns[col].options));
  }

  // ---------------------------------------------------------------------
  // Waiting, closing and reporting

  /** The wait loop as written waits on every checked cell, started or
      not. A thread that was never started never reports itself finished,
      so the wait on such a cell does not end. */
  predicate WaitEndsAsWritten(t: Table, lame: Lame, run: Run)
    requires WellFormed(t)
  {
    forall c, r :: 0 <= c < |t.columns| && 0 <= r < |t.rows| && Cell(c, r) in t.checked ==>
      LaunchOf(t, Plans(t, lame), c, r) in run.started
  }

  /** As written, a checked cell in a column whose code is not "OK" (a
      refused option, say) is waited on forever: the batch never reaches
      its closing message. */
  lemma WaitHangs(t: Table, lame: Lame, col: nat, row: nat)
    requires WellFormed(t) && col < |t.columns| && row < |t.rows|
    requires Cell(col, row) in t.checked && CellCode(t, lame, col) != Ok
    ensures !WaitEndsAsWritten(t, lame, Schedule(t, lame))
  {
    ScheduleStarts(t, lame, col, row);
  }

  /** The cells the corrected wait loop waits on: those whose job was
      started. */
  function Waited(run: Run): set<Cell> {
    set i | 0 <= i < |run.started| :: run.started[i].cell
  }

  /** Every started job is the launch of a checked cell of the table. */
  lemma StartedAreLaunches(t: Table, lame: Lame, l: Launch)
    requires WellFormed(t) && l in Schedule(t, lame).started
    ensures l.cell.col < |t.columns| && l.cell.row < |t.rows|
    ensures l == LaunchOf(t, Plans(t, lame), l.cell.col, l.cell.row)
    ensures l.cell in t.checked
  {
    var ps := Plans(t, lame);
    var e := Reach(t, lame.init, ps, 0);
    ColumnLoopStarted(t, lame.init, ps, 0, Run(Ok, [], []));
    assert [] + AllLaunches(t, lame.init, ps, 0, e) == AllLaunches(t, lame.init, ps, 0, e);
    AllLaunchesAre(t, lame.init, ps, 0, e, l);
  }

  /** The corrected wait covers every started job, and every cell it
      waits on is a checked cell of the table whose job was started. */
  lemma WaitCovers(t: Table, lame: Lame, col: nat, row: nat)
    requires WellFormed(t) && col < |t.columns| && row < |t.rows|
    ensures LaunchOf(t, Plans(t, lame), col, row) in Schedule(t, lame).started ==>
      Cell(col, row) in Waited(Schedule(t, lame)) && Cell(col, row) in t.checked
    ensures forall cell :: cell in Waited(Schedule(t, lame)) ==>
      && cell.col < |t.columns| && cell.row < |t.rows| && cell in t.checked
      && LaunchOf(t, Plans(t, lame), cell.col, cell.row) in Schedule(t, lame).started
  {
    ScheduleStarts(t, lame, col, row);
    var run := Schedule(t, lame);
    if LaunchOf(t, Plans(t, lame), col, row) in run.started {
      var i :| 0 <= i < |run.started| && run.started[i] == LaunchOf(t, Plans(t, lame), col, row);
      assert run.started[i].cell == Cell(col, row);
    }
    forall cell | cell in Waited(run)
      ensures && cell.col < |t.columns| && cell.row < |t.rows| && cell in t.checked
              && LaunchOf(t, Plans(t, lame), cell.col, cell.row) in run.started
    {
      var i :| 0 <= i < |run.started| && run.started[i].cell == cell;
      StartedAreLaunches(t, lame, run.started[i]);
    }
  }

  /** Every cell of the table, column by column. */
  function GridCells(cols: nat, rows: nat): (s: seq<Cell>)
    ensures |s| == cols * rows
  {
    if cols == 0 then []
    else
      var g := GridCells(cols - 1, rows);
      assert |g| + rows == cols * rows;
      g + CellsFrom(cols - 1, 0, rows)
  }

  lemma {:induction false} GridMember(cols: nat, rows: nat, cell: Cell)
    ensures cell in GridCells(cols, rows) <==> cell.col < cols && cell.row < rows
  {
    if cols > 0 {
      GridMember(cols - 1, rows, cell);
      CellsFromMember(cols - 1, 0, rows, cell);
    }
  }

  /** lame_close as written: every cell of the table, whether or not its
      lame_init ran. */
  function ClosedAsWritten(t: Table): seq<Cell> {
    GridCells(|t.columns|, |t.rows|)
  }

  /** As written, when a column other than the last stops the batch, the
      last column's contexts are closed although lame_init never ran for
      them. */
  lemma ClosesUninitialised(t: Table, lame: Lame, c: nat)
    requires WellFormed(t) && c + 1 < |t.columns| && |t.rows| > 0 && ColumnStops(t, lame, c)
    ensures var last := Cell(|t.columns| - 1, 0);
      last in ClosedAsWritten(t) && last !in Schedule(t, lame).inited
  {
    var last := Cell(|t.columns| - 1, 0);
    GridMember(|t.columns|, |t.rows|, last);
    ScheduleInits(t, lame, last);
  }

  /** lame_close on exactly the contexts lame_init returned. */
  function Closed(run: Run): seq<Cell> {
    run.inited
  }

  /** The corrected teardown closes each context lame_init returned and
      nothing else; each of those is a cell of the table. */
  lemma ClosesInitialised(t: Table, lame: Lame, cell: Cell)
    requires WellFormed(t)
    ensures cell in Closed(Schedule(t, lame)) <==>
      cell.col < |t.columns| && cell.row < |t.rows| && Processed(t, lame, cell.col) && Reached(lame, cell)
    ensures cell in Closed(Schedule(t, lame)) ==> cell in ClosedAsWritten(t)
  {
    ScheduleInits(t, lame, cell);
    GridMember(|t.columns|, |t.rows|, cell);
  }

  /** The closing message box's text. */
  function FinalMessage(code: Outcome): string {
    if code == Ok then "Conversions Complete"
    else "A problem occurred during conversion\n" + CodeText(code)
  }

  /** The batch reports success exactly when no column stopped it. */
  lemma ReportsSuccess(t: Table, lame: Lame)
    requires WellFormed(t)
    ensures FinalMessage(Schedule(t, lame).code) == "Conversions Complete" <==>
      forall c :: 0 <= c < |t.columns| ==> !ColumnStops(t, lame, c)
  {
    ScheduleOk(t, lame);
    var m := FinalMessage(Schedule(t, lame).code);
    if Schedule(t, lame).code != Ok {
      assert m[0] == 'A';
    }
  }
}

=== FILE: text.dfy ===
/** The small part of QString the option layer depends on, with ASCII
    whitespace: `simplified()`, `section(" ", k, k)`, `toInt(&ok, 10)`
    and `QString::number(int)`. */
module Text {
  import opened Base

  /** QChar::isSpace restricted to ASCII: space, and tab through
      carriage return. */
  predicate IsSpace(c: char) {
    c == ' ' || 9 <= c as int <= 13
  }

  /** A word: a non-empty run of non-whitespace characters. */
  predicate IsWord(w: string) {
    |w| > 0 && forall i :: 0 <= i < |w| ==> !IsSpace(w[i])
  }

  predicate AllWords(ws: seq<string>) {
    forall i :: 0 <= i < |ws| ==> IsWord(ws[i])
  }

  /** Length of the leading run of non-whitespace characters. */
  function WordLen(s: string): (k: nat)
    ensures k <= |s|
    ensures forall i :: 0 <= i < k ==> !IsSpace(s[i])
    ensures k < |s| ==> IsSpace(s[k])
  {
    if s == [] || IsSpace(s[0]) then 0 else 1 + WordLen(s[1..])
  }

  /** The maximal runs of non-whitespace characters of `s`, in order. */
  function Words(s: string): (ws: seq<string>)
    ensures AllWords(ws)
    decreases |s|
  {
    if s == [] then []
    else if IsSpace(s[0]) then Words(s[1..])
    else
      var k := WordLen(s);
      [s[..k]] + Words(s[k..])
  }

  /** Each word preceded by one space. */
  function Spaced(ws: seq<string>): string {
    if ws == [] then "" else " " + ws[0] + Spaced(ws[1..])
  }

  /** The words joined by single spaces. */
  function Join(ws: seq<string>): string {
    if ws == [] then "" else ws[0] + Spaced(ws[1..])
  }

  /** QString::simplified(): whitespace trimmed at both ends and every
      inner run of whitespace replaced by one space. */
  function Simplified(s: string): string {
    Join(Words(s))
  }

  /** The fields of `s` between single spaces, empty ones included, as
      QString::section and QString::split see them; "" has one empty
      field. */
  function Split(s: string): (fs: seq<string>)
    ensures |fs| >= 1
  {
    if s == [] then [""]
    else
      var rest := Split(s[1..]);
      if s[0] == ' ' then [""] + rest else [[s[0]] + rest[0]] + rest[1..]
  }

  /** QString::section(" ", k, k): the k-th field, or "" past the end. */
  function Section(s: string, k: nat): string {
    var fs := Split(s);
    if k < |fs| then fs[k] else ""
  }

  // ---------------------------------------------------------------------
  // Words and Join

  lemma {:induction false} WordLenAppend(a: string, t: string)
    requires WordLen(a) < |a| || (t != [] && IsSpace(t[0]))
    ensures WordLen(a + t) == WordLen(a)
    decreases |a|
  {
    if a != [] && !IsSpace(a[0]) {
      assert (a + t)[1..] == a[1..] + t;
      WordLenAppend(a[1..], t);
    }
  }

  lemma {:induction false} WordLenOfWord(w: string)
    requires forall i :: 0 <= i < |w| ==> !IsSpace(w[i])
    ensures WordLen(w) == |w|
    decreases |w|
  {
    if w != [] {
      WordLenOfWord(w[1..]);
    }
  }

  /** Whitespace separates: the words of `a c b` are those of `a` followed
      by those of `b`. */
  lemma {:induction false} WordsAroundSpace(a: string, c: char, b: string)
    requires IsSpace(c)
    ensures Words(a + [c] + b) == Words(a) + Words(b)
    decreases |a|
  {
    var s := a + [c] + b;
    if a == [] {
      assert s[1..] == b;
    } else if IsSpace(a[0]) {
      assert s[1..] == a[1..] + [c] + b;
      WordsAroundSpace(a[1..], c, b);
    } else {
      var k := WordLen(a);
      assert WordLen(s) == k by {
        assert s == a + ([c] + b);
        WordLenAppend(a, [c] + b);
      }
      assert s[..k] == a[..k] && s[k..] == a[k..] + [c] + b;
      assert Words(s) == [a[..k]] + Words(a[k..] + [c] + b);
      assert Words(a[k..] + [c] + b) == Words(a[k..]) + Words(b) by {
        WordsAroundSpace(a[k..], c, b);
      }
    }
  }

  lemma {:induction false} WordsOfWord(w: string)
    requires IsWord(w)
    ensures Words(w) == [w]
  {
    WordLenOfWord(w);
    assert w[..|w|] == w;
    assert w[|w|..] == [];
  }

  lemma {:induction false} WordsOfSpaced(ws: seq<string>)
    requires AllWords(ws)
    ensures Words(Spaced(ws)) == ws
    decreases |ws|
  {
    if ws != [] {
      assert Spaced(ws) == [' '] + (ws[0] + Spaced(ws[1..]));
      assert Spaced(ws)[1..] == ws[0] + Spaced(ws[1..]);
      WordsOfJoin(ws);
    }
  }

  /** Words and Join are inverse on lists of words. */
  lemma {:induction false} WordsOfJoin(ws: seq<string>)
    requires AllWords(ws)
    ensures Words(Join(ws)) == ws
    decreases |ws|, 1
  {
    if ws != [] {
      WordsOfWord(ws[0]);
      if |ws| == 1 {
        assert Join(ws) == ws[0];
      } else {
        assert Spaced(ws[1..]) == [' '] + (ws[1] + Spaced(ws[2..]));
        assert Join(ws) == ws[0] + [' '] + (ws[1] + Spaced(ws[2..]));
        WordsAroundSpace(ws[0], ' ', ws[1] + Spaced(ws[2..]));
        assert ws[1..][0] == ws[1] && ws[1..][1..] == ws[2..];
        WordsOfJoin(ws[1..]);
        assert Join(ws[1..]) == ws[1] + Spaced(ws[2..]);
        assert [ws[0]] + ws[1..] == ws;
      }
    }
  }

  /** simplified() keeps the words and is idempotent. */
  lemma SimplifiedKeepsWords(s: string)
    ensures Words(Simplified(s)) == Words(s)
    ensures Simplified(Simplified(s)) == Simplified(s)
  {
    WordsOfJoin(Words(s));
  }

  lemma {:induction false} SpacedAppend(a: seq<string>, b: seq<string>)
    ensures Spaced(a + b) == Spaced(a) + Spaced(b)
    decreases |a|
  {
    if a == [] {
      assert a + b == b;
    } else {
      assert (a + b)[0] == a[0];
      assert (a + b)[1..] == a[1..] + b;
      SpacedAppend(a[1..], b);
    }
  }

  // ---------------------------------------------------------------------
  // Split and Section

  lemma {:induction false} SplitWord(w: string)
    requires forall i :: 0 <= i < |w| ==> w[i] != ' '
    ensures Split(w) == [w]
    decreases |w|
  {
    if w != [] {
      SplitWord(w[1..]);
      assert [w[0]] + w[1..] == w;
    }
  }

  /** The first field of `w + " " + t` is `w` and the others are those of
      `t`. */
  lemma {:induction false} SplitWordThenSpace(w: string, t: string)
    requires forall i :: 0 <= i < |w| ==> w[i] != ' '
    ensures Split(w + " " + t) == [w] + Split(t)
    decreases |w|
  {
    var s := w + " " + t;
    if w == [] {
      assert s[1..] == t;
    } else {
      assert s[1..] == w[1..] + " " + t;
      SplitWordThenSpace(w[1..], t);
      assert [w[0]] + w[1..] == w;
    }
  }

  lemma SpacedIsSpaceJoin(ws: seq<string>)
    requires ws != []
    ensures Spaced(ws) == " " + Join(ws)
  {
  }

  lemma SplitJoinStep(ws: seq<string>, t: string)
    requires AllWords(ws) && |ws| >= 2
    ensures Split(Join(ws) + t) == [ws[0]] + Split(Join(ws[1..]) + t)
  {
    var u := Join(ws[1..]) + t;
    assert Join(ws) + t == ws[0] + " " + u by {
      SpacedIsSpaceJoin(ws[1..]);
      assert Join(ws) == ws[0] + (" " + Join(ws[1..]));
    }
    assert IsWord(ws[0]);
    SplitWordThenSpace(ws[0], u);
  }

  lemma {:induction false} SplitJoinPrefix(ws: seq<string>, t: string)
    requires AllWords(ws) && ws != []
    ensures Split(Join(ws) + t) == ws[..|ws|-1] + Split(ws[|ws|-1] + t)
    decreases |ws|
  {
    if |ws| == 1 {
      assert Join(ws) == ws[0];
      assert ws[..0] == [];
    } else {
      var last := ws[|ws|-1];
      SplitJoinStep(ws, t);
      assert Split(Join(ws[1..]) + t) == ws[1..|ws|-1] + Split(last + t) by {
        SplitJoinPrefix(ws[1..], t);
        assert ws[1..][..|ws[1..]|-1] == ws[1..|ws|-1];
        assert ws[1..][|ws[1..]|-1] == last;
      }
      assert [ws[0]] + ws[1..|ws|-1] == ws[..|ws|-1];
      AppendAssoc([ws[0]], ws[1..|ws|-1], Split(last + t));
    }
  }

  /** The fields of a simplified string are its words. */
  lemma SplitOfJoin(ws: seq<string>)
    requires AllWords(ws)
    ensures Split(Join(ws)) == if ws == [] then [""] else ws
  {
    if ws != [] {
      SplitOfWords(ws);
    }
  }

  lemma SplitOfWords(ws: seq<string>)
    requires AllWords(ws) && ws != []
    ensures Split(Join(ws)) == ws
  {
    var n := |ws| - 1;
    var last := ws[n];
    assert Split(Join(ws)) == ws[..n] + Split(last) by {
      SplitJoinPrefix(ws, "");
      assert Join(ws) + "" == Join(ws);
      assert last + "" == last;
    }
    assert Split(last) == [last] by {
      assert IsWord(last);
      SplitWord(last);
    }
    assert ws[..n] + [last] == ws;
  }

  // ---------------------------------------------------------------------
  // Integers

  predicate IsDigit(c: char) { '0' <= c <= '9' }

  function DigitValue(c: char): (d: nat)
    requires IsDigit(c)
    ensures d < 10
  {
    c as int - '0' as int
  }

  function DigitChar(d: nat): (c: char)
    requires d < 10
    ensures IsDigit(c) && DigitValue(c) == d
  {
    (d + '0' as int) as char
  }

  predicate AllDigits(s: string) {
    forall i :: 0 <= i < |s| ==> IsDigit(s[i])
  }

  /** Decimal value of a digit string, most significant digit first. */
  function DigitsValue(s: string): nat
    requires AllDigits(s)
  {
    if s == [] then 0 else 10 * DigitsValue(s[..|s|-1]) + DigitValue(s[|s|-1])
  }

  /** The shortest decimal digit string of `n`. */
  function NatToDigits(n: nat): (s: string)
    ensures |s| >= 1 && AllDigits(s)
  {
    if n < 10 then [DigitChar(n)] else NatToDigits(n / 10) + [DigitChar(n % 10)]
  }

  lemma {:induction false} DigitsRoundTrip(n: nat)
    ensures DigitsValue(NatToDigits(n)) == n
  {
    var s := NatToDigits(n);
    if n >= 10 {
      DigitsRoundTrip(n / 10);
      assert s[..|s|-1] == NatToDigits(n / 10);
    }
  }

  /** QString::number(int): a minus sign for negative values, then the
      shortest decimal digits. */
  function IntToString(i: int): (s: string)
    ensures |s| >= 1
  {
    if i < 0 then "-" + NatToDigits(-i) else NatToDigits(i)
  }

  /** QString::toInt(&ok, 10) on a string without whitespace: an optional
      sign, one or more decimal digits, and a value that fits in `int`;
      anything else is not a number. */
  function ParseInt(s: string): (r: Option<int>)
    ensures r.Some? ==> INT32_MIN <= r.value <= INT32_MAX
  {
    var neg := |s| > 0 && s[0] == '-';
    var digits := if |s| > 0 && (s[0] == '-' || s[0] == '+') then s[1..] else s;
    if |digits| == 0 || !AllDigits(digits) then None
    else
      var mag: int := DigitsValue(digits);
      var v: int := if neg then -mag else mag;
      if INT32_MIN <= v <= INT32_MAX then Some(v) else None
  }

  /** toInt reads back what QString::number wrote. */
  lemma IntStringRoundTrip(i: int)
    requires INT32_MIN <= i <= INT32_MAX
    ensures ParseInt(IntToString(i)) == Some(i)
  {
    var s := IntToString(i);
    if i < 0 {
      DigitsRoundTrip(-i);
      assert s[1..] == NatToDigits(-i);
    } else {
      DigitsRoundTrip(i);
    }
  }
}

=== FILE: wav.dfy ===
/** The WAV side of a conversion job: Converter::isValidWavHeader, which
    checks the canonical 44-byte header of an uncompressed PCM RIFF WAVE
    file, and Converter::getWavBuffer, which splits one block of
    interleaved frames into a left and a right lane of 16-bit samples. */
module WavReader {
  import opened Base

  /** The four-character tags, as bytes. */
  const RIFF: seq<Byte> := [0x52, 0x49, 0x46, 0x46]
  const WAVE: seq<Byte> := [0x57, 0x41, 0x56, 0x45]
  const FMT: seq<Byte> := [0x66, 0x6D, 0x74, 0x20]
  const DATA: seq<Byte> := [0x64, 0x61, 0x74, 0x61]

  /** Bytes from the start of the file to the first sample. */
  const HEADER_SIZE: nat := 44

  // ---------------------------------------------------------------------
  // Field decoding

  /** The little-endian 16-bit field at offset i. */
  function LE16(s: seq<Byte>, i: nat): (v: nat)
    requires i + 2 <= |s|
    ensures v < 0x1_0000
  {
    s[i] as int + 0x100 * s[i + 1] as int
  }

  /** The little-endian 32-bit field at offset i. */
  function LE32(s: seq<Byte>, i: nat): (v: nat)
    requires i + 4 <= |s|
    ensures v < 0x1_0000_0000
  {
    LE16(s, i) + 0x1_0000 * LE16(s, i + 2)
  }

  /** The program's byte-by-byte reading of a 32-bit field, most
      significant byte first, as `unsigned int` arithmetic. */
  function Horner32(b0: Byte, b1: Byte, b2: Byte, b3: Byte): nat {
    ((b3 * 256 + b2) * 256 + b1) * 256 + b0
  }

  /** The program's reading of a 16-bit field. */
  function Horner16(b0: Byte, b1: Byte): nat {
    b1 * 256 + b0
  }

  // ---------------------------------------------------------------------
  // isValidWavHeader

  /** The fields of an accepted header. The RIFF size, sample rate, byte
      rate and block alignment are read but never checked. */
  datatype WavHeader = WavHeader(
    riffSize: nat, channels: nat, sampleRate: nat, byteRate: nat,
    blockAlign: nat, bits: nat, dataSize: nat)

  /** The verdict, and how many bytes of the stream were read before it
      was reached. */
  datatype HeaderCheck = HeaderCheck(header: Option<WavHeader>, consumed: nat)

  /** isValidWavHeader as written: each tag or field is read in turn and
      the first failed check rejects the stream. A tag matches when its
      four bytes are the tag's ASCII bytes. */
  function IsValidWavHeader(s: seq<Byte>): (r: HeaderCheck)
    requires |s| >= HEADER_SIZE
    ensures r.header.Some? <==> AcceptsHeader(s)
    ensures r.header.Some? ==> r.header.value == HeaderFields(s)
    ensures r.header.Some? <==> r.consumed == HEADER_SIZE
    ensures r.consumed in {4, 12, 16, 20, 36, 40, 44}
  {
    if s[0..4] != RIFF then HeaderCheck(None, 4)
    else if s[8..12] != WAVE then HeaderCheck(None, 12)
    else if s[12..16] != FMT then HeaderCheck(None, 16)
    else if Horner32(s[16], s[17], s[18], s[19]) != 16 then HeaderCheck(None, 20)
    else if Horner16(s[20], s[21]) != 1 then HeaderCheck(None, 36)
    else if Horner16(s[22], s[23]) != 1 && Horner16(s[22], s[23]) != 2 then HeaderCheck(None, 36)
    else if Horner16(s[34], s[35]) != 8 && Horner16(s[34], s[35]) != 16 then HeaderCheck(None, 36)
    else if s[36..40] != DATA then HeaderCheck(None, 40)
    else
      var h := WavHeader(
        Horner32(s[4], s[5], s[6], s[7]), Horner16(s[22], s[23]),
        Horner32(s[24], s[25], s[26], s[27]), Horner32(s[28], s[29], s[30], s[31]),
        Horner16(s[32], s[33]), Horner16(s[34], s[35]),
        Horner32(s[40], s[41], s[42], s[43]));
      assert h == HeaderFields(s);
      HeaderCheck(Some(h), HEADER_SIZE)
  }

  /** The acceptance condition, stated over the header's fields. */
  predicate AcceptsHeader(s: seq<Byte>)
    requires |s| >= HEADER_SIZE
  {
    && s[0..4] == RIFF && s[8..12] == WAVE && s[12..16] == FMT && s[36..40] == DATA
    && LE32(s, 16) == 16
    && LE16(s, 20) == 1
    && LE16(s, 22) in {1, 2}
    && LE16(s, 34) in {8, 16}
  }

  /** The fields of the canonical header layout. */
  function HeaderFields(s: seq<Byte>): WavHeader
    requires |s| >= HEADER_SIZE
  {
    WavHeader(LE32(s, 4), LE16(s, 22), LE32(s, 24), LE32(s, 28), LE16(s, 32), LE16(s, 34), LE32(s, 40))
  }

  // ---------------------------------------------------------------------
  // Writing a header, the inverse of reading one

  /** Byte k (0 = least significant) of v. */
  function ByteOf(v: nat, k: nat): Byte
    requires k < 4
  {
    if k == 0 then v % 0x100
    else if k == 1 then (v / 0x100) % 0x100
    else if k == 2 then (v / 0x1_0000) % 0x100
    else (v / 0x100_0000) % 0x100
  }

  /** A header whose fields fit their widths. */
  predicate Representable(h: WavHeader) {
    && h.riffSize < 0x1_0000_0000 && h.sampleRate < 0x1_0000_0000
    && h.byteRate < 0x1_0000_0000 && h.dataSize < 0x1_0000_0000
    && h.channels < 0x1_0000 && h.blockAlign < 0x1_0000 && h.bits < 0x1_0000
  }

  /** Byte i of the canonical header that describes h. */
  function HeaderByte(h: WavHeader, i: nat): Byte
    requires i < HEADER_SIZE
  {
    if i < 4 then RIFF[i]
    else if i < 8 then ByteOf(h.riffSize, i - 4)
    else if i < 12 then WAVE[i - 8]
    else if i < 16 then FMT[i - 12]
    else if i < 20 then ByteOf(16, i - 16)
    else if i < 22 then ByteOf(1, i - 20)
    else if i < 24 then ByteOf(h.channels, i - 22)
    else if i < 28 then ByteOf(h.sampleRate, i - 24)
    else if i < 32 then ByteOf(h.byteRate, i - 28)
    else if i < 34 then ByteOf(h.blockAlign, i - 32)
    else if i < 36 then ByteOf(h.bits, i - 34)
    else if i < 40 then DATA[i - 36]
    else ByteOf(h.dataSize, i - 40)
  }

  /** The canonical 44-byte header that describes h. */
  function HeaderBytes(h: WavHeader): (s: seq<Byte>)
    ensures |s| == HEADER_SIZE
  {
    seq(HEADER_SIZE, i requires 0 <= i < HEADER_SIZE => HeaderByte(h, i))
  }

  lemma LE16OfBytes(s: seq<Byte>, i: nat, v: nat)
    requires i + 2 <= |s| && v < 0x1_0000
    requires s[i] == ByteOf(v, 0) && s[i + 1] == ByteOf(v, 1)
    ensures LE16(s, i) == v
  {
  }

  lemma LowBytes(v: nat)
    ensures ByteOf(v, 0) == ByteOf(v % 0x1_0000, 0)
    ensures ByteOf(v, 1) == ByteOf(v % 0x1_0000, 1)
  {
  }

  lemma HighBytes(v: nat)
    ensures ByteOf(v, 2) == ByteOf(v / 0x1_0000, 0)
    ensures ByteOf(v, 3) == ByteOf(v / 0x1_0000, 1)
  {
    assert v / 0x100_0000 == (v / 0x1_0000) / 0x100;
  }

  lemma LE32OfBytes(s: seq<Byte>, i: nat, v: nat)
    requires i + 4 <= |s| && v < 0x1_0000_0000
    requires s[i] == ByteOf(v, 0) && s[i + 1] == ByteOf(v, 1)
    requires s[i + 2] == ByteOf(v, 2) && s[i + 3] == ByteOf(v, 3)
    ensures LE32(s, i) == v
  {
    LowBytes(v);
    HighBytes(v);
    LE16OfBytes(s, i, v % 0x1_0000);
    LE16OfBytes(s, i + 2, v / 0x1_0000);
  }

  lemma WrittenByte(h: WavHeader, rest: seq<Byte>, i: nat)
    requires i < HEADER_SIZE
    ensures (HeaderBytes(h) + rest)[i] == HeaderByte(h, i)
  {
  }

  /** A written header carries the four tags where they belong. */
  lemma WrittenTags(h: WavHeader, rest: seq<Byte>)
    ensures var s := HeaderBytes(h) + rest;
      s[0..4] == RIFF && s[8..12] == WAVE && s[12..16] == FMT && s[36..40] == DATA
  {
    var s := HeaderBytes(h) + rest;
    assert s[0..4] == HeaderBytes(h)[0..4] && s[8..16] == HeaderBytes(h)[8..16];
    assert s[36..40] == HeaderBytes(h)[36..40];
  }

  /** A written header carries h's fields, a format size of 16 and the PCM
      compression code 1. */
  lemma WrittenFields(h: WavHeader, rest: seq<Byte>)
    requires Representable(h)
    ensures var s := HeaderBytes(h) + rest;
      HeaderFields(s) == h && LE32(s, 16) == 16 && LE16(s, 20) == 1
  {
    var s := HeaderBytes(h) + rest;
    forall i | 0 <= i < HEADER_SIZE ensures s[i] == HeaderByte(h, i) {
      WrittenByte(h, rest, i);
    }
    LE32OfBytes(s, 4, h.riffSize);
    LE32OfBytes(s, 16, 16);
    LE16OfBytes(s, 20, 1);
    LE16OfBytes(s, 22, h.channels);
    LE32OfBytes(s, 24, h.sampleRate);
    LE32OfBytes(s, 28, h.byteRate);
    LE16OfBytes(s, 32, h.blockAlign);
    LE16OfBytes(s, 34, h.bits);
    LE32OfBytes(s, 40, h.dataSize);
  }

  /** Reading back a written header gives its fields, whatever follows it,
      and accepts exactly when the channel count and bit depth are ones the
      program supports. */
  lemma HeaderRoundTrip(h: WavHeader, rest: seq<Byte>)
    requires Representable(h)
    ensures var r := IsValidWavHeader(HeaderBytes(h) + rest);
      && (r.header.Some? <==> h.channels in {1, 2} && h.bits in {8, 16})
      && (r.header.Some? ==> r.header.value == h)
  {
    WrittenTags(h, rest);
    WrittenFields(h, rest);
  }

  // ---------------------------------------------------------------------
  // getWavBuffer

  /** The two sample lanes (left, right), each INPUT_BLOCK_SIZE long, as
      the program's `short inBuffer[2][INPUT_BLOCK_SIZE]`. */
  datatype Lanes = Lanes(left: seq<Sample>, right: seq<Sample>)

  predicate ValidLanes(l: Lanes) {
    |l.left| == INPUT_BLOCK_SIZE && |l.right| == INPUT_BLOCK_SIZE
  }

  /** Bytes getWavBuffer reads per frame: one or two bytes per sample,
      two samples when there are two channels and one otherwise. */
  function ReadWidth(channels: nat, bits: nat): (w: nat)
    ensures w == 1 || w == 2 || w == 4
  {
    if bits == 8 then (if channels == 2 then 2 else 1)
    else (if channels == 2 then 4 else 2)
  }

  /** A sample as the format defines it: 8-bit samples are unsigned and are
      kept as 0..255, 16-bit samples are little-endian two's complement. */
  function DecodeSample(s: seq<Byte>, p: nat, bits: nat): Sample
    requires p + (if bits == 8 then 1 else 2) <= |s|
  {
    if bits == 8 then s[p] else ToShort(LE16(s, p))
  }

  lemma FrameInBounds(pos: nat, n: nat, blockSize: nat, w: nat, len: nat)
    requires n < blockSize && pos + blockSize * w <= len
    ensures pos + n * w + w <= len
  {
    assert n * w + w == (n + 1) * w <= blockSize * w;
  }

  /** The loop of getWavBuffer from frame n on: frame j of the block sits
      at pos + j * width and fills index j of the lanes (FillLanesAt).
      The measure is the buffer indices from n on, which bounds the frames
      still to read. */
  function FillLanes(s: seq<Byte>, pos: nat, lanes: Lanes, channels: nat, bits: nat,
                     n: nat, blockSize: nat): (r: Lanes)
    requires ValidLanes(lanes) && n <= blockSize <= INPUT_BLOCK_SIZE
    requires pos + blockSize * ReadWidth(channels, bits) <= |s|
    ensures ValidLanes(r)
    decreases |lanes.left| - n
  {
    if n == blockSize then lanes
    else
      FrameInBounds(pos, n, blockSize, ReadWidth(channels, bits), |s|);
      FillLanes(s, pos, ReadFrame(s, pos + n * ReadWidth(channels, bits), lanes, channels, bits, n),
                channels, bits, n + 1, blockSize)
  }

  /** One iteration of getWavBuffer's loops: frame n read at byte p. */
  function ReadFrame(s: seq<Byte>, p: nat, lanes: Lanes, channels: nat, bits: nat, n: nat): (r: Lanes)
    requires ValidLanes(lanes) && n < INPUT_BLOCK_SIZE
    requires p + ReadWidth(channels, bits) <= |s|
    ensures ValidLanes(r)
  {
    if bits == 8 then
      if channels == 2 then Lanes(lanes.left[n := s[p]], lanes.right[n := s[p + 1]])
      else Lanes(lanes.left[n := s[p]], lanes.right)
    else if channels == 2 then
      Lanes(lanes.left[n := ToShort(Horner16(s[p], s[p + 1]))],
            lanes.right[n := ToShort(Horner16(s[p + 2], s[p + 3]))])
    else Lanes(lanes.left[n := ToShort(Horner16(s[p], s[p + 1]))], lanes.right)
  }

  /** A frame read at p puts its first sample at index n of the left lane
      and, for two channels, its second at index n of the right lane, and
      changes nothing else. */
  lemma ReadFrameAt(s: seq<Byte>, p: nat, lanes: Lanes, channels: nat, bits: nat, n: nat, j: nat)
    requires ValidLanes(lanes) && n < INPUT_BLOCK_SIZE && j < INPUT_BLOCK_SIZE
    requires p + ReadWidth(channels, bits) <= |s|
    ensures var r := ReadFrame(s, p, lanes, channels, bits, n);
      && (j == n ==> r.left[j] == DecodeSample(s, p, bits))
      && (j == n && channels == 2 ==> r.right[j] == DecodeSample(s, p + ReadWidth(1, bits), bits))
      && (j != n ==> r.left[j] == lanes.left[j])
      && (j != n || channels != 2 ==> r.right[j] == lanes.right[j])
  {
  }

  /** Index j of the lanes after frames n..blockSize-1 have been read:
      frame j's samples when it is one of them, the old contents
      otherwise; the right lane changes only for two channels. */
  lemma {:induction false} FillLanesAt(s: seq<Byte>, pos: nat, lanes: Lanes, channels: nat, bits: nat,
                                       n: nat, blockSize: nat, j: nat)
    requires ValidLanes(lanes) && n <= blockSize <= INPUT_BLOCK_SIZE && j < INPUT_BLOCK_SIZE
    requires pos + blockSize * ReadWidth(channels, bits) <= |s|
    ensures var r := FillLanes(s, pos, lanes, channels, bits, n, blockSize);
      var p := pos + j * ReadWidth(channels, bits);
      && (n <= j < blockSize ==> p + ReadWidth(channels, bits) <= |s|)
      && (n <= j < blockSize ==> r.left[j] == DecodeSample(s, p, bits))
      && (n <= j < blockSize && channels == 2 ==> r.right[j] == DecodeSample(s, p + ReadWidth(1, bits), bits))
      && (!(n <= j < blockSize) ==> r.left[j] == lanes.left[j])
      && (!(n <= j < blockSize && channels == 2) ==> r.right[j] == lanes.right[j])
    decreases blockSize - n
  {
    if n < blockSize {
      var w := ReadWidth(channels, bits);
      FrameInBounds(pos, n, blockSize, w, |s|);
      if n <= j < blockSize {
        FrameInBounds(pos, j, blockSize, w, |s|);
      }
      var next := ReadFrame(s, pos + n * w, lanes, channels, bits, n);
      ReadFrameAt(s, pos + n * w, lanes, channels, bits, n, j);
      FillLanesAt(s, pos, next, channels, bits, n + 1, blockSize, j);
    }
  }

  /** What getWavBuffer leaves behind: the lanes, the bytes it consumed
      and its result, which is always true. */
  datatype BufferRead = BufferRead(lanes: Lanes, consumed: nat, ok: bool)

  /** getWavBuffer(stream, inBuffer, numberChannels, bitsPerSample,
      blockSize) with the stream at byte pos of s. */
  function GetWavBuffer(s: seq<Byte>, pos: nat, lanes: Lanes, channels: nat, bits: nat,
                        blockSize: nat): (r: BufferRead)
    requires ValidLanes(lanes) && blockSize <= INPUT_BLOCK_SIZE
    requires pos + blockSize * ReadWidth(channels, bits) <= |s|
    ensures r.ok
    ensures r.consumed == blockSize * ReadWidth(channels, bits)
    ensures ValidLanes(r.lanes)
  {
    BufferRead(FillLanes(s, pos, lanes, channels, bits, 0, blockSize), blockSize * ReadWidth(channels, bits), true)
  }

  /** For the formats the header admits, a frame is channels * bits / 8
      bytes wide. */
  lemma ReadWidthIsFrameSize(channels: nat, bits: nat)
    requires channels in {1, 2} && bits in {8, 16}
    ensures ReadWidth(channels, bits) == channels * bits / 8
  {
  }

  /** The samples getWavBuffer stores: 8-bit samples unchanged (0..255, no
      re-centring), 16-bit samples as signed values; the first sample of
      each frame goes to the left lane, the second (stereo only) to the
      right lane, and everything past the block, and the whole right lane
      in mono, keeps its previous contents. */
  lemma GetWavBufferContents(s: seq<Byte>, pos: nat, lanes: Lanes, channels: nat, bits: nat,
                             blockSize: nat, j: nat)
    requires ValidLanes(lanes) && blockSize <= INPUT_BLOCK_SIZE && j < INPUT_BLOCK_SIZE
    requires pos + blockSize * ReadWidth(channels, bits) <= |s|
    ensures var r := GetWavBuffer(s, pos, lanes, channels, bits, blockSize).lanes;
      var p := pos + j * ReadWidth(channels, bits);
      && (j < blockSize && bits == 8 ==> r.left[j] == s[p])
      && (j < blockSize && bits != 8 ==> r.left[j] == ToShort(LE16(s, p)))
      && (j < blockSize && channels == 2 && bits == 8 ==> r.right[j] == s[p + 1])
      && (j < blockSize && channels == 2 && bits != 8 ==> r.right[j] == ToShort(LE16(s, p + 2)))
      && (j >= blockSize ==> r.left[j] == lanes.left[j] && r.right[j] == lanes.right[j])
      && (channels != 2 ==> r.right[j] == lanes.right[j])
  {
    FillLanesAt(s, pos, lanes, channels, bits, 0, blockSize, j);
  }

  // ---------------------------------------------------------------------
  // Interleaving samples, the inverse of getWavBuffer

  /** The bytes of one sample: the value itself for 8 bits, the low and
      high byte of its two's complement for 16 bits. */
  function SampleBytes(x: Sample, bits: nat): (b: seq<Byte>)
    requires bits == 8 ==> 0 <= x < 256
    ensures |b| == (if bits == 8 then 1 else 2)
  {
    if bits == 8 then [x]
    else
      var u := if x < 0 then x + 0x1_0000 else x;
      [u % 0x100, u / 0x100]
  }

  /** Samples a format can carry: 8-bit samples are 0..255. */
  predicate Storable(xs: seq<Sample>, bits: nat) {
    bits == 8 ==> forall i :: 0 <= i < |xs| ==> 0 <= xs[i] < 256
  }

  /** Frames written in file order: each left sample, followed by the
      right one when there are two channels. */
  function Interleave(left: seq<Sample>, right: seq<Sample>, channels: nat, bits: nat): (b: seq<Byte>)
    requires |left| == |right| && Storable(left, bits) && Storable(right, bits)
    ensures |b| == |left| * ReadWidth(channels, bits)
  {
    if left == [] then []
    else
      FrameBytes(left[0], right[0], channels, bits) + Interleave(left[1..], right[1..], channels, bits)
  }

  lemma DecodeSampleBytes(s: seq<Byte>, p: nat, x: Sample, bits: nat)
    requires bits == 8 ==> 0 <= x < 256
    requires p + |SampleBytes(x, bits)| <= |s| && s[p..p + |SampleBytes(x, bits)|] == SampleBytes(x, bits)
    ensures DecodeSample(s, p, bits) == x
  {
    var b := SampleBytes(x, bits);
    assert s[p] == b[0];
    if bits != 8 {
      assert s[p + 1] == b[1];
    }
  }

  lemma SliceLeft<T>(a: seq<T>, t: seq<T>, i: nat, k: nat)
    requires i <= k <= |a|
    ensures (a + t)[i..k] == a[i..k]
  {
  }

  lemma SliceRight<T>(a: seq<T>, t: seq<T>, i: nat, k: nat)
    requires |a| <= i <= k <= |a| + |t|
    ensures (a + t)[i..k] == t[i - |a|..k - |a|]
  {
  }

  lemma SliceMiddle<T>(a: seq<T>, b: seq<T>, c: seq<T>, i: nat, k: nat)
    requires i <= k <= |b|
    ensures (a + b + c)[|a| + i .. |a| + k] == b[i..k]
  {
    assert (a + b + c)[|a| + i .. |a| + k] == (a + b)[|a| + i .. |a| + k];
  }

  /** The bytes of one frame, as Interleave writes it. */
  function FrameBytes(l: Sample, r: Sample, channels: nat, bits: nat): (b: seq<Byte>)
    requires bits == 8 ==> 0 <= l < 256 && 0 <= r < 256
    ensures |b| == ReadWidth(channels, bits)
  {
    SampleBytes(l, bits) + (if channels == 2 then SampleBytes(r, bits) else [])
  }

  /** A frame holds its left sample's bytes, then (stereo) its right one's. */
  lemma FrameParts(l: Sample, r: Sample, channels: nat, bits: nat)
    requires bits == 8 ==> 0 <= l < 256 && 0 <= r < 256
    ensures var f := FrameBytes(l, r, channels, bits);
      var sw := ReadWidth(1, bits);
      && f[..sw] == SampleBytes(l, bits)
      && (channels == 2 ==> f[sw..] == SampleBytes(r, bits))
  {
  }

  lemma InterleaveCons(left: seq<Sample>, right: seq<Sample>, channels: nat, bits: nat)
    requires |left| == |right| && Storable(left, bits) && Storable(right, bits) && left != []
    ensures Interleave(left, right, channels, bits)
         == FrameBytes(left[0], right[0], channels, bits) + Interleave(left[1..], right[1..], channels, bits)
  {
  }

  /** Frame j of Interleave(left, right) is FrameBytes(left[j], right[j]). */
  lemma {:induction false} InterleaveFrame(left: seq<Sample>, right: seq<Sample>, channels: nat, bits: nat, j: nat)
    requires |left| == |right| && Storable(left, bits) && Storable(right, bits) && j < |left|
    ensures var w := ReadWidth(channels, bits);
      var b := Interleave(left, right, channels, bits);
      && j * w + w <= |b|
      && b[j * w .. j * w + w] == FrameBytes(left[j], right[j], channels, bits)
    decreases j
  {
    var w := ReadWidth(channels, bits);
    var first := FrameBytes(left[0], right[0], channels, bits);
    var tail := Interleave(left[1..], right[1..], channels, bits);
    InterleaveCons(left, right, channels, bits);
    if j == 0 {
      SliceLeft(first, tail, 0, w);
    } else {
      InterleaveFrame(left[1..], right[1..], channels, bits, j - 1);
      var q := (j - 1) * w;
      assert j * w == q + w;
      SliceRight(first, tail, q + w, q + w + w);
      assert left[1..][j - 1] == left[j] && right[1..][j - 1] == right[j];
    }
  }

  /** Decoding a frame of f at p gives its samples back. */
  lemma DecodeFrame(s: seq<Byte>, p: nat, l: Sample, r: Sample, channels: nat, bits: nat)
    requires bits == 8 ==> 0 <= l < 256 && 0 <= r < 256
    requires p + ReadWidth(channels, bits) <= |s|
    requires s[p .. p + ReadWidth(channels, bits)] == FrameBytes(l, r, channels, bits)
    ensures DecodeSample(s, p, bits) == l
    ensures channels == 2 ==> DecodeSample(s, p + ReadWidth(1, bits), bits) == r
  {
    var w := ReadWidth(channels, bits);
    var sw := ReadWidth(1, bits);
    FrameParts(l, r, channels, bits);
    assert s[p .. p + sw] == s[p .. p + w][..sw];
    DecodeSampleBytes(s, p, l, bits);
    if channels == 2 {
      assert s[p + sw .. p + w] == s[p .. p + w][sw..];
      DecodeSampleBytes(s, p + sw, r, bits);
    }
  }

  /** Frame j of a block written by Interleave sits at |pre| + j * width
      of the stream. */
  lemma FrameInStream(pre: seq<Byte>, left: seq<Sample>, right: seq<Sample>, post: seq<Byte>,
                      channels: nat, bits: nat, j: nat)
    requires |left| == |right| && j < |left|
    requires Storable(left, bits) && Storable(right, bits)
    ensures var s := pre + Interleave(left, right, channels, bits) + post;
      var p := |pre| + j * ReadWidth(channels, bits);
      && p + ReadWidth(channels, bits) <= |s|
      && s[p .. p + ReadWidth(channels, bits)] == FrameBytes(left[j], right[j], channels, bits)
  {
    var b := Interleave(left, right, channels, bits);
    var w := ReadWidth(channels, bits);
    var p := |pre| + j * w;
    var q: nat := j * w;
    assert q + w <= |b| && b[q .. q + w] == FrameBytes(left[j], right[j], channels, bits) by {
      InterleaveFrame(left, right, channels, bits, j);
    }
    assert (pre + b + post)[p .. p + w] == b[q .. q + w] by {
      SliceMiddle(pre, b, post, q, q + w);
    }
  }

  /** getWavBuffer stores the samples of the frame it finds at index j. */
  lemma LaneFromFrame(s: seq<Byte>, pos: nat, lanes: Lanes, channels: nat, bits: nat,
                      blockSize: nat, j: nat, l: Sample, r: Sample)
    requires ValidLanes(lanes) && j < blockSize <= INPUT_BLOCK_SIZE
    requires pos + blockSize * ReadWidth(channels, bits) <= |s|
    requires bits == 8 ==> 0 <= l < 256 && 0 <= r < 256
    requires var p := pos + j * ReadWidth(channels, bits);
      p + ReadWidth(channels, bits) <= |s| && s[p .. p + ReadWidth(channels, bits)] == FrameBytes(l, r, channels, bits)
    ensures var lanes' := GetWavBuffer(s, pos, lanes, channels, bits, blockSize).lanes;
      && lanes'.left[j] == l
      && (channels == 2 ==> lanes'.right[j] == r)
  {
    DecodeFrame(s, pos + j * ReadWidth(channels, bits), l, r, channels, bits);
    FillLanesAt(s, pos, lanes, channels, bits, 0, blockSize, j);
  }

  /** Frame j of a block written by Interleave is read back by getWavBuffer. */
  lemma RoundTripFrame(pre: seq<Byte>, left: seq<Sample>, right: seq<Sample>, post: seq<Byte>,
                       lanes: Lanes, channels: nat, bits: nat, j: nat)
    requires ValidLanes(lanes) && |left| == |right| <= INPUT_BLOCK_SIZE && j < |left|
    requires Storable(left, bits) && Storable(right, bits)
    ensures var s := pre + Interleave(left, right, channels, bits) + post;
      var r := GetWavBuffer(s, |pre|, lanes, channels, bits, |left|);
      && r.lanes.left[j] == left[j]
      && (channels == 2 ==> r.lanes.right[j] == right[j])
  {
    var s := pre + Interleave(left, right, channels, bits) + post;
    FrameInStream(pre, left, right, post, channels, bits, j);
    LaneFromFrame(s, |pre|, lanes, channels, bits, |left|, j, left[j], right[j]);
  }

  /** Decoding interleaved frames gives back the samples: getWavBuffer is
      the inverse of Interleave, wherever in the stream the block sits. */
  lemma GetWavBufferRoundTrip(pre: seq<Byte>, left: seq<Sample>, right: seq<Sample>, post: seq<Byte>,
                              lanes: Lanes, channels: nat, bits: nat)
    requires ValidLanes(lanes) && |left| == |right| <= INPUT_BLOCK_SIZE
    requires Storable(left, bits) && Storable(right, bits)
    ensures var s := pre + Interleave(left, right, channels, bits) + post;
      var r := GetWavBuffer(s, |pre|, lanes, channels, bits, |left|);
      && r.lanes.left[..|left|] == left
      && (channels == 2 ==> r.lanes.right[..|left|] == right)
      && r.consumed == |Interleave(left, right, channels, bits)|
  {
    var b := Interleave(left, right, channels, bits);
    var s := pre + b + post;
    var r := GetWavBuffer(s, |pre|, lanes, channels, bits, |left|);
    forall j | 0 <= j < |left|
      ensures r.lanes.left[j] == left[j]
      ensures channels == 2 ==> r.lanes.right[j] == right[j]
    {
      RoundTripFrame(pre, left, right, post, lanes, channels, bits, j);
    }
  }
}
